=== FILE: README.md ===
# docliberator text pipeline in Dafny

docliberator turns the text extracted from a PDF into an accessible HTML page.
Two scripts do this, and this project models the text-structuring core of
both.

`improved_docliberator_5.py` works in five steps:

- It cleans the extracted text with `clean_text`: a table of character
  substitutions, then whitespace collapsing.
- It rejects text that is too short or mostly non-letters
  (`validate_extracted_text`).
- It finds a title line (`extract_title`).
- It cuts the rest into numbered sections, each marked with
  `[[SECTION:h2:…]]` (`prepare_marked_text`).
- It parses those markers back into a table of contents, `section{k}`
  anchors and paragraphs (`build_html_from_markers`), turning e-mail
  addresses, URLs, UK domains and UK phone numbers into links (`auto_link`).

It also turns two readability scores into advice
(`get_readability_advice`).

`niklabs_docliberator_ultra_plus.py` does three things:

- It pairs numbered headings with the text after them.
- It exports the pairs as HTML with a table of contents, as Markdown-like
  plain text, and as the full text.
- It rebuilds HTML from Markdown-like text that was edited elsewhere.
  `### `, `## ` and `- ` lines become `<h3>`, `<h2>` and list items, with
  `**bold**` and `_italic_` inline.

## Form of the model

There is one module per concern:

| Module | What it holds |
|---|---|
| `Text` | Python's `str` operations: `strip`, `split`, `splitlines`, `replace`, `upper`, `isalpha`, `isdigit` and `isspace` |
| `Sanitize` | Both versions of `clean_text` |
| `Quality` | `validate_extracted_text` and `get_readability_advice` |
| `Title` | `extract_title` |
| `Scanners` | The hand-written matchers for the link patterns |
| `LinkOrder` | The tuple sort |
| `LinkSelect` | Overlap filtering and right-to-left splicing |
| `AutoLink` | `auto_link` |
| `Segment` | `prepare_marked_text` |
| `Markers` | Parsing the markers back |
| `Paragraphs` | The paragraph split |
| `Html` | `build_html_from_markers` |
| `Pairing` | The pairing loop |
| `Export` | The export loop |
| `Inline` | `format_inline` |
| `Rebuild` | `flush_bullets` and the reconstruction loop |

Both scripts work by accumulating strings in loops. Each such loop is a
method with loop invariants, proved equal to a specification function. The
properties the code promises are lemmas about those functions.

Conventions:

- Python's regular expressions are not modelled in general. Each pattern
  the core uses is a scanner written out by hand, with the same greedy or
  lazy choices.
- Character classes are ASCII: `\w`, `\d`, `isalpha` and `upper` are
  restricted to ASCII. `isspace` is Python's full whitespace set.
- The readability scores are `real`s.
- `letters / len < 0.5` becomes `2 * letters < len`.
- `digits < len * 0.4` becomes `5 * digits < 2 * len`.

`build_html_from_markers` is modelled with the substitution table and the
link function as parameters. The page itself passes the `clean_text` table
and `auto_link`.

The `clean_text` table:

- The table at improved_docliberator_5.py:41-46 has lost its curly quotes
  (see Findings).
- The improved `clean_text` and the page use that table as Python reads it,
  `Sanitize.WrittenTable`.
- The table of niklabs_docliberator_ultra_plus.py:26-31, `Sanitize.ArtifactTable`,
  is the intended one. Key-freeness and idempotence of cleaning are proved
  for it, as the corrected half of the Findings.

The operations model the code as written. This holds in particular for the
findings:

- `clean_text` uses the table as written (`Sanitize.CleanText`).
- `auto_link` uses the `+44` pattern as written (`Scanners.InternationalAtAsWritten`).
- `prepare_marked_text` cuts the preamble where the probe matched (`Segment.MarkedBlocksAsWritten`).

The corrected definitions sit beside them, with their properties proved.

Where the code differs from the behaviour documented for the tool, the model
also follows the code:

- `get_readability_advice` always returns at least one item (an ease item
  is always added), not zero to two.
- The title stripped from niklabs section headings need not end in
  whitespace: a heading piece `1.  ` strips to `1.`.

## Model

| member | source | states |
|---|---|---|
| Sanitize.Substitute | niklabs_docliberator_ultra_plus.py:32-34 | The replacement loop returns the text with every entry of the table applied in table order (`ApplyTable`) |
| Sanitize.ApplyTableAppend | niklabs_docliberator_ultra_plus.py:32-33 | Applying two tables one after the other is applying their concatenation, so the order of the entries is what matters |
| Sanitize.ApplyTableNoKeys | niklabs_docliberator_ultra_plus.py:25-34 | Text holding none of the keys comes back unchanged |
| Sanitize.ApplyTableRemovesKey | improved_docliberator_5.py:47-48 | A single-character key that no value holds is absent after the replacement loop, whatever the input and wherever the key stands in the table |
| Sanitize.ApplyTableRemovesSingleKeys | niklabs_docliberator_ultra_plus.py:25-34 | If no value holds a single-character key, that key is absent from the result, whatever the input |
| Sanitize.ApplyTableKeepsAbsent | niklabs_docliberator_ultra_plus.py:32-33 | A character in neither the text nor any value is not in the result |
| Sanitize.ArtifactTableAvoidsSingleKeys | niklabs_docliberator_ultra_plus.py:26-31 | No replacement value of the table holds one of its single-character keys |
| Sanitize.ArtifactKeysHaveNoSpace | niklabs_docliberator_ultra_plus.py:26-31 | No key of the table holds whitespace, so the later whitespace collapse cannot re-create one |
| Sanitize.MojibakeEntryNeverFires | niklabs_docliberator_ultra_plus.py:29 | The `â€™` entry never changes anything, because `™` is deleted earlier in the table: the table without that entry gives the same result on every text |
| Sanitize.ArtifactCleanIdempotent | niklabs_docliberator_ultra_plus.py:25-34 | After one pass no key occurs in the text, and a second pass changes nothing |
| Sanitize.CollapseBlankLinesKeepsText | improved_docliberator_5.py:51 | Collapsing blank-line runs to one blank line removes only whitespace |
| Sanitize.CollapseSpacesFrom | improved_docliberator_5.py:52 | The result of collapsing runs of spaces has no two consecutive spaces and keeps the first character |
| Sanitize.CollapseSpacesKeepsText | improved_docliberator_5.py:52 | Collapsing spaces removes only spaces |
| Sanitize.CleanedTextShape | improved_docliberator_5.py:39-54 | `clean_text` output has no leading or trailing whitespace and no double space, and its non-space characters are exactly those of the substituted text |
| Sanitize.CleanedTextDropsKey | improved_docliberator_5.py:39-54 | For any table, a single-character key that is not whitespace and that no value holds is absent from the cleaned text |
| Sanitize.WrittenCleanedTextDropsKeys | improved_docliberator_5.py:39-54 | With the table as written, every single-character key except `"`, which maps to itself, is absent from the cleaned text |
| Sanitize.CleanedTextHasNoSingleKeys | niklabs_docliberator_ultra_plus.py:26-31 | Corrected half: with the intended table, no single-character key remains after the improved cleaning steps |
| Sanitize.CleanedTextFewBreaks | improved_docliberator_5.py:51-54 | No whitespace stretch of the cleaned text holds three line breaks, whatever the table |
| Sanitize.CleanShapeKeeps | improved_docliberator_5.py:51-54 | Trimmed text with no double space and no such stretch passes the blank-line collapse, the space collapse and `strip` unchanged |
| Sanitize.CleanedTextIdempotent | niklabs_docliberator_ultra_plus.py:26-31 | Corrected half: with the intended table, cleaning a cleaned text with the improved steps changes nothing |
| Sanitize.WrittenCleanNotIdempotent | improved_docliberator_5.py:41-54 | As written, cleaning twice differs from cleaning once: the replacement of the odd key can form that key again |
| Sanitize.CleanText | improved_docliberator_5.py:39-54 | The loop-and-collapse method computes `CleanedText` with the table as written: trimmed, no double space, no stretch of three line breaks, the non-space text of the substituted input, and no single-character key except `"` |
| Sanitize.WrittenTableKeepsCurlyQuotes | improved_docliberator_5.py:41-42 | With the table as written, prose whose only special characters are curly quotes comes back unchanged |
| Sanitize.WrittenCleanTextKeepsLeftQuote | improved_docliberator_5.py:39-54 | As written, `clean_text` leaves a left curly double quote in its output |
| Sanitize.ArtifactCleanTextRemovesLeftQuote | niklabs_docliberator_ultra_plus.py:27 | With the intended table, no left curly double quote survives `clean_text` |
| Quality.ValidateExtractedText | improved_docliberator_5.py:56-66 | Stripped length below 100 gives the too-short verdict first; otherwise fewer than half letters gives the non-text verdict; otherwise it is accepted with an empty message; accepted exactly when the message is empty |
| Quality.AcceptedHasFiftyLetters | improved_docliberator_5.py:56-66 | Accepted text holds at least 50 letters |
| Quality.AllLettersAccepted | improved_docliberator_5.py:56-66 | Text made only of letters is accepted exactly when it has at least 100 characters |
| Quality.ReadabilityAdvice | improved_docliberator_5.py:268-281 | One or two items. The sentence advice is present exactly when the reading age exceeds 12, and then comes first. The last item is the ease advice: difficult exactly when ease < 60, easy exactly when ease > 80, reasonable exactly when 60 ≤ ease ≤ 80 |
| Quality.AdviceMonotoneInEase | improved_docliberator_5.py:274-279 | A higher ease score never gives harsher ease advice: difficult at the higher score implies difficult at the lower, and easy at the lower implies easy at the higher |
| Title.TitleIndex | improved_docliberator_5.py:184-194 | The index found is the first line whose stripped form meets all five title conditions: no earlier line does |
| Title.TitleIndexIs | improved_docliberator_5.py:184-194 | Any index that qualifies and has no qualifying line before it is the one found |
| Title.ExtractTitle | improved_docliberator_5.py:181-195 | `None` exactly when no stripped line meets the conditions; otherwise the first qualifying stripped line |
| Title.FindTitle | improved_docliberator_5.py:181-195 | The early-return loop returns `ExtractTitle` |
| Title.TitleShape | improved_docliberator_5.py:187-193 | A title found is at least 10 characters, holds no lower-case letter and no line break, and neither starts nor ends with whitespace |
| Text.Strip | improved_docliberator_5.py:185 | `str.strip`: the result is the input with only whitespace removed at both ends, and it neither starts nor ends with whitespace |
| Text.StripIdempotent | improved_docliberator_5.py:212 | Stripping twice is stripping once |
| Text.SplitLines | improved_docliberator_5.py:183 | No line that `splitlines` yields holds a line break |
| Text.ReplaceAfterClearPrefix | improved_docliberator_5.py:202 | A pattern that cannot overlap itself, after a prefix in which it does not occur, is the first occurrence `replace` finds: the prefix passes through |
| Text.ReplaceDeletesEveryCopy | improved_docliberator_5.py:202 | `replace(title, "")` deletes every copy of a title that cannot overlap itself from pieces that do not hold it, not only the first |
| Text.NatToStringInjective | improved_docliberator_5.py:243 | Distinct section numbers give distinct decimal strings |
| Scanners.EmailAt | improved_docliberator_5.py:75-77 | An e-mail match starts and ends at a word boundary and holds an `@`, and the run of local-part characters from its start stops at an `@` |
| Scanners.UrlAt | improved_docliberator_5.py:79-81 | A URL match starts with `http` and runs up to whitespace, `<`, `>`, a quote or the end |
| Scanners.WwwAt | improved_docliberator_5.py:83-85 | A www match starts with `www.` and is at least eight characters long |
| Scanners.DomainAt | improved_docliberator_5.py:87-88 | A UK-domain match is at least seven characters, holds a `.`, starts at a word boundary with a letter or digit, runs over host characters up to a `.uk`, and ends at a word boundary |
| Scanners.LandlineAt | improved_docliberator_5.py:97 | A `0ddd ddd ddd(d)` match starts with `0`, holds only digits and optional spaces, and ends at a word boundary |
| Scanners.AreaCodeAt | improved_docliberator_5.py:98 | The same for `0dddd dddddd` |
| Scanners.InternationalAtAsWritten | improved_docliberator_5.py:99 | As written, a `+44` match needs a word character right before the `+` |
| Scanners.InternationalAt | improved_docliberator_5.py:99 | The intended `+44` matcher: the `+` is at the start or after a non-word character |
| Scanners.FindAll | improved_docliberator_5.py:75-104 | `finditer` yields non-overlapping matches in increasing order; each candidate is a match of the pattern, of its category, and its value is its own slice of the text |
| Scanners.FindAllComplete | improved_docliberator_5.py:75-104 | `finditer` skips no match: every position where the pattern matches starts a reported match or lies inside one |
| Scanners.DomainKeptBackwards | improved_docliberator_5.py:89-91 | A domain is kept exactly when the last whitespace-separated word of the 50 characters before it holds no `@` |
| Scanners.DomainAfterAtDropped | improved_docliberator_5.py:89-91 | A domain right after an `@` is dropped |
| Scanners.DomainAfterAddressWordDropped | improved_docliberator_5.py:89-91 | A domain whose preceding word holds an `@` within 50 characters is dropped |
| Scanners.DomainAtStartKept | improved_docliberator_5.py:89-91 | A domain at the start of the text is kept (empty context) |
| Scanners.GuardDomains | improved_docliberator_5.py:87-93 | Exactly the domain matches that pass the `@` guard are kept, in their order: a subsequence of the matches |
| Scanners.InternationalAfterSpaceMissed | improved_docliberator_5.py:99 | As written, `+44` at the start or after whitespace never matches |
| Scanners.InternationalExample | improved_docliberator_5.py:99 | `+44 123 456 7890` at the start: no match as written, a match to the end with the intended pattern |
| LinkOrder.LessTotal | improved_docliberator_5.py:107 | Tuple order is total on distinct candidates |
| LinkOrder.LessTransitive | improved_docliberator_5.py:107 | Tuple order is transitive |
| LinkOrder.LessEqAntisymmetric | improved_docliberator_5.py:107 | Tuple order is antisymmetric |
| LinkOrder.SortCandidatesSorted | improved_docliberator_5.py:107 | The sort's result is in tuple order |
| LinkOrder.SortCandidates | improved_docliberator_5.py:107 | The sort's result is a permutation of its input |
| LinkOrder.SortedUnique | improved_docliberator_5.py:107 | Two sorted permutations of the same candidates are equal |
| LinkOrder.SortIsTheSort | improved_docliberator_5.py:107 | Any sorted permutation is the model's sort, so `list.sort` is matched exactly |
| LinkOrder.SmallerEndFirst | improved_docliberator_5.py:107 | Among candidates with the same start, the one with the smaller end sorts first |
| LinkSelect.Select | improved_docliberator_5.py:108-119 | The nested overlap loop keeps exactly `Kept(items, |items|)` |
| LinkSelect.KeptDisjoint | improved_docliberator_5.py:108-119 | The kept candidates are pairwise disjoint as half-open spans |
| LinkSelect.KeptOrigin | improved_docliberator_5.py:108-119 | Every kept candidate is an input candidate that passed the overlap test at its turn |
| LinkSelect.KeptGrows | improved_docliberator_5.py:108-119 | The kept list only grows, and a prefix of the input keeps a prefix of the result |
| LinkSelect.DroppedOverlapsEarlier | improved_docliberator_5.py:108-119 | Every dropped candidate overlaps a kept candidate earlier in sort order |
| LinkSelect.LaterSameStartDropped | improved_docliberator_5.py:108-119 | A later non-empty candidate with the same start is dropped |
| LinkSelect.ShorterWins | improved_docliberator_5.py:106-119 | Of two candidates with the same start, the longer is dropped, contrary to the "keep the longest" comment |
| LinkSelect.KeptChain | improved_docliberator_5.py:108-121 | The kept candidates of a sorted list lie in the text in increasing, non-overlapping order |
| LinkSelect.MarkupByCategory | improved_docliberator_5.py:123-133 | An address links to `mailto:` plus itself, a URL to itself, a `www.` address or domain to `http://` plus itself, a phone number to `tel:` plus its value without spaces; the value is the visible text |
| LinkSelect.PhoneHref | improved_docliberator_5.py:131-133 | A phone href is `tel:` followed by the value with only `' '` removed, and it holds no space |
| LinkSelect.ReplaceSpaceIsDropSpaces | improved_docliberator_5.py:132 | `value.replace(' ', '')` removes exactly the spaces |
| LinkSelect.LinkedFromStep | improved_docliberator_5.py:121-137 | Splicing from the right: each step replaces one kept span by its markup, and the offsets still valid are those before it |
| LinkSelect.LinkedFromAll | improved_docliberator_5.py:121-137 | The right-to-left splices together give the text with every kept span replaced by its markup, in order |
| LinkSelect.Splice | improved_docliberator_5.py:121-137 | The reversed splice loop returns `Linked(text, kept)` |
| LinkSelect.SpliceOwnText | improved_docliberator_5.py:121-137 | Replacing each span by its own text returns the input, so every character outside the kept spans survives in order |
| LinkSelect.LinkedNothing | improved_docliberator_5.py:121-139 | With nothing kept, the text is returned unchanged |
| AutoLink.Collected | improved_docliberator_5.py:72-104 | Every candidate collected is a match of one of the seven patterns as written, a domain only if it passed the `@` guard; it lies in the text and carries its own slice as value |
| AutoLink.CollectedComplete | improved_docliberator_5.py:72-104 | Every position where one of the seven patterns matches lies in a match of that pattern, and that match is collected; for a domain, when it passes the `@` guard |
| AutoLink.CollectedPhoneStart | improved_docliberator_5.py:95-104 | A collected phone number starts with `0`, or with `+` right after a word character: `+44` at the start or after whitespace is never collected |
| AutoLink.NothingCollected | improved_docliberator_5.py:72-104 | From a leading `+` and then digits and spaces with no early `0`, nothing is collected |
| AutoLink.Plus44ExampleUnlinked | improved_docliberator_5.py:68-139 | `auto_link("+44 123 456 7890")` returns its input unchanged |
| AutoLink.Sorted | improved_docliberator_5.py:107 | After the sort: sorted, and a permutation of the collected candidates |
| AutoLink.Chosen | improved_docliberator_5.py:107-119 | The chosen candidates are pairwise disjoint, in text order, and each one was collected |
| AutoLink.Collect | improved_docliberator_5.py:72-104 | The collecting loops build `Collected(text)` |
| AutoLink.CollectDomains | improved_docliberator_5.py:87-93 | The domain loop keeps exactly the guarded domain matches |
| AutoLink.CollectPhones | improved_docliberator_5.py:95-104 | The phone loop appends the matches of the three patterns in order, the `+44` one as written |
| AutoLink.AutoLink | improved_docliberator_5.py:68-139 | `auto_link` returns `AutoLinked(text)`: collect, sort, select, splice |
| AutoLink.AutoLinkKeepsVisibleText | improved_docliberator_5.py:68-139 | With each link replaced by its visible text, the output is the input |
| LinkExample.AutoLinkExample | improved_docliberator_5.py:68-139 | `auto_link("Contact us at help@dudley.gov.uk or call 01384 812345.")` links the address to `mailto:help@dudley.gov.uk` and the number to `tel:01384812345`, and leaves the host inside the address unlinked |
| AutoLink.AutoLinkNothingFound | improved_docliberator_5.py:68-139 | With no candidate, the text comes back unchanged |
| Segment.ProbeFrom | improved_docliberator_5.py:205 | The probe `\d{1,2}\.\s+.+?` finds the first position where it matches, or reports that none does |
| Segment.HeadingMatches | improved_docliberator_5.py:217-218 | The heading matches are line-anchored `[1-9][0-9]?\.\s+.+` spans, in order and not overlapping |
| Segment.HeadingMatchesComplete | improved_docliberator_5.py:217-218 | Every position where a heading matches is covered by a match |
| Segment.HeadingMatchesFirst | improved_docliberator_5.py:217-218 | The first match starts at the first heading position |
| Segment.SectionBlockAt | improved_docliberator_5.py:220-225 | Block `k` is the stripped heading and the stripped text up to the next heading |
| Segment.SectionHeadingNumbered | improved_docliberator_5.py:221 | Every section heading starts with a one- or two-digit number and a period |
| Segment.NumberedHeadingNotFixed | improved_docliberator_5.py:208-214 | A numbered heading is never `Introduction` or `Document Content` |
| Segment.TitleRemovedEverywhere | improved_docliberator_5.py:201-202 | Every occurrence of a title that cannot overlap itself is removed from a text whose other parts do not hold it, before the result is stripped |
| Segment.MarkedBlocksKeepText | improved_docliberator_5.py:197-227 | With the preamble cut at the first heading, the blocks hold every non-space character of the text, in order |
| Segment.AsWrittenAgrees | improved_docliberator_5.py:205-216 | When the probe does not land on `0`, the code as written gives the same blocks |
| Segment.AsWrittenLosesText | improved_docliberator_5.py:205-216 | When the probe lands on a `0`, the code as written loses non-space text |
| Segment.AsWrittenKeepsTextIff | improved_docliberator_5.py:205-225 | The code's blocks keep every non-space character exactly when the probe does not land on a `0` |
| Segment.ProbeLandsOnZero | improved_docliberator_5.py:205 | On `Cost 100. Plan\n1. Aims` the probe lands on the `0` of `100` |
| Segment.MarkSections | improved_docliberator_5.py:204-227 | The segmentation loop returns the code's blocks, the preamble cut at the probe, joined with a blank line |
| Segment.AppendSections | improved_docliberator_5.py:220-225 | The section loop appends one rendered block per heading match, in order |
| Segment.PrepareMarkedText | improved_docliberator_5.py:197-227 | Returns `extract_title`'s title and the marked text of the title-free text, cut as the code cuts it |
| Markers.MarkerReadsHeading | improved_docliberator_5.py:231 | A marker around a heading with no line break and no `]]` reads back that heading |
| Markers.SplitAfterMarker | improved_docliberator_5.py:231 | `re.split` at a leading marker yields an empty piece and the heading, then splits the rest |
| Markers.MarkersRoundTrip | improved_docliberator_5.py:227-231 | Splitting the marked text gives back every heading and body in order |
| Markers.SplitPreamble | improved_docliberator_5.py:231 | Text before the first marker becomes the first piece, which the builder skips |
| Paragraphs.ParagraphsKeepText | improved_docliberator_5.py:256-257 | The non-blank paragraphs hold every non-space character of the body, in order |
| Paragraphs.BlankLineBreaks | improved_docliberator_5.py:256 | A blank line always ends a paragraph |
| Paragraphs.ParagraphsHaveNoBlankLine | improved_docliberator_5.py:256-257 | Every paragraph kept is non-empty and holds no blank line |
| Html.TocOpensWithH2 | improved_docliberator_5.py:240-246 | The table of contents starts with its `<h2>` heading |
| Html.HeadlineIffTitle | improved_docliberator_5.py:236-237 | The page starts with `<h1>` exactly when a non-empty title is given |
| Html.AnchorsDistinct | improved_docliberator_5.py:243 | Different sections get different anchors |
| Html.MarkedSectionsListed | improved_docliberator_5.py:240-245 | N blocks give N TOC entries, entry `k` carrying the cleaned heading of block `k` |
| Html.PreambleDiscarded | improved_docliberator_5.py:231-253 | Text before the first marker changes neither the page nor the full text |
| Html.ParagraphsHoldBody | improved_docliberator_5.py:252-257 | The paragraphs of a section hold all of its cleaned body |
| Html.BuildToc | improved_docliberator_5.py:240-245 | The TOC loop builds `Toc`: one entry per marker with anchor `section{k}`, in order |
| Html.BuildSections | improved_docliberator_5.py:249-258 | The section loop builds every `<h2 id="section{k}">` section, and the full text of cleaned bodies, each followed by a newline and taken before linking |
| Html.BuildHtmlFromMarkers | improved_docliberator_5.py:229-260 | Returns the page and the full text defined by `HtmlOf` and `FullTextOf`, using `clean_text` with its table as written and `auto_link` |
| Pairing.PairSections | niklabs_docliberator_ultra_plus.py:65-74 | The index loop returns `Paired(pieces)` and terminates; `i` grows by 1 or 2 |
| Pairing.PairsAtTitleIndices | niklabs_docliberator_ultra_plus.py:66-74 | The pairs are the pieces at increasing title indices with the piece after each, in source order; the last piece is never a title |
| Pairing.TitleIndices | niklabs_docliberator_ultra_plus.py:67-72 | Title indices are numbered pieces before the last, each at least two after the previous one |
| Pairing.NumberedPieceTaken | niklabs_docliberator_ultra_plus.py:67-74 | A numbered piece before the last is either taken as a title or is the content of the pair before it |
| Pairing.PairedTitlesNumbered | niklabs_docliberator_ultra_plus.py:68-71 | Every emitted title starts with digits and a period, followed by whitespace or the end |
| Export.ExportSections | niklabs_docliberator_ultra_plus.py:76-92 | The export loop builds the page, the plain text and the full text as the folds `Page`, `PlainText` and `FullText` over the pairs |
| Export.TocLinksHeading | niklabs_docliberator_ultra_plus.py:81-88 | The TOC item of pair `k` links to `#section{k}`, the section of pair `k` opens with `<h2 id="section{k}">`, and no other section opens with that id |
| Export.HeadingOpenUnique | niklabs_docliberator_ultra_plus.py:82-88 | A section opening carries one section number only |
| Export.CleanKeepsNumbered | niklabs_docliberator_ultra_plus.py:25-34 | Cleaning a numbered title keeps it numbered and keeps its first character |
| Export.PairedHeadingsReimport | niklabs_docliberator_ultra_plus.py:89 | Each `## title` line of the plain export reads back as an `<h2>` line in the reconstruction |
| Inline.SubKeepsText | niklabs_docliberator_ultra_plus.py:130-131 | With both tags replaced by the marker, the substitution gives back its input: it only wraps spans |
| Inline.SpansShortest | niklabs_docliberator_ultra_plus.py:130-131 | Every replaced span is the lazy one: it holds no line break and no marker |
| Inline.MatchesWhenClosed | niklabs_docliberator_ultra_plus.py:130-131 | A marker followed by another on the same line is replaced |
| Inline.ClosedWhenMatches | niklabs_docliberator_ultra_plus.py:130-131 | A replacement happens only when the closing marker is on the same line |
| Inline.FormatInlinePlain | niklabs_docliberator_ultra_plus.py:129-132 | Text with neither `**` nor `_` is returned unchanged; a lone `*` is plain text |
| Rebuild.FlushBullets | niklabs_docliberator_ultra_plus.py:134-141 | Returns `BulletList(buffer)`: empty for an empty buffer, else `<ul>`, one `<li>` per item in order, `</ul>` |
| Rebuild.BulletListEmptyIff | niklabs_docliberator_ultra_plus.py:135-141 | The list is empty exactly when the buffer is |
| Rebuild.ListItemsAppend | niklabs_docliberator_ultra_plus.py:137-138 | Items flushed in two batches give the `<li>` lines of both, in order |
| Rebuild.ClassifyAll | niklabs_docliberator_ultra_plus.py:149-168 | Every line is classified on its own, by the `if`/`elif` chain on the stripped line |
| Rebuild.GroupKeepsLines | niklabs_docliberator_ultra_plus.py:149-170 | Grouping loses, adds and reorders no line: every line lands in exactly one block |
| Rebuild.GroupMaximal | niklabs_docliberator_ultra_plus.py:149-170 | Every `<ul>` is a maximal run of `- ` lines: a non-empty list, never followed by another list, and single blocks are never bullets |
| Rebuild.Reconstruct | niklabs_docliberator_ultra_plus.py:143-170 | The state machine with its bullet buffer produces exactly the grouped rendering `Rebuilt(edited)`, with the buffer flushed at the end |

## Left out

- The Streamlit interface: page setup, widgets, columns, metrics, messages
  and download buttons. This includes `generate_download_button` and
  `validate_file`, which only wrap a library call and an error message.
- Reading PDFs, temporary files and `extract_images`. These are file and
  library I/O.
- `test_openai_connection` and `rewrite_text`. These are network calls.
- The `textstat` scores, which are floating-point library formulas. They
  are inputs to `Quality.ReadabilityAdvice`.
- `re.split` at niklabs_docliberator_ultra_plus.py:64. Its pieces are the
  input of `Pairing.PairSections`.
- Python's regular-expression engine in general. Each pattern is a
  hand-written scanner, and characters outside ASCII are not letters,
  digits or word characters.
- Pairing.PairedTitlesNumbered: states "digits, a period, then whitespace
  or the end", weaker than "followed by whitespace". A piece such as `1.  `
  matches `\d+\.\s+`, but stripping it leaves `1.`.
- Markers.MarkersRoundTrip: holds only for headings with no line break,
  no `]]` and no trailing `]`, and for bodies with no marker. The heading
  pattern's `\s+` can cross a line break, and the split's `(.*?)` cannot.
  A heading ending in `]` loses it: `1. Overview [draft]` reads back as
  `1. Overview [draft`, and the `]` goes to the body.
- Export.PairedHeadingsReimport: covers only the heading lines of the
  plain export. Content lines are not classified.
- Scanners.EmailAt: its contract states the boundaries, the `@` and the
  local run that reaches it. The shape of the host and the top-level part
  comes from the scanner's body.
- Sanitize.CleanText: does not promise that no key remains or that a
  second clean changes nothing. With the table as written neither holds:
  `"` maps to itself, and the odd key can be formed again (see Findings).
  Both are proved for the intended table by `CleanedTextHasNoSingleKeys`
  and `CleanedTextIdempotent`.
- Sanitize.CleanedTextHasNoSingleKeys: stated for the intended table. For
  the table as written, `WrittenCleanedTextDropsKeys` states it for every
  single-character key except `"`.

## Findings

| source | as written | input that shows it | evidently intended | confidence | as-written member | corrected member |
|---|---|---|---|---|---|---|
| improved_docliberator_5.py:42 | The quote entries have lost their curly characters. `'"'` maps to itself twice, and the `'''` pair parses as one odd key, so curly quotes pass through `clean_text` | `“Hello”` comes back as `“Hello”` | Curly quotes become straight quotes, as in niklabs_docliberator_ultra_plus.py:27 | high; not executed | Sanitize.WrittenCleanTextKeepsLeftQuote | Sanitize.ArtifactCleanTextRemovesLeftQuote |
| improved_docliberator_5.py:42 | The `'''` pair makes `: "'", ` one key, mapped to `'`. Its replacement can form the key again, so `clean_text` is not idempotent | `: ": "'", ", x` cleans to `: "'", x`, which cleans to `'x` | Cleaning a cleaned text changes nothing | high; not executed | Sanitize.WrittenCleanNotIdempotent | Sanitize.CleanedTextIdempotent |
| improved_docliberator_5.py:205-216 | The probe `\d{1,2}\.\s+.+?` is not anchored, so it can land inside a larger number. The preamble is cut at the probe and the headings are searched only after it, so the text in between is lost | `Cost 100. Plan\n1. Aims`: the probe lands on `0`, and `Cost 1` is kept while `00. Plan` is dropped | The preamble runs up to the first heading, and no text is lost | high; not executed | Segment.AsWrittenLosesText | Segment.MarkedBlocksKeepText |
| improved_docliberator_5.py:99 | `\b` before `\+44` needs a word character right before the `+`, so a number at the start of the text or after a space never matches | `+44 123 456 7890` | UK international numbers are linked wherever they stand | high; not executed | Scanners.InternationalAfterSpaceMissed | Scanners.InternationalAt |

=== FILE: autolink.dfy ===
/**
 * `auto_link` of improved_docliberator_5.py:68-139 put together: the
 * scanners collect the candidates, the sort orders them, the greedy filter
 * keeps the disjoint ones and the splice links them.
 */
module AutoLink {
  import opened Text
  import opened LinkOrder
  import opened LinkSelect
  import opened Scanners

  /** The three phone patterns, in the order the source tries them. */
  const PhonePatterns: seq<Pattern> := [LandlinePattern, AreaCodePattern, InternationalPattern]

  /** The matches of each pattern in turn. */
  function MatchesOf(ps: seq<Pattern>, text: string): (r: seq<Candidate>)
    ensures InText(r, |text|) && Faithful(r, text)
    ensures forall c :: c in r ==> exists p :: p in ps && MatchedBy(p, text, c)
  {
    if ps == [] then []
    else
      var m := FindAll(ps[|ps| - 1], text);
      ChainInText(m, 0, |text|);
      MatchesOf(ps[..|ps| - 1], text) + m
  }

  /** Everything the scanners report, in the order the source appends it. */
  function Collected(text: string): (r: seq<Candidate>)
    ensures InText(r, |text|) && Faithful(r, text)
    ensures forall c :: c in r ==> Reported(text, c)
  {
    var found := MatchesOf([EmailPattern, UrlPattern, WwwPattern], text);
    var domains := FindAll(DomainPattern, text);
    ChainInText(domains, 0, |text|);
    var phones := MatchesOf(PhonePatterns, text);
    ReportedParts(text, found, domains, phones);
    found + GuardDomains(text, domains) + phones
  }

  lemma ReportedParts(text: string, found: seq<Candidate>, domains: seq<Candidate>, phones: seq<Candidate>)
    requires forall c :: c in found ==> exists p :: p in [EmailPattern, UrlPattern, WwwPattern] && MatchedBy(p, text, c)
    requires forall c :: c in domains ==> c.start <= |text| && MatchedBy(DomainPattern, text, c)
    requires forall c :: c in phones ==> exists p :: p in PhonePatterns && MatchedBy(p, text, c)
    ensures forall c :: c in found + GuardDomains(text, domains) + phones ==> Reported(text, c)
  {
    var kept := GuardDomains(text, domains);
    forall c | c in found + kept + phones ensures Reported(text, c) {
      if c in found {
        var p :| p in [EmailPattern, UrlPattern, WwwPattern] && MatchedBy(p, text, c);
      } else if c in kept {
        assert MatchedBy(DomainPattern, text, c) && DomainKept(text, c.start);
      } else {
        var p :| p in PhonePatterns && MatchedBy(p, text, c);
      }
    }
  }

  /** Every match of a pattern in the list is among the matches collected for the list. */
  lemma {:induction false} MatchesOfHas(ps: seq<Pattern>, k: nat, text: string)
    requires k < |ps|
    ensures forall c :: c in FindAll(ps[k], text) ==> c in MatchesOf(ps, text)
    decreases |ps|
  {
    var init := ps[..|ps| - 1];
    if k < |ps| - 1 {
      MatchesOfHas(init, k, text);
      assert init[k] == ps[k];
    }
  }

  /**
   * `auto_link` misses no match: wherever a pattern matches, one of its
   * `finditer` matches spans that position, and it is collected unless it is
   * a domain match that the `@` guard drops.
   */
  lemma CollectedComplete(text: string, p: Pattern, q: nat)
    requires q < |text| && MatchAt(p, text, q).Some?
    ensures exists c ::
      && c in FindAll(p, text) && c.start <= q < c.end
      && (p != DomainPattern || DomainKept(text, c.start) ==> c in Collected(text))
  {
    FindAllComplete(p, text, q);
    var c :| c in FindAll(p, text) && c.start <= q < c.end;
    match p
    case EmailPattern => FoundCollected(text, 0, c);
    case UrlPattern => FoundCollected(text, 1, c);
    case WwwPattern => FoundCollected(text, 2, c);
    case DomainPattern =>
      if DomainKept(text, c.start) {
        DomainCollected(text, c);
      }
    case LandlinePattern => PhoneCollected(text, 0, c);
    case AreaCodePattern => PhoneCollected(text, 1, c);
    case InternationalPattern => PhoneCollected(text, 2, c);
  }

  lemma FoundCollected(text: string, k: nat, c: Candidate)
    requires k < 3 && c in FindAll([EmailPattern, UrlPattern, WwwPattern][k], text)
    ensures c in Collected(text)
  {
    MatchesOfHas([EmailPattern, UrlPattern, WwwPattern], k, text);
  }

  lemma PhoneCollected(text: string, k: nat, c: Candidate)
    requires k < 3 && c in FindAll(PhonePatterns[k], text)
    ensures c in Collected(text)
  {
    MatchesOfHas(PhonePatterns, k, text);
  }

  lemma DomainCollected(text: string, c: Candidate)
    requires c in FindAll(DomainPattern, text) && c.start <= |text| && DomainKept(text, c.start)
    ensures c in Collected(text)
  {
    var domains := FindAll(DomainPattern, text);
    ChainInText(domains, 0, |text|);
    assert c in GuardDomains(text, domains);
  }

  /** `c` is a match of one of the patterns, and a domain match passed the `@` guard. */
  predicate Reported(text: string, c: Candidate) {
    exists p :: MatchedBy(p, text, c) && (p == DomainPattern ==> DomainKept(text, c.start))
  }

  /**
   * As written, a collected phone number starts with the `0` of a national
   * number, or with the `+` of `+44` right after a word character: `+44` at
   * the start of the text or after whitespace is never collected.
   */
  lemma CollectedPhoneStart(text: string, c: Candidate)
    requires c in Collected(text) && c.cat == Phone
    ensures c.start < |text|
    ensures text[c.start] == '0' || (text[c.start] == '+' && c.start > 0 && IsWord(text[c.start - 1]))
  {
    assert Reported(text, c);
    var p :| MatchedBy(p, text, c);
    PhoneMatchStart(p, text, c);
  }

  lemma PhoneMatchStart(p: Pattern, s: string, c: Candidate)
    requires MatchedBy(p, s, c) && c.cat == Phone
    ensures c.start < |s|
    ensures s[c.start] == '0' || (s[c.start] == '+' && c.start > 0 && IsWord(s[c.start - 1]))
  {
    match p
    case LandlinePattern =>
    case AreaCodePattern =>
    case InternationalPattern =>
      assert s[c.start] == s[c.start..c.start + 3][0];
  }

  /**
   * Digits and spaces after a leading `+`, with no `0` early enough to open a
   * national number.
   */
  predicate PlusAndDigits(s: string) {
    && (forall k :: 0 <= k < |s| ==> IsDigit(s[k]) || s[k] == ' ' || (k == 0 && s[k] == '+'))
    && (forall k :: 0 <= k < |s| && s[k] == '0' ==> |s| < k + 10)
  }

  /** None of the patterns, as written, matches anywhere in such a text. */
  lemma NoPatternMatches(s: string, p: Pattern, i: nat)
    requires i <= |s| && PlusAndDigits(s)
    ensures MatchAt(p, s, i).None?
  {
    match p
    case EmailPattern => NoCharMatches(s, i, EmailAt(s, i), '@');
    case UrlPattern => NoWordMatches(s, i, UrlAt(s, i), "http");
    case WwwPattern => NoWordMatches(s, i, WwwAt(s, i), "www.");
    case DomainPattern => NoCharMatches(s, i, DomainAt(s, i), '.');
    case LandlinePattern =>
    case AreaCodePattern =>
    case InternationalPattern => NoWordMatches(s, i, InternationalAtAsWritten(s, i), "+44");
  }

  /** A match that must hold `c`, which such a text lacks, is none. */
  lemma NoCharMatches(s: string, i: nat, r: Option<nat>, c: char)
    requires i <= |s| && PlusAndDigits(s) && !IsDigit(c) && c != ' ' && c != '+'
    requires r.Some? ==> i <= r.value <= |s| && c in s[i..r.value]
    ensures r.None?
  {
  }

  /** A match that must start with `w`, which such a text lacks (a `+` only in front), is none. */
  lemma NoWordMatches(s: string, i: nat, r: Option<nat>, w: string)
    requires i <= |s| && PlusAndDigits(s) && w != [] && !IsDigit(w[0]) && w[0] != ' '
    requires w[0] == '+' ==> r.Some? ==> i > 0
    requires r.Some? ==> OccursAt(s, w, i)
    ensures r.None?
  {
  }

  /** Hence nothing is collected from such a text. */
  lemma NothingCollected(s: string)
    requires PlusAndDigits(s)
    ensures Collected(s) == []
  {
    var r := Collected(s);
    if r != [] {
      assert Reported(s, r[0]);
      var p :| MatchedBy(p, s, r[0]);
      NoPatternMatches(s, p, r[0].start);
    }
  }

  lemma Plus44ExampleShape()
    ensures PlusAndDigits(Plus44Example)
  {
  }

  /**
   * As written, `auto_link("+44 123 456 7890")` links nothing: at the start of
   * the text the `+44` pattern cannot match, and no other pattern matches.
   */
  lemma Plus44ExampleUnlinked()
    ensures Collected(Plus44Example) == []
    ensures AutoLinked(Plus44Example) == Plus44Example
  {
    Plus44ExampleShape();
    NothingCollected(Plus44Example);
    AutoLinkNothingFound(Plus44Example);
  }

  /** The candidates after `items.sort()`. */
  function Sorted(text: string): (r: seq<Candidate>)
    ensures LinkOrder.Sorted(r) && InText(r, |text|) && Faithful(r, text)
    ensures multiset(r) == multiset(Collected(text))
  {
    var c := Collected(text);
    SortCandidatesSorted(c);
    var r := SortCandidates(c);
    assert forall x :: x in r ==> x in multiset(c);
    r
  }

  /** The candidates the overlap filter keeps. */
  function Chosen(text: string): (r: seq<Candidate>)
    ensures Chain(r, 0, |text|) && Faithful(r, text)
    ensures forall i, j :: 0 <= i < j < |r| ==> !Overlaps(r[j], r[i])
    ensures forall c :: c in r ==> c in Collected(text)
  {
    var items := Sorted(text);
    KeptChain(items, |items|, |text|);
    KeptDisjoint(items, |items|);
    KeptSubset(items, |items|);
    assert forall c :: c in items ==> c in multiset(Collected(text));
    Kept(items, |items|)
  }

  /** What `auto_link(text)` returns. */
  function AutoLinked(text: string): string {
    Linked(text, Chosen(text))
  }

  lemma {:induction false} ChainInText(ks: seq<Candidate>, pos: nat, n: nat)
    requires Chain(ks, pos, n)
    ensures InText(ks, n)
    decreases |ks|
  {
    if ks != [] {
      ChainInText(ks[1..], ks[0].end, n);
      assert forall c :: c in ks ==> c == ks[0] || c in ks[1..];
    }
  }

  lemma {:induction false} KeptSubset(items: seq<Candidate>, n: nat)
    requires n <= |items|
    ensures forall c :: c in Kept(items, n) ==> c in items
    decreases n
  {
    if n > 0 {
      KeptSubset(items, n - 1);
    }
  }

  /** The visible text of an anchor: the matched value itself. */
  function Visible(c: Candidate): string {
    c.value
  }

  /**
   * Reading each anchor as its visible text gives the input back: nothing
   * outside the linked spans is changed, dropped or moved.
   */
  lemma AutoLinkKeepsVisibleText(text: string)
    ensures Chain(Chosen(text), 0, |text|)
    ensures SpliceFrom(text, Chosen(text), 0, Visible) == text
  {
    var ks := Chosen(text);
    SpliceOwnText(text, ks, 0, Visible);
  }

  /** When the scanners find nothing the text comes back unchanged. */
  lemma AutoLinkNothingFound(text: string)
    requires Collected(text) == []
    ensures AutoLinked(text) == text
  {
    assert |multiset(Sorted(text))| == 0;
  }

  lemma GuardDomainsStep(text: string, ds: seq<Candidate>, k: nat)
    requires k < |ds| && forall c :: c in ds ==> c.start <= |text|
    ensures GuardDomains(text, ds[..k + 1])
      == GuardDomains(text, ds[..k]) + (if DomainKept(text, ds[k].start) then [ds[k]] else [])
  {
    var xs := ds[..k + 1];
    assert xs[..k] == ds[..k] && xs[k] == ds[k];
    assert forall c :: c in xs ==> c in ds;
    GuardDomainsLast(text, xs);
  }

  lemma GuardDomainsLast(text: string, xs: seq<Candidate>)
    requires xs != [] && forall c :: c in xs ==> c.start <= |text|
    ensures GuardDomains(text, xs)
      == GuardDomains(text, xs[..|xs| - 1]) + (if DomainKept(text, xs[|xs| - 1].start) then [xs[|xs| - 1]] else [])
  {
  }

  lemma MatchesOfStep(ps: seq<Pattern>, p: nat, text: string)
    requires p < |ps|
    ensures MatchesOf(ps[..p + 1], text) == MatchesOf(ps[..p], text) + FindAll(ps[p], text)
  {
    assert ps[..p + 1][..p] == ps[..p];
  }

  lemma FirstThreePatterns(text: string)
    ensures MatchesOf([EmailPattern, UrlPattern, WwwPattern], text)
      == [] + FindAll(EmailPattern, text) + FindAll(UrlPattern, text) + FindAll(WwwPattern, text)
  {
    var e, u, w := FindAll(EmailPattern, text), FindAll(UrlPattern, text), FindAll(WwwPattern, text);
    assert MatchesOf([EmailPattern], text) == [] + e by {
      assert [EmailPattern][..0] == [];
    }
    assert MatchesOf([EmailPattern, UrlPattern], text) == [] + e + u by {
      assert [EmailPattern, UrlPattern][..1] == [EmailPattern];
    }
    assert [EmailPattern, UrlPattern, WwwPattern][..2] == [EmailPattern, UrlPattern];
  }

  /** The collecting half of `auto_link`: each `finditer` loop appends its matches. */
  method Collect(text: string) returns (items: seq<Candidate>)
    ensures items == Collected(text)
  {
    items := [];
    items := items + FindAll(EmailPattern, text);
    items := items + FindAll(UrlPattern, text);
    items := items + FindAll(WwwPattern, text);
    assert items == MatchesOf([EmailPattern, UrlPattern, WwwPattern], text) by {
      FirstThreePatterns(text);
    }
    var domains := CollectDomains(text);
    items := items + domains;
    var phones := CollectPhones(text);
    items := items + phones;
  }

  /** The domain loop: a match is appended when the guard lets it through. */
  method CollectDomains(text: string) returns (kept: seq<Candidate>)
    ensures kept == GuardDomains(text, FindAll(DomainPattern, text))
  {
    kept := [];
    var domains := FindAll(DomainPattern, text);
    ChainInText(domains, 0, |text|);
    for k := 0 to |domains|
      invariant kept == GuardDomains(text, domains[..k])
    {
      var d := domains[k];
      GuardDomainsStep(text, domains, k);
      if DomainKept(text, d.start) {
        kept := kept + [d];
      }
    }
    assert domains[..|domains|] == domains;
  }

  /** The loop over the three phone patterns. */
  method CollectPhones(text: string) returns (found: seq<Candidate>)
    ensures found == MatchesOf(PhonePatterns, text)
  {
    found := [];
    for p := 0 to |PhonePatterns|
      invariant found == MatchesOf(PhonePatterns[..p], text)
    {
      MatchesOfStep(PhonePatterns, p, text);
      found := found + FindAll(PhonePatterns[p], text);
    }
    assert PhonePatterns[..3] == PhonePatterns;
  }

  /** The `auto_link` method: collect, sort, filter, splice. */
  method AutoLink(text: string) returns (out: string)
    ensures out == AutoLinked(text)
  {
    var items := Collect(text);
    items := SortCandidates(items);
    assert items == Sorted(text);
    var filtered := Select(items);
    assert filtered == Chosen(text);
    out := Splice(text, filtered);
  }
}

=== FILE: export.dfy ===
/**
 * The export loop of niklabs_docliberator_ultra_plus.py:76-92: for each
 * paired section, in order, a table-of-contents line, an `<h2>` with its
 * paragraphs, a Hemingway plain-text block and the cleaned body for the
 * readability text; then the page around them.
 *
 * `clean_text` there is the substitution table alone (lines 25-34), and the
 * paragraphs are wrapped as they are, without linking.
 */
module Export {
  import opened Text
  import Sanitize
  import Paragraphs
  import Html
  import Pairing
  import Rebuild

  /** niklabs `clean_text` */
  function Clean(s: string): string {
    Sanitize.ApplyTable(Sanitize.ArtifactTable, s)
  }

  /** The link that opens the table-of-contents line of section `k` (from 1). */
  function TocOpen(k: nat): string {
    "  <li><a href=\"#" + Html.Anchor(k) + "\">"
  }

  function TocItem(s: Pairing.Section, k: nat): string {
    TocOpen(k) + Clean(s.title) + "</a></li>\n"
  }

  /** The tag that opens the heading of section `k`, carrying its anchor. */
  function HeadingOpen(k: nat): string {
    "<h2 id=\"" + Html.Anchor(k) + "\">"
  }

  /** The `<h2>` of section `k` and its paragraphs, each stripped and wrapped in `<p>`. */
  function SectionHtml(s: Pairing.Section, k: nat): string {
    HeadingOpen(k) + Clean(s.title) + "</h2>\n" + Html.WrapPieces(Unlinked, Paragraphs.Split(Clean(s.content)))
  }

  /** The paragraphs go out as they are: this script does not link them. */
  function Unlinked(p: string): string {
    p
  }

  /** The Hemingway block of a section: a `## ` heading line, then the cleaned body. */
  function PlainSection(s: Pairing.Section): string {
    "## " + Clean(s.title) + "\n" + Clean(s.content) + "\n\n"
  }

  function TocItems(ss: seq<Pairing.Section>): string {
    if ss == [] then "" else TocItems(ss[..|ss| - 1]) + TocItem(ss[|ss| - 1], |ss|)
  }

  function SectionsHtml(ss: seq<Pairing.Section>): string {
    if ss == [] then "" else SectionsHtml(ss[..|ss| - 1]) + SectionHtml(ss[|ss| - 1], |ss|)
  }

  function PlainText(ss: seq<Pairing.Section>): string {
    if ss == [] then "" else PlainText(ss[..|ss| - 1]) + PlainSection(ss[|ss| - 1])
  }

  /** `full_text`: each cleaned body and a line break. */
  function FullText(ss: seq<Pairing.Section>): string {
    if ss == [] then "" else FullText(ss[..|ss| - 1]) + Clean(ss[|ss| - 1].content) + "\n"
  }

  const Download := "\n<p><a href='#' download>Download the original PDF</a></p>"

  /** `full_output` */
  function Page(ss: seq<Pairing.Section>): string {
    Html.TocHead + TocItems(ss) + "</ul>" + "\n" + SectionsHtml(ss) + Download
  }

  // -------------------------------------------------------------- properties

  /** No key of the table starts with a digit, a period or whitespace. */
  predicate KeysSpareNumbering(t: seq<Sanitize.Entry>) {
    forall j :: 0 <= j < |t| ==> !IsDigit(t[j].key[0]) && t[j].key[0] != '.' && !IsSpace(t[j].key[0])
  }

  lemma ArtifactKeysSpareNumbering()
    ensures KeysSpareNumbering(Sanitize.ArtifactTable)
  {
    Sanitize.ArtifactKeysHaveNoSpace();
  }

  /** A prefix in which no key can start passes through every substitution unchanged. */
  lemma {:induction false} ApplyTableSkipsPrefix(t: seq<Sanitize.Entry>, a: string, r: string)
    requires forall j :: 0 <= j < |t| ==> t[j].key[0] !in a
    ensures Sanitize.ApplyTable(t, a + r) == a + Sanitize.ApplyTable(t, r)
    decreases |t|
  {
    if t != [] {
      var e, rest := t[0], t[1..];
      var r' := ReplaceAll(r, e.key, e.value);
      ReplaceSkipsPrefix(a, r, e.key, e.value);
      assert forall j :: 0 <= j < |rest| ==> rest[j] == t[j + 1];
      ApplyTableSkipsPrefix(rest, a, r');
      assert Sanitize.ApplyTable(t, a + r) == Sanitize.ApplyTable(rest, a + r');
      assert Sanitize.ApplyTable(t, r) == Sanitize.ApplyTable(rest, r');
    }
  }

  lemma {:induction false} ApplyTableEmpty(t: seq<Sanitize.Entry>)
    ensures Sanitize.ApplyTable(t, "") == ""
    decreases |t|
  {
    if t != [] {
      assert ReplaceAll("", t[0].key, t[0].value) == "";
      ApplyTableEmpty(t[1..]);
    }
  }

  /** A character unlike every character of `a` is not in `a`. */
  lemma NotInFront(a: string, c: char)
    requires forall i :: 0 <= i < |a| ==> IsDigit(a[i]) || a[i] == '.' || IsSpace(a[i])
    requires !IsDigit(c) && c != '.' && !IsSpace(c)
    ensures c !in a
  {
  }

  /**
   * With a table whose keys spare the numbering, cleaning keeps a title
   * numbered: its digits, its period and the whitespace after it pass through.
   */
  lemma TableKeepsNumbered(table: seq<Sanitize.Entry>, t: string)
    requires KeysSpareNumbering(table) && Pairing.NumberedTitle(t)
    ensures var u := Sanitize.ApplyTable(table, t); Pairing.NumberedTitle(u) && u[0] == t[0]
  {
    var d := Pairing.LeadingDigits(t);
    var n := if d + 1 < |t| then d + 2 else d + 1;
    var a, r := t[..n], t[n..];
    forall i | 0 <= i < |a| ensures IsDigit(a[i]) || a[i] == '.' || IsSpace(a[i]) {
      assert a[i] == t[i];
    }
    forall j | 0 <= j < |table| ensures table[j].key[0] !in a {
      NotInFront(a, table[j].key[0]);
    }
    assert t == a + r;
    ApplyTableSkipsPrefix(table, a, r);
    var u := Sanitize.ApplyTable(table, t);
    assert u == a + Sanitize.ApplyTable(table, r);
    if n == d + 1 {
      assert r == "";
      ApplyTableEmpty(table);
    } else {
      assert u[d + 1] == t[d + 1];
    }
    assert u[..n] == a;
    assert u[..d + 1] == t[..d + 1];
    Pairing.LeadingDigitsPrefix(u, t, d);
    assert u[0] == a[0];
  }

  /** `clean_text` keeps a title numbered. */
  lemma CleanKeepsNumbered(t: string)
    requires Pairing.NumberedTitle(t)
    ensures Pairing.NumberedTitle(Clean(t)) && Clean(t)[0] == t[0]
  {
    ArtifactKeysSpareNumbering();
    TableKeepsNumbered(Sanitize.ArtifactTable, t);
  }

  /** `"## " + c` strips to `"## "` and the strip of `c` when `c` starts with no whitespace. */
  lemma StripAfterMark(c: string)
    requires c != [] && !IsSpace(c[0])
    ensures Strip("## " + c) == "## " + Strip(c)
  {
    var x := "## " + c;
    var e := StripEnd(c);
    assert StripStart(c) == 0 && StripStart(x) == 0;
    assert 0 < e;
    forall m | 3 + e <= m < |x| ensures IsSpace(x[m]) {
      assert x[m] == c[m - 3];
    }
    assert x[3 + e - 1] == c[e - 1];
    SkipSpaceBackIs(x, 0, |x|, 3 + e);
    assert x[..3 + e] == "## " + c[..e];
  }

  /**
   * The Hemingway heading line of a section, pasted back, is read as an
   * `<h2>` heading with the cleaned title.
   */
  lemma HeadingLineReimports(s: Pairing.Section)
    requires Pairing.NumberedTitle(s.title)
    ensures Rebuild.Classify("## " + Clean(s.title)) == Rebuild.H2(Strip(Clean(s.title)))
  {
    CleanKeepsNumbered(s.title);
    MarkedLineIsH2(Clean(s.title));
  }

  /** A `## ` line whose text starts with no whitespace is an `<h2>` line. */
  lemma MarkedLineIsH2(c: string)
    requires c != [] && !IsSpace(c[0])
    ensures Rebuild.Classify("## " + c) == Rebuild.H2(Strip(c))
  {
    StripAfterMark(c);
    var t := "## " + Strip(c);
    assert !StartsWith(t, "### ") by {
      assert t[2] == ' ';
    }
    assert StartsWith(t, "## ") && t[3..] == Strip(c);
  }

  /** Every section the pairing loop emits comes back as a heading. */
  lemma PairedHeadingsReimport(pieces: seq<string>, k: nat)
    requires k < |Pairing.Paired(pieces)|
    ensures var s := Pairing.Paired(pieces)[k];
      Rebuild.Classify("## " + Clean(s.title)) == Rebuild.H2(Strip(Clean(s.title)))
  {
    Pairing.PairedTitlesNumbered(pieces);
    HeadingLineReimports(Pairing.Paired(pieces)[k]);
  }

  lemma StartsWithPrefix(h: string, x: string, y: string)
    requires StartsWith(h, x + y)
    ensures StartsWith(h, x)
  {
    assert h[..|x|] == (x + y)[..|x|];
  }

  /** The character at `q` of the field `a` in `h`, or the quote after it. */
  lemma FieldChar(p: string, a: string, tail: string, h: string, q: nat)
    requires tail != [] && tail[0] == '"' && StartsWith(h, p + a + tail) && q <= |a|
    ensures h[|p| + q] == if q < |a| then a[q] else '"'
  {
    var x := p + a + tail;
    assert h[|p| + q] == h[..|x|][|p| + q] == x[|p| + q];
  }

  /** A number written between a fixed prefix and a quote can be read back from where it stands. */
  lemma NumberFieldUnique(p: string, m: nat, n: nat, tail: string, h: string)
    requires tail != [] && tail[0] == '"'
    requires StartsWith(h, p + NatToString(m) + tail) && StartsWith(h, p + NatToString(n) + tail)
    ensures m == n
  {
    var a, b := NatToString(m), NatToString(n);
    if |a| < |b| {
      FieldChar(p, a, tail, h, |a|);
      FieldChar(p, b, tail, h, |a|);
    } else if |b| < |a| {
      FieldChar(p, a, tail, h, |b|);
      FieldChar(p, b, tail, h, |b|);
    } else {
      forall q | 0 <= q < |a| ensures a[q] == b[q] {
        FieldChar(p, a, tail, h, q);
        FieldChar(p, b, tail, h, q);
      }
      assert a == b;
      if m != n {
        NatToStringInjective(m, n);
      }
    }
  }

  /** The heading tag is a fixed prefix, the section number, and a quote. */
  lemma HeadingOpenShape(k: nat)
    ensures HeadingOpen(k) == "<h2 id=\"" + "section" + NatToString(k) + "\">"
  {
    AppendAssoc("<h2 id=\"", "section", NatToString(k));
  }

  lemma HeadingStarts(h: string, p: string, tail: string, k: nat)
    requires p == "<h2 id=\"" + "section" && tail == "\">"
    requires StartsWith(h, HeadingOpen(k))
    ensures StartsWith(h, p + NatToString(k) + tail)
  {
    HeadingOpenShape(k);
  }

  /** A heading tag names one section only. */
  lemma HeadingOpenUnique(h: string, j: nat, k: nat)
    requires StartsWith(h, HeadingOpen(j)) && StartsWith(h, HeadingOpen(k))
    ensures j == k
  {
    var p, tail := "<h2 id=\"" + "section", "\">";
    HeadingStarts(h, p, tail, j);
    HeadingStarts(h, p, tail, k);
    assert tail[0] == '"';
    NumberFieldUnique(p, j, k, tail, h);
  }

  lemma OpensWith(o: string, c: string, e: string, w: string)
    ensures StartsWith(o + c + e + w, o)
  {
    assert (o + c + e + w)[..|o|] == o;
  }

  lemma SectionOpens(s: Pairing.Section, k: nat)
    ensures StartsWith(SectionHtml(s, k), HeadingOpen(k))
  {
    OpensWith(HeadingOpen(k), Clean(s.title), "</h2>\n", Html.WrapPieces(Unlinked, Paragraphs.Split(Clean(s.content))));
  }

  /**
   * The table-of-contents line of section `k` links to the anchor its
   * heading carries, and no other section's heading carries that anchor.
   */
  lemma TocLinksHeading(s: Pairing.Section, t: Pairing.Section, j: nat, k: nat)
    ensures StartsWith(TocItem(s, k), "  <li><a href=\"#" + Html.Anchor(k) + "\">")
    ensures StartsWith(SectionHtml(s, k), "<h2 id=\"" + Html.Anchor(k) + "\">")
    ensures j != k ==> !StartsWith(SectionHtml(t, j), "<h2 id=\"" + Html.Anchor(k) + "\">")
  {
    OpensWith(TocOpen(k), Clean(s.title), "</a></li>\n", "");
    assert TocOpen(k) + Clean(s.title) + "</a></li>\n" + "" == TocItem(s, k);
    SectionOpens(s, k);
    if j != k && StartsWith(SectionHtml(t, j), HeadingOpen(k)) {
      SectionOpens(t, j);
      HeadingOpenUnique(SectionHtml(t, j), j, k);
    }
  }

  // ---------------------------------------------------------------- methods

  /** niklabs `clean_text`, the substitution loop. */
  method CleanOf(s: string) returns (r: string)
    ensures r == Clean(s)
  {
    r := Sanitize.Substitute(Sanitize.ArtifactTable, s);
  }

  lemma FoldStep(ss: seq<Pairing.Section>, k: nat)
    requires k < |ss|
    ensures var p, s := ss[..k + 1], ss[k];
      && TocItems(p) == TocItems(ss[..k]) + TocItem(s, k + 1)
      && SectionsHtml(p) == SectionsHtml(ss[..k]) + SectionHtml(s, k + 1)
      && PlainText(p) == PlainText(ss[..k]) + PlainSection(s)
      && FullText(p) == FullText(ss[..k]) + Clean(s.content) + "\n"
  {
    assert ss[..k + 1][..k] == ss[..k];
  }

  /** The `for idx, (title, content) in enumerate(structured_sections)` loop and the page around it. */
  method ExportSections(sections: seq<Pairing.Section>) returns (page: string, plain: string, fullText: string)
    ensures page == Page(sections)
    ensures plain == PlainText(sections)
    ensures fullText == FullText(sections)
  {
    var toc := Html.TocHead;
    var html := "";
    plain := "";
    fullText := "";
    for idx := 0 to |sections|
      invariant toc == Html.TocHead + TocItems(sections[..idx])
      invariant html == SectionsHtml(sections[..idx])
      invariant plain == PlainText(sections[..idx])
      invariant fullText == FullText(sections[..idx])
    {
      FoldStep(sections, idx);
      var title, content := sections[idx].title, sections[idx].content;
      var anchor := "section" + NatToString(idx + 1);
      var cleanTitle := CleanOf(title);
      var item := "  <li><a href=\"#" + anchor + "\">" + cleanTitle + "</a></li>\n";
      assert item == TocItem(sections[idx], idx + 1);
      AppendAssoc(Html.TocHead, TocItems(sections[..idx]), item);
      toc := toc + item;
      var cleaned := CleanOf(content);
      fullText := fullText + cleaned + "\n";
      var wrapped := Html.Wrap(Unlinked, Paragraphs.Split(cleaned));
      var section := "<h2 id=\"" + anchor + "\">" + cleanTitle + "</h2>\n" + wrapped;
      assert section == SectionHtml(sections[idx], idx + 1);
      html := html + section;
      var block := "## " + cleanTitle + "\n" + cleaned + "\n\n";
      assert block == PlainSection(sections[idx]);
      plain := plain + block;
    }
    assert sections[..|sections|] == sections;
    toc := toc + "</ul>";
    page := toc + "\n" + html + Download;
  }
}

=== FILE: html.dfy ===
/**
 * `build_html_from_markers` of improved_docliberator_5.py:229-260: the
 * marked text is split back at its markers, a table of contents lists the
 * cleaned headings with anchors `section1`, `section2`, …, and each section
 * becomes an `<h2>` with its linked paragraphs.
 */
module Html {
  import opened Text
  import Sanitize
  import Segment
  import Markers
  import Paragraphs
  import AutoLink

  /**
   * `clean_text` with the substitution table `table`; the page uses
   * `Sanitize.WrittenTable`, and everything below holds for any table.
   */
  function Clean(table: seq<Sanitize.Entry>, s: string): string {
    Sanitize.CleanedText(table, s)
  }

  /** What follows the text before the first marker: heading, body, heading, body, … */
  function Sections(text: string): (r: seq<string>)
    ensures |r| % 2 == 0
  {
    Markers.SplitMarkers(text)[1..]
  }

  /** The number of markers: `len(blocks) // 2`. */
  function Count(secs: seq<string>): (n: nat)
    requires |secs| % 2 == 0
    ensures 2 * n == |secs|
  {
    if secs == [] then 0 else 1 + Count(secs[2..])
  }

  /** The cleaned heading of section `j` (from 0). */
  function Heading(table: seq<Sanitize.Entry>, secs: seq<string>, j: nat): string
    requires 2 * j + 1 < |secs|
  {
    Clean(table, Strip(secs[2 * j]))
  }

  /** The cleaned body of section `j`. */
  function Body(table: seq<Sanitize.Entry>, secs: seq<string>, j: nat): string
    requires 2 * j + 1 < |secs|
  {
    Clean(table, secs[2 * j + 1])
  }

  /** `f"section{i//2+1}"`: the anchor of section `k`, counting from 1. */
  function Anchor(k: nat): string {
    "section" + NatToString(k)
  }

  function TocEntry(heading: string, k: nat): string {
    "<li><a href=\"#" + Anchor(k) + "\">" + heading + "</a></li>\n"
  }

  /** The entries of the first `k` sections. */
  function TocEntries(table: seq<Sanitize.Entry>, secs: seq<string>, k: nat): string
    requires 2 * k <= |secs|
  {
    if k == 0 then "" else TocEntries(table, secs, k - 1) + TocEntry(Heading(table, secs, k - 1), k)
  }

  const TocHead := "<h2>Table of Contents</h2>\n<ul>\n"

  function Toc(table: seq<Sanitize.Entry>, secs: seq<string>): string
    requires |secs| % 2 == 0
  {
    TocHead + TocEntries(table, secs, Count(secs)) + "</ul>\n"
  }

  /** `''.join(f"<p>{auto_link(p.strip())}</p>\n" for p in pieces if p.strip())` */
  function WrapPieces(link: string -> string, pieces: seq<string>): string {
    if pieces == [] then ""
    else
      var q := Strip(pieces[|pieces| - 1]);
      WrapPieces(link, pieces[..|pieces| - 1]) + (if q == [] then "" else "<p>" + link(q) + "</p>\n")
  }

  function SectionHtml(table: seq<Sanitize.Entry>, link: string -> string, secs: seq<string>, j: nat): string
    requires 2 * j + 1 < |secs|
  {
    "<h2 id=\"" + Anchor(j + 1) + "\">" + Heading(table, secs, j) + "</h2>\n"
      + WrapPieces(link, Paragraphs.Split(Body(table, secs, j)))
  }

  /** The html of the first `k` sections. */
  function SectionsHtml(table: seq<Sanitize.Entry>, link: string -> string, secs: seq<string>, k: nat): string
    requires 2 * k <= |secs|
  {
    if k == 0 then "" else SectionsHtml(table, link, secs, k - 1) + SectionHtml(table, link, secs, k - 1)
  }

  /** `full_text` after `k` sections: each cleaned body and a line break. */
  function FullText(table: seq<Sanitize.Entry>, secs: seq<string>, k: nat): string
    requires 2 * k <= |secs|
  {
    if k == 0 then "" else FullText(table, secs, k - 1) + Body(table, secs, k - 1) + "\n"
  }

  /** The `<h1>` line, present only for a non-empty title. */
  function TitleHtml(title: Option<string>): string {
    if title.Some? && title.value != [] then "<h1>" + title.value + "</h1>\n" else ""
  }

  /** The page `build_html_from_markers` returns. */
  function HtmlOf(table: seq<Sanitize.Entry>, link: string -> string, text: string, title: Option<string>): string {
    var secs := Sections(text);
    TitleHtml(title) + Toc(table, secs) + SectionsHtml(table, link, secs, Count(secs))
  }

  /** The plain text it returns alongside. */
  function FullTextOf(table: seq<Sanitize.Entry>, text: string): string {
    var secs := Sections(text);
    FullText(table, secs, Count(secs))
  }

  // -------------------------------------------------------------- properties

  lemma StartsWithAppend(a: string, b: string, p: string)
    requires StartsWith(a, p)
    ensures StartsWith(a + b, p)
  {
    assert (a + b)[..|p|] == a[..|p|];
  }

  /** The table of contents opens with its own `<h2>`. */
  lemma TocOpensWithH2(table: seq<Sanitize.Entry>, secs: seq<string>)
    requires |secs| % 2 == 0
    ensures StartsWith(Toc(table, secs), "<h2>")
  {
    assert StartsWith(TocHead, "<h2>") by { assert TocHead[..4] == "<h2>"; }
    StartsWithAppend(TocHead, TocEntries(table, secs, Count(secs)), "<h2>");
    StartsWithAppend(TocHead + TocEntries(table, secs, Count(secs)), "</ul>\n", "<h2>");
  }

  lemma HeadlineBeforeRest(title: Option<string>, rest: string)
    requires StartsWith(rest, "<h2>")
    ensures StartsWith(TitleHtml(title) + rest, "<h1>") <==> (title.Some? && title.value != [])
  {
    if title.Some? && title.value != [] {
      assert StartsWith("<h1>" + title.value + "</h1>\n", "<h1>");
      StartsWithAppend("<h1>" + title.value + "</h1>\n", rest, "<h1>");
    } else {
      assert TitleHtml(title) + rest == rest;
      assert rest[..4][2] == '2';
    }
  }

  /** After the title comes the table of contents, so an `<h2>`. */
  lemma AfterTitle(table: seq<Sanitize.Entry>, link: string -> string, secs: seq<string>)
    requires |secs| % 2 == 0
    ensures StartsWith(Toc(table, secs) + SectionsHtml(table, link, secs, Count(secs)), "<h2>")
  {
    TocOpensWithH2(table, secs);
    StartsWithAppend(Toc(table, secs), SectionsHtml(table, link, secs, Count(secs)), "<h2>");
  }

  /** The page opens with an `<h1>` exactly when a non-empty title is given. */
  lemma HeadlineIffTitle(table: seq<Sanitize.Entry>, link: string -> string, text: string, title: Option<string>)
    ensures StartsWith(HtmlOf(table, link, text, title), "<h1>") <==> (title.Some? && title.value != [])
  {
    var secs := Sections(text);
    AfterTitle(table, link, secs);
    HeadlineBeforeRest(title, Toc(table, secs) + SectionsHtml(table, link, secs, Count(secs)));
    AppendAssoc(TitleHtml(title), Toc(table, secs), SectionsHtml(table, link, secs, Count(secs)));
  }

  /** Different sections get different anchors. */
  lemma AnchorsDistinct(j: nat, k: nat)
    requires j != k
    ensures Anchor(j) != Anchor(k)
  {
    if Anchor(j) == Anchor(k) {
      assert NatToString(j) == Anchor(j)[7..] == Anchor(k)[7..] == NatToString(k);
      NatToStringInjective(j, k);
    }
  }

  lemma {:induction false} PiecesAt(bs: seq<Segment.Block>, k: nat)
    requires k < |bs|
    ensures Markers.Pieces(bs)[2 * k] == bs[k].heading
    decreases k
  {
    if k > 0 {
      PiecesAt(bs[1..], k - 1);
    }
  }

  /**
   * For the text `prepare_marked_text` writes, whatever stands before it:
   * one section per block, in order, each listed under its own cleaned
   * heading.
   */
  lemma MarkedSectionsListed(table: seq<Sanitize.Entry>, pre: string, bs: seq<Segment.Block>)
    requires bs != [] && Markers.PlainBlocks(bs) && Markers.NoOpenIn(pre, Segment.MarkedText(bs))
    ensures var secs := Sections(pre + Segment.MarkedText(bs));
      && Count(secs) == |bs|
      && forall k :: 0 <= k < |bs| ==> Heading(table, secs, k) == Clean(table, Strip(bs[k].heading))
  {
    Markers.SplitPreamble(pre, bs);
    var secs := Sections(pre + Segment.MarkedText(bs));
    assert secs == Markers.Pieces(bs);
    forall k | 0 <= k < |bs| ensures Heading(table, secs, k) == Clean(table, Strip(bs[k].heading)) {
      PiecesAt(bs, k);
    }
  }

  /** Text before the first marker is discarded: the page is the same without it. */
  lemma PreambleDiscarded(table: seq<Sanitize.Entry>, link: string -> string, pre: string, bs: seq<Segment.Block>, title: Option<string>)
    requires bs != [] && Markers.PlainBlocks(bs) && Markers.NoOpenIn(pre, Segment.MarkedText(bs))
    ensures HtmlOf(table, link, pre + Segment.MarkedText(bs), title) == HtmlOf(table, link, Segment.MarkedText(bs), title)
    ensures FullTextOf(table, pre + Segment.MarkedText(bs)) == FullTextOf(table, Segment.MarkedText(bs))
  {
    Markers.SplitPreamble(pre, bs);
    Markers.MarkersRoundTrip(bs);
  }

  /** Every paragraph of the page holds all the text of its section body. */
  lemma ParagraphsHoldBody(table: seq<Sanitize.Entry>, secs: seq<string>, j: nat)
    requires 2 * j + 1 < |secs|
    ensures NonSpace(Concat(Paragraphs.Paragraphs(Body(table, secs, j)))) == NonSpace(Body(table, secs, j))
  {
    Paragraphs.ParagraphsKeepText(Body(table, secs, j));
  }

  // ----------------------------------------------------------------- methods

  /** `clean_text`, as the loops below call it. */
  method CleanOf(table: seq<Sanitize.Entry>, s: string) returns (r: string)
    ensures r == Clean(table, s)
  {
    var t := Sanitize.Substitute(table, s);
    r := Strip(Sanitize.CollapseSpaces(Sanitize.CollapseBlankLines(t)));
  }

  /** The paragraph list comprehension: strip each piece, link the non-blank ones. */
  method Wrap(link: string -> string, pieces: seq<string>) returns (wrapped: string)
    ensures wrapped == WrapPieces(link, pieces)
  {
    wrapped := "";
    for k := 0 to |pieces|
      invariant wrapped == WrapPieces(link, pieces[..k])
    {
      assert pieces[..k + 1][..k] == pieces[..k];
      var q := Strip(pieces[k]);
      if q != [] {
        var linked := link(q);
        wrapped := wrapped + ("<p>" + linked + "</p>\n");
      }
    }
    assert pieces[..|pieces|] == pieces;
  }

  /** `i // 2` for the odd `i` the loops step through. */
  lemma HalfOdd(j: nat)
    ensures (2 * j + 1) / 2 == j
  {
  }

  /** One line of the table of contents, for the heading at `blocks[i]`. */
  method TocLine(table: seq<Sanitize.Entry>, blocks: seq<string>, i: nat, ghost j: nat) returns (line: string)
    requires i == 2 * j + 1 && i + 1 < |blocks|
    ensures line == TocEntry(Heading(table, blocks[1..], j), j + 1)
  {
    HalfOdd(j);
    var heading := CleanOf(table, Strip(blocks[i]));
    var anchor := "section" + NatToString(i / 2 + 1);
    assert blocks[1..][2 * j] == blocks[i];
    line := "<li><a href=\"#" + anchor + "\">" + heading + "</a></li>\n";
  }

  lemma TocStep(table: seq<Sanitize.Entry>, secs: seq<string>, j: nat, toc: string, line: string)
    requires 2 * j + 1 < |secs|
    requires toc == TocHead + TocEntries(table, secs, j)
    requires line == TocEntry(Heading(table, secs, j), j + 1)
    ensures toc + line == TocHead + TocEntries(table, secs, j + 1)
  {
    AppendAssoc(TocHead, TocEntries(table, secs, j), line);
  }

  /** The table of contents loop. */
  method BuildToc(table: seq<Sanitize.Entry>, blocks: seq<string>) returns (toc: string)
    requires |blocks| % 2 == 1
    ensures toc == Toc(table, blocks[1..])
  {
    ghost var secs := blocks[1..];
    ghost var n := Count(secs);
    assert |blocks| == 2 * n + 1;
    toc := "";
    toc := toc + TocHead;
    var i := 1;
    ghost var j := 0;
    while i < |blocks|
      invariant |blocks| == 2 * n + 1 && i == 2 * j + 1 && j <= n
      invariant toc == TocHead + TocEntries(table, secs, j)
    {
      assert i + 1 < |blocks| by { assert j < n; }
      var line := TocLine(table, blocks, i, j);
      TocStep(table, secs, j, toc, line);
      toc := toc + line;
      i := i + 2;
      j := j + 1;
    }
    assert j == n;
    toc := toc + "</ul>\n";
  }

  /** The `<h2>` and paragraphs of the section at `blocks[i]`, and its cleaned body. */
  method SectionAt(table: seq<Sanitize.Entry>, link: string -> string, blocks: seq<string>, i: nat, ghost j: nat) returns (section: string, body: string)
    requires i == 2 * j + 1 && i + 1 < |blocks|
    ensures section == SectionHtml(table, link, blocks[1..], j)
    ensures body == Body(table, blocks[1..], j)
  {
    HalfOdd(j);
    var heading := CleanOf(table, Strip(blocks[i]));
    var anchor := "section" + NatToString(i / 2 + 1);
    body := CleanOf(table, blocks[i + 1]);
    assert blocks[1..][2 * j] == blocks[i] && blocks[1..][2 * j + 1] == blocks[i + 1];
    var pieces := Paragraphs.Split(body);
    var wrapped := Wrap(link, pieces);
    section := "<h2 id=\"" + anchor + "\">" + heading + "</h2>\n" + wrapped;
  }

  /** One pass of the main loop: the section at `blocks[i]` appended to both outputs. */
  method AppendSection(table: seq<Sanitize.Entry>, link: string -> string, blocks: seq<string>, i: nat, ghost j: nat,
                       html: string, fullText: string) returns (html': string, fullText': string)
    requires i == 2 * j + 1 && i + 1 < |blocks|
    requires html == SectionsHtml(table, link, blocks[1..], j)
    requires fullText == FullText(table, blocks[1..], j)
    ensures html' == SectionsHtml(table, link, blocks[1..], j + 1)
    ensures fullText' == FullText(table, blocks[1..], j + 1)
  {
    var section, body := SectionAt(table, link, blocks, i, j);
    fullText' := fullText + body + "\n";
    html' := html + section;
  }

  /** The main content loop: headings, paragraphs and the plain text. */
  method BuildSections(table: seq<Sanitize.Entry>, link: string -> string, blocks: seq<string>, ghost n: nat) returns (html: string, fullText: string)
    requires |blocks| == 2 * n + 1
    ensures html == SectionsHtml(table, link, blocks[1..], n)
    ensures fullText == FullText(table, blocks[1..], n)
  {
    ghost var secs := blocks[1..];
    html := "";
    fullText := "";
    var i := 1;
    ghost var j := 0;
    while i < |blocks|
      invariant i == 2 * j + 1 && j <= n
      invariant html == SectionsHtml(table, link, secs, j)
      invariant fullText == FullText(table, secs, j)
    {
      assert i + 1 < |blocks| by { assert j < n; }
      html, fullText := AppendSection(table, link, blocks, i, j, html, fullText);
      i := i + 2;
      j := j + 1;
    }
    assert j == n;
  }

  /** `build_html_from_markers(text, title)`. */
  method BuildHtmlFromMarkers(text: string, title: Option<string>) returns (html: string, fullText: string)
    ensures html == HtmlOf(Sanitize.WrittenTable, AutoLink.AutoLinked, text, title)
    ensures fullText == FullTextOf(Sanitize.WrittenTable, text)
  {
    var table := Sanitize.WrittenTable;
    var blocks := Markers.SplitMarkers(text);
    html := "";
    if title.Some? && title.value != [] {
      html := html + ("<h1>" + title.value + "</h1>\n");
    }
    assert html == TitleHtml(title);
    assert blocks[1..] == Sections(text);
    var toc := BuildToc(table, blocks);
    html := html + toc;
    var sections;
    sections, fullText := BuildSections(table, AutoLink.AutoLinked, blocks, Count(blocks[1..]));
    html := html + sections;
  }
}

=== FILE: inline.dfy ===
/**
 * `format_inline` of niklabs_docliberator_ultra_plus.py:129-132: two
 * `re.sub` passes, `\*\*(.*?)\*\*` to `<strong>…</strong>` and then
 * `_(.*?)_` to `<em>…</em>`.
 *
 * Both patterns have the shape marker, lazy `.*?`, marker.  `re.sub` scans
 * left to right; where a marker starts and a second one follows on the same
 * line (`.` does not match a newline), the shortest such span is replaced
 * and the scan resumes after the closing marker; anywhere else the
 * character is copied and the scan moves on by one.
 */
module Inline {
  import opened Text

  /** What the scan makes of the text: a character copied through, or the text between two markers. */
  datatype Piece = Char(c: char) | Span(inner: string)

  /**
   * Where the lazy `(.*?)` that starts at `j` stops: the first marker at or
   * after `j` with no line break before it.
   */
  function CloseFrom(s: string, w: string, j: nat): (r: Option<nat>)
    requires w != [] && j <= |s|
    ensures r.Some? ==> j <= r.value && OccursAt(s, w, r.value)
    decreases |s| - j
  {
    if j + |w| > |s| then None
    else if OccursAt(s, w, j) then Some(j)
    else if s[j] == '\n' then None
    else CloseFrom(s, w, j + 1)
  }

  /** The marker it stops at is the first, and no line break comes before it. */
  lemma {:induction false} CloseFromFirst(s: string, w: string, j: nat)
    requires w != [] && j <= |s| && CloseFrom(s, w, j).Some?
    ensures forall k :: j <= k < CloseFrom(s, w, j).value ==> s[k] != '\n' && !OccursAt(s, w, k)
    decreases |s| - j
  {
    if !OccursAt(s, w, j) {
      CloseFromFirst(s, w, j + 1);
    }
  }

  /** A marker at `i` with a closing one later on its line: the pattern matches at `i`. */
  predicate Matches(s: string, w: string, i: nat)
    requires w != [] && i < |s|
  {
    OccursAt(s, w, i) && CloseFrom(s, w, i + |w|).Some?
  }

  /** The piece the scan makes at `i`: the span of a match, or the character. */
  function Head(s: string, w: string, i: nat): Piece
    requires w != [] && i < |s|
  {
    if Matches(s, w, i) then Span(s[i + |w|..CloseFrom(s, w, i + |w|).value]) else Char(s[i])
  }

  /** Where the scan resumes: after the closing marker of a match, or at the next character. */
  function Next(s: string, w: string, i: nat): (n: nat)
    requires w != [] && i < |s|
    ensures i < n <= |s|
  {
    if Matches(s, w, i) then CloseFrom(s, w, i + |w|).value + |w| else i + 1
  }

  /** The scan of `re.sub` over `s[i..]`. */
  function Scan(s: string, w: string, i: nat): seq<Piece>
    requires w != [] && i <= |s|
    decreases |s| - i
  {
    if i == |s| then [] else [Head(s, w, i)] + Scan(s, w, Next(s, w, i))
  }

  /** One piece written out, a span between `before` and `after`. */
  function Show(p: Piece, before: string, after: string): string {
    if p.Char? then [p.c] else before + p.inner + after
  }

  /** The pieces written out in order. */
  function Render(ps: seq<Piece>, before: string, after: string): string {
    if ps == [] then "" else Show(ps[0], before, after) + Render(ps[1..], before, after)
  }

  /** `re.sub(marker + "(.*?)" + marker, before + r"\1" + after, s)` */
  function Sub(s: string, w: string, before: string, after: string): string
    requires w != []
  {
    Render(Scan(s, w, 0), before, after)
  }

  /** `format_inline(text)` */
  function FormatInline(s: string): string {
    Sub(Sub(s, "**", "<strong>", "</strong>"), "_", "<em>", "</em>")
  }

  // -------------------------------------------------------------- properties

  lemma RenderCons(p: Piece, ps: seq<Piece>, before: string, after: string)
    ensures Render([p] + ps, before, after) == Show(p, before, after) + Render(ps, before, after)
  {
    assert ([p] + ps)[0] == p && ([p] + ps)[1..] == ps;
  }

  lemma SliceAround(s: string, a: nat, b: nat, c: nat, d: nat)
    requires a <= b <= c <= d <= |s|
    ensures s[a..] == s[a..b] + s[b..c] + s[c..d] + s[d..]
  {
  }

  /** With the marker put back around a span, the piece at `i` is the text it was cut from. */
  lemma HeadKeepsText(s: string, w: string, i: nat)
    requires w != [] && i < |s|
    ensures s[i..] == Show(Head(s, w, i), w, w) + s[Next(s, w, i)..]
  {
    if Matches(s, w, i) {
      var j := CloseFrom(s, w, i + |w|).value;
      assert Head(s, w, i) == Span(s[i + |w|..j]) && Next(s, w, i) == j + |w|;
      SpanKeepsText(s, w, i, j);
    } else {
      assert Head(s, w, i) == Char(s[i]) && Next(s, w, i) == i + 1;
      assert s[i..] == [s[i]] + s[i + 1..];
    }
  }

  lemma SpanKeepsText(s: string, w: string, i: nat, j: nat)
    requires i + |w| <= j && OccursAt(s, w, i) && OccursAt(s, w, j)
    ensures s[i..] == Show(Span(s[i + |w|..j]), w, w) + s[j + |w|..]
  {
    SliceAround(s, i, i + |w|, j, j + |w|);
  }

  lemma RenderStep(p: Piece, ps: seq<Piece>, before: string, after: string, t: string)
    requires Render(ps, before, after) == t
    ensures Render([p] + ps, before, after) == Show(p, before, after) + t
  {
    RenderCons(p, ps, before, after);
  }

  /**
   * The substitution only wraps: putting the marker back in place of both
   * tags gives the scanned text again, so no character is lost or moved.
   */
  lemma {:induction false} ScanKeepsText(s: string, w: string, i: nat)
    requires w != [] && i <= |s|
    ensures Render(Scan(s, w, i), w, w) == s[i..]
    decreases |s| - i
  {
    if i < |s| {
      var n := Next(s, w, i);
      ScanKeepsText(s, w, n);
      RenderStep(Head(s, w, i), Scan(s, w, n), w, w, s[n..]);
      HeadKeepsText(s, w, i);
    }
  }

  /** Hence `Sub(s, w, w, w)` is `s`: the output differs from the input only in its tags. */
  lemma SubKeepsText(s: string, w: string)
    requires w != []
    ensures Sub(s, w, w, w) == s
  {
    ScanKeepsText(s, w, 0);
  }

  /** A stretch with no line break and no marker holds no marker as a whole string either. */
  lemma SpanClean(s: string, w: string, a: nat, j: nat)
    requires w != [] && a <= j <= |s|
    requires forall k :: a <= k < j ==> s[k] != '\n' && !OccursAt(s, w, k)
    ensures '\n' !in s[a..j] && !Occurs(s[a..j], w)
  {
    forall m | 0 <= m < j - a ensures s[a..j][m] != '\n' {
      assert s[a..j][m] == s[a + m];
    }
    forall k: nat | k <= |s[a..j]| ensures !OccursAt(s[a..j], w, k) {
      OccursInSlice(s, a, j, w, k);
      if k + |w| <= j - a {
        assert !OccursAt(s, w, a + k);
      }
    }
  }

  /** The span the lazy match takes from `a` on holds no line break and no marker. */
  lemma SpanCleanAt(s: string, w: string, a: nat)
    requires w != [] && a <= |s| && CloseFrom(s, w, a).Some?
    ensures Shortest(Span(s[a..CloseFrom(s, w, a).value]), w)
  {
    CloseFromFirst(s, w, a);
    SpanClean(s, w, a, CloseFrom(s, w, a).value);
  }

  /** A span that holds no line break and no marker. */
  predicate Shortest(p: Piece, w: string) {
    p.Span? ==> '\n' !in p.inner && !Occurs(p.inner, w)
  }

  predicate AllShortest(ps: seq<Piece>, w: string) {
    ps == [] || (Shortest(ps[0], w) && AllShortest(ps[1..], w))
  }

  lemma ShortestCons(x: Piece, ps: seq<Piece>, w: string)
    requires Shortest(x, w) && AllShortest(ps, w)
    ensures AllShortest([x] + ps, w)
  {
    assert ([x] + ps)[1..] == ps;
  }

  lemma {:induction false} AllShortestEach(ps: seq<Piece>, w: string)
    requires AllShortest(ps, w)
    ensures forall p :: p in ps ==> Shortest(p, w)
  {
    if ps != [] {
      AllShortestEach(ps[1..], w);
      assert ps == [ps[0]] + ps[1..];
    }
  }

  lemma HeadShortest(s: string, w: string, i: nat)
    requires w != [] && i < |s|
    ensures Shortest(Head(s, w, i), w)
  {
    if Matches(s, w, i) {
      SpanCleanAt(s, w, i + |w|);
    }
  }

  lemma {:induction false} ScanShortest(s: string, w: string, i: nat)
    requires w != [] && i <= |s|
    ensures AllShortest(Scan(s, w, i), w)
    decreases |s| - i
  {
    if i < |s| {
      HeadShortest(s, w, i);
      ScanShortest(s, w, Next(s, w, i));
      ShortestCons(Head(s, w, i), Scan(s, w, Next(s, w, i)), w);
    }
  }

  /** Every span is the shortest: it holds no line break and no marker. */
  lemma SpansShortest(s: string, w: string)
    requires w != []
    ensures forall p :: p in Scan(s, w, 0) && p.Span? ==> '\n' !in p.inner && !Occurs(p.inner, w)
  {
    ScanShortest(s, w, 0);
    AllShortestEach(Scan(s, w, 0), w);
  }

  /** The marker stands at `k`, with no line break between `a` and it. */
  predicate LaterOnLine(s: string, w: string, a: nat, k: nat) {
    a <= k && OccursAt(s, w, k) && forall m :: a <= m < k ==> s[m] != '\n'
  }

  /** A marker later on the same line is found, and the lazy match stops no later than it. */
  lemma {:induction false} CloseFromFinds(s: string, w: string, j: nat, k: nat)
    requires w != [] && LaterOnLine(s, w, j, k)
    ensures CloseFrom(s, w, j).Some? && CloseFrom(s, w, j).value <= k
    decreases k - j
  {
    if !OccursAt(s, w, j) {
      CloseFromFinds(s, w, j + 1, k);
    }
  }

  /** The pattern matches at a marker when another one follows it on the same line, */
  lemma MatchesWhenClosed(s: string, w: string, i: nat, k: nat)
    requires w != [] && i < |s| && OccursAt(s, w, i) && LaterOnLine(s, w, i + |w|, k)
    ensures Matches(s, w, i)
  {
    CloseFromFinds(s, w, i + |w|, k);
  }

  /** and only then: a match closes at a marker on the same line. */
  lemma ClosedWhenMatches(s: string, w: string, i: nat)
    requires w != [] && i < |s| && Matches(s, w, i)
    ensures LaterOnLine(s, w, i + |w|, CloseFrom(s, w, i + |w|).value)
  {
    CloseFromFirst(s, w, i + |w|);
  }

  /** Text without the marker comes back unchanged, whatever the tags. */
  lemma {:induction false} ScanWithoutMarker(s: string, w: string, i: nat, before: string, after: string)
    requires w != [] && i <= |s| && !Occurs(s, w)
    ensures Render(Scan(s, w, i), before, after) == s[i..]
    decreases |s| - i
  {
    if i < |s| {
      assert !OccursAt(s, w, i);
      ScanWithoutMarker(s, w, i + 1, before, after);
      RenderStep(Char(s[i]), Scan(s, w, i + 1), before, after, s[i + 1..]);
      assert s[i..] == [s[i]] + s[i + 1..];
    }
  }

  /** Text with no `**` and no `_` is left as it is; a lone `*` is plain text. */
  lemma FormatInlinePlain(s: string)
    requires !Occurs(s, "**") && '_' !in s
    ensures FormatInline(s) == s
  {
    ScanWithoutMarker(s, "**", 0, "<strong>", "</strong>");
    NotOccursWithoutChar(s, "_", '_');
    ScanWithoutMarker(s, "_", 0, "<em>", "</em>");
  }
}

=== FILE: linkexample.dfy ===
/**
 * The worked example of `auto_link` (improved_docliberator_5.py:68-139): an
 * address and a phone number in one sentence, traced through every scanner,
 * the `@` guard, the sort, the overlap filter and the splice.  The sentence
 * is written as its pieces so that each fact about a character is a fact
 * about one short piece.
 */
module LinkExample {
  import opened Text
  import opened LinkOrder
  import opened LinkSelect
  import opened Scanners
  import opened AutoLink

  const Lead: string := "Contact us at "
  const Local: string := "help"
  const Host: string := "dudley.gov.uk"
  const Middle: string := " or call "
  const AreaCode: string := "01384"
  const Subscriber: string := "812345"

  /** The number `01384 812345`. */
  const Number: string := AreaCode + " " + Subscriber

  /** The address `help@dudley.gov.uk`. */
  const MailText: string := Local + "@" + Host

  /** `Contact us at help@dudley.gov.uk or call 01384 812345.` */
  const Sentence: string := Lead + MailText + Middle + Number + "."

  /** The anchor for the address. */
  const MailAnchor: string := "<a href=\"mailto:" + MailText + "\">" + MailText + "</a>"

  /** The digits dialled, the number without its space. */
  const Dialled: string := AreaCode + Subscriber

  /** The anchor for the number. */
  const NumberAnchor: string := "<a href=\"tel:" + Dialled + "\">" + Number + "</a>"

  /**
   * What `auto_link` gives for it: `Contact us at <a href="mailto:help@dudley.gov.uk">help@dudley.gov.uk</a>
   * or call <a href="tel:01384812345">01384 812345</a>.`
   */
  const LinkedSentence: string := Lead + MailAnchor + Middle + NumberAnchor + "."

  /** The address match, `Sentence[14..32]`. */
  const MailMatch: Candidate := Candidate(14, 32, Email, Sentence[14..32])

  /** The domain match inside the address, `Sentence[19..32]`. */
  const HostMatch: Candidate := Candidate(19, 32, Domain, Sentence[19..32])

  /** The area-code match, `Sentence[41..53]`. */
  const NumberMatch: Candidate := Candidate(41, 53, Phone, Sentence[41..53])

  // ------------------------------------------------------------- characters

  lemma SentenceLength()
    ensures |Sentence| == 54
  {
  }

  lemma OneAt()
    ensures forall n :: 0 <= n < |Sentence| && Sentence[n] == '@' ==> n == 18
  {
  }

  lemma OneH()
    ensures forall n :: 0 <= n < |Sentence| && Sentence[n] == 'h' ==> n == 14
  {
  }

  lemma OneZero()
    ensures forall n :: 0 <= n < |Sentence| && Sentence[n] == '0' ==> n == 41
  {
  }

  lemma Dots()
    ensures forall n :: 0 <= n < |Sentence| && Sentence[n] == '.' ==> n == 25 || n == 29 || n == 53
  {
  }

  lemma NoW()
    ensures forall n :: 0 <= n < |Sentence| ==> Sentence[n] != 'w'
  {
  }

  lemma NoPlus()
    ensures forall n :: 0 <= n < |Sentence| ==> Sentence[n] != '+'
  {
  }

  lemma Landmarks()
    ensures Sentence[13] == ' ' && Sentence[14] == 'h' && Sentence[15] == 'e' && Sentence[18] == '@'
    ensures Sentence[19] == 'd' && Sentence[25] == '.' && Sentence[26] == 'g' && Sentence[29] == '.'
    ensures Sentence[30] == 'u' && Sentence[31] == 'k' && Sentence[32] == ' ' && Sentence[40] == ' '
    ensures Sentence[41] == '0' && Sentence[45] == '4' && Sentence[46] == ' ' && Sentence[52] == '5'
    ensures Sentence[53] == '.'
  {
  }

  // ----------------------------------------------------------------- stepping

  /** Backtracking over a host with no `.` in `(j, k]` ends where it would from `j`. */
  lemma {:induction false} HostPartDown(s: string, d: nat, j: nat, k: nat)
    requires d <= j <= k <= |s|
    requires forall m :: j < m <= k && m < |s| ==> s[m] != '.'
    ensures HostPart(s, d, k) == HostPart(s, d, j)
    decreases k - j
  {
    if j < k {
      HostPartDown(s, d, j, k - 1);
    }
  }

  /** The same for a domain host, where a `.` may stand before a text that is no UK suffix. */
  lemma {:induction false} UkHostDown(s: string, b: nat, j: nat, k: nat)
    requires b <= j <= k <= |s| && forall m :: b <= m < k ==> IsHostChar(s[m])
    requires forall m :: j < m <= k && m < |s| && s[m] == '.' ==> UkSuffix(s, m + 1).None?
    ensures UkHost(s, b, k) == UkHost(s, b, j)
    decreases k - j
  {
    if j < k {
      UkHostDown(s, b, j, k - 1);
    }
  }

  // -------------------------------------------------------------------- email

  lemma EmailAtMail()
    ensures EmailAt(Sentence, 14) == Some(32)
  {
    var s := Sentence;
    Landmarks();
    MailRuns();
    Dots();
    HostPartDown(s, 19, 29, 32);
    assert HostPart(s, 19, 29) == Some(32);
  }

  /** The runs the address scanner measures: `help`, `dudley.gov.uk` and `uk`. */
  lemma MailRuns()
    ensures RunEnd(Sentence, 14, IsLocalChar) == 18
    ensures RunEnd(Sentence, 19, IsHostChar) == 32
    ensures RunEnd(Sentence, 30, IsLetter) == 32
  {
    LocalRun();
    HostRun();
    Landmarks();
    RunEndIs(Sentence, 30, 32, IsLetter);
  }

  lemma LocalRun()
    ensures RunEnd(Sentence, 14, IsLocalChar) == 18
  {
    Landmarks();
    RunEndIs(Sentence, 14, 18, IsLocalChar);
  }

  lemma HostRun()
    ensures RunEnd(Sentence, 19, IsHostChar) == 32
  {
    Landmarks();
    RunEndIs(Sentence, 19, 32, IsHostChar);
  }

  /** Before the address a local run stops at the space at 13, short of the `@`. */
  lemma NoEmailBefore(k: nat)
    requires k < 14
    ensures EmailAt(Sentence, k).None?
  {
    var n := RunEnd(Sentence, k, IsLocalChar);
    Landmarks();
    assert n <= 13 by {
      assert !IsLocalChar(Sentence[13]);
    }
    OneAt();
  }

  /** After the `@` there is none left to reach. */
  lemma NoEmailAfter(k: nat)
    requires 18 < k <= |Sentence|
    ensures EmailAt(Sentence, k).None?
  {
    OneAt();
  }

  lemma EmailMatches()
    ensures FindAll(EmailPattern, Sentence) == [MailMatch]
  {
    var s := Sentence;
    SentenceLength();
    forall k | 0 <= k < 14 ensures MatchAt(EmailPattern, s, k).None? {
      NoEmailBefore(k);
    }
    forall k | 32 <= k < 54 ensures MatchAt(EmailPattern, s, k).None? {
      NoEmailAfter(k);
    }
    FindFromNone(EmailPattern, s, 0, 14);
    EmailAtMail();
    FindFromFound(EmailPattern, s, 14);
    FindFromNone(EmailPattern, s, 32, 54);
  }

  // ------------------------------------------------------ url, www and +44

  /** A word occurs in the sentence only where its first letter does. */
  lemma FirstOfOccurrence(s: string, w: string, k: nat)
    requires w != [] && OccursAt(s, w, k)
    ensures k < |s| && s[k] == w[0]
  {
    assert s[k] == s[k..k + |w|][0];
  }

  /** `http` could only start at the one `h`, which is followed by `e`. */
  lemma NoUrl(k: nat)
    requires k <= |Sentence|
    ensures UrlAt(Sentence, k).None?
  {
    if OccursAt(Sentence, "http", k) {
      FirstOfOccurrence(Sentence, "http", k);
      OneH();
      assert k == 14;
      HelpIsNoUrl();
    }
  }

  lemma HelpIsNoUrl()
    ensures !OccursAt(Sentence, "http", 14)
  {
    assert Sentence[14..18][1] == 'e';
  }

  lemma NoWww(k: nat)
    requires k <= |Sentence|
    ensures WwwAt(Sentence, k).None?
  {
    if OccursAt(Sentence, "www.", k) {
      FirstOfOccurrence(Sentence, "www.", k);
      NoW();
    }
  }

  lemma NoInternational(k: nat)
    requires k <= |Sentence|
    ensures InternationalAtAsWritten(Sentence, k).None?
  {
    if OccursAt(Sentence, "+44", k) {
      FirstOfOccurrence(Sentence, "+44", k);
      NoPlus();
    }
  }

  /** A pattern that matches nowhere reports nothing. */
  lemma NoMatches(p: Pattern, s: string)
    requires forall k :: 0 <= k <= |s| ==> MatchAt(p, s, k).None?
    ensures FindAll(p, s) == []
  {
    FindFromNone(p, s, 0, |s|);
  }

  lemma UnmatchedPatterns()
    ensures FindAll(UrlPattern, Sentence) == []
    ensures FindAll(WwwPattern, Sentence) == []
    ensures FindAll(InternationalPattern, Sentence) == []
  {
    forall k | 0 <= k <= |Sentence| ensures MatchAt(UrlPattern, Sentence, k).None? {
      NoUrl(k);
    }
    forall k | 0 <= k <= |Sentence| ensures MatchAt(WwwPattern, Sentence, k).None? {
      NoWww(k);
    }
    forall k | 0 <= k <= |Sentence| ensures MatchAt(InternationalPattern, Sentence, k).None? {
      NoInternational(k);
    }
    NoMatches(UrlPattern, Sentence);
    NoMatches(WwwPattern, Sentence);
    NoMatches(InternationalPattern, Sentence);
  }

  // ------------------------------------------------------------------- domain

  /** After the first dot of the host comes `gov.uk`; after the second, no suffix. */
  lemma Suffixes()
    ensures UkSuffix(Sentence, 26) == Some(32)
    ensures UkSuffix(Sentence, 30).None?
  {
    assert Sentence[26..32] == "gov.uk";
    Landmarks();
    assert Sentence[30..36][0] == 'u';
    assert Sentence[30..35][0] == 'u';
  }

  lemma DomainAtHost()
    ensures DomainAt(Sentence, 19) == Some(32)
  {
    var s := Sentence;
    Landmarks();
    MailRuns();
    RunEndIs(s, 20, 32, IsHostChar);
    Suffixes();
    Dots();
    UkHostDown(s, 20, 25, 32);
    assert UkEnd(s, 32) == Some(32);
    assert UkHost(s, 20, 25) == Some(32);
  }

  /**
   * A domain match needs host characters up to a `.uk`; the only one is at
   * 29, and the `@` at 18 stops any host that starts before it.
   */
  lemma NoDomainElsewhere(k: nat)
    requires k <= |Sentence| && (k < 19 || 32 <= k)
    ensures DomainAt(Sentence, k).None?
  {
    var s := Sentence;
    var r := DomainAt(s, k);
    if r.Some? {
      var m :| k <= m && m + 3 <= r.value && OccursAt(s, ".uk", m)
        && forall j :: k <= j < m + 3 ==> IsHostChar(s[j]);
      OneUk(m);
      if k < 19 {
        assert IsHostChar(s[18]) by {
          assert k <= 18 < m + 3;
        }
        AtIsNoHostChar();
      }
    }
  }

  /** The one `.uk` of the sentence. */
  lemma OneUk(m: nat)
    requires OccursAt(Sentence, ".uk", m)
    ensures m == 29
  {
    FirstOfOccurrence(Sentence, ".uk", m);
    Dots();
    Landmarks();
    assert Sentence[m + 1] == Sentence[m..m + 3][1];
  }

  lemma AtIsNoHostChar()
    ensures !IsHostChar(Sentence[18])
  {
    Landmarks();
  }

  lemma DomainMatches()
    ensures FindAll(DomainPattern, Sentence) == [HostMatch]
  {
    var s := Sentence;
    SentenceLength();
    forall k | 0 <= k < 19 ensures MatchAt(DomainPattern, s, k).None? {
      NoDomainElsewhere(k);
    }
    forall k | 32 <= k < 54 ensures MatchAt(DomainPattern, s, k).None? {
      NoDomainElsewhere(k);
    }
    FindFromNone(DomainPattern, s, 0, 19);
    DomainAtHost();
    FindFromFound(DomainPattern, s, 19);
    FindFromNone(DomainPattern, s, 32, 54);
  }

  // -------------------------------------------------------------------- phone

  /** The digit runs of `01384 812345`. */
  lemma NumberRuns()
    ensures RunEnd(Sentence, 42, IsDigit) == 46
    ensures RunEnd(Sentence, 45, IsDigit) == 46
    ensures RunEnd(Sentence, 47, IsDigit) == 53
  {
    var s := Sentence;
    Landmarks();
    RunEndIs(s, 42, 46, IsDigit);
    RunEndIs(s, 45, 46, IsDigit);
    RunEndIs(s, 47, 53, IsDigit);
  }

  /** `0\d{3}` fits, but `\d{3}` cannot follow without a space after four more digits. */
  lemma NoLandlineAtNumber()
    ensures LandlineAt(Sentence, 41).None?
  {
    NumberRuns();
    Landmarks();
    assert ThreeDigitsTail(Sentence, 45).None?;
  }

  /** `0\d{4}`, the space, and six digits up to the full stop. */
  lemma AreaCodeAtNumber()
    ensures AreaCodeAt(Sentence, 41) == Some(53)
  {
    var s := Sentence;
    NumberRuns();
    Landmarks();
    assert TryDigits(s, 47, 5, 6) == Some(53);
  }

  /** Both phone patterns start with the one `0`. */
  lemma NoPhoneElsewhere(k: nat)
    requires k <= |Sentence|
    ensures LandlineAt(Sentence, k).None?
    ensures k != 41 ==> AreaCodeAt(Sentence, k).None?
  {
    OneZero();
    NoLandlineAtNumber();
  }

  lemma AreaCodeMatches()
    ensures FindAll(AreaCodePattern, Sentence) == [NumberMatch]
  {
    var s := Sentence;
    SentenceLength();
    forall k | 0 <= k < 41 ensures MatchAt(AreaCodePattern, s, k).None? {
      NoPhoneElsewhere(k);
    }
    forall k | 53 <= k < 54 ensures MatchAt(AreaCodePattern, s, k).None? {
      NoPhoneElsewhere(k);
    }
    FindFromNone(AreaCodePattern, s, 0, 41);
    AreaCodeAtNumber();
    FindFromFound(AreaCodePattern, s, 41);
    FindFromNone(AreaCodePattern, s, 53, 54);
  }

  lemma LandlineMatches()
    ensures FindAll(LandlinePattern, Sentence) == []
  {
    forall k | 0 <= k <= |Sentence| ensures MatchAt(LandlinePattern, Sentence, k).None? {
      NoPhoneElsewhere(k);
    }
    NoMatches(LandlinePattern, Sentence);
  }

  /** The matches of the three phone patterns, one list after another. */
  lemma PhonePatternsInTurn(text: string)
    ensures MatchesOf(PhonePatterns, text)
      == [] + FindAll(LandlinePattern, text) + FindAll(AreaCodePattern, text) + FindAll(InternationalPattern, text)
  {
    var a, b := FindAll(LandlinePattern, text), FindAll(AreaCodePattern, text);
    assert MatchesOf([LandlinePattern], text) == [] + a by {
      assert [LandlinePattern][..0] == [];
    }
    assert MatchesOf([LandlinePattern, AreaCodePattern], text) == [] + a + b by {
      assert [LandlinePattern, AreaCodePattern][..1] == [LandlinePattern];
    }
    assert PhonePatterns[..2] == [LandlinePattern, AreaCodePattern];
  }

  lemma PhoneMatches()
    ensures MatchesOf(PhonePatterns, Sentence) == [NumberMatch]
  {
    PhonePatternsInTurn(Sentence);
    LandlineMatches();
    AreaCodeMatches();
    UnmatchedPatterns();
  }

  // ------------------------------------------------------------- the whole

  /** The address and the number; the host is dropped by the `@` guard. */
  lemma CollectedExample()
    ensures Collected(Sentence) == [MailMatch, NumberMatch]
  {
    var s := Sentence;
    FirstThreePatterns(s);
    EmailMatches();
    UnmatchedPatterns();
    DomainMatches();
    Landmarks();
    DomainAfterAtDropped(s, 19);
    GuardDomainsLast(s, [HostMatch]);
    PhoneMatches();
  }

  lemma SortedExample()
    ensures AutoLink.Sorted(Sentence) == [MailMatch, NumberMatch]
  {
    CollectedExample();
    InOrder();
    SortIsTheSort(Collected(Sentence), [MailMatch, NumberMatch]);
  }

  /** The address starts first. */
  lemma InOrder()
    ensures LinkOrder.Sorted([MailMatch, NumberMatch])
  {
    assert Less(MailMatch, NumberMatch);
  }

  /** The two spans do not overlap, so both are kept. */
  lemma ChosenExample()
    ensures Chosen(Sentence) == [MailMatch, NumberMatch]
  {
    SortedExample();
    BothKept(MailMatch, NumberMatch);
  }

  /** Of two sorted spans that do not overlap, both are kept. */
  lemma BothKept(x: Candidate, y: Candidate)
    requires x.end <= y.start
    ensures Kept([x, y], 2) == [x, y]
  {
    assert Kept([x, y], 1) == [x];
    assert !Overlaps(y, x);
  }

  /** Splicing two spans: the text before, the first, the gap, the second, the rest. */
  lemma SpliceTwo(t: string, x: Candidate, y: Candidate, f: Candidate -> string)
    requires x.start < x.end <= y.start < y.end <= |t|
    ensures Chain([x, y], 0, |t|)
    ensures SpliceFrom(t, [x, y], 0, f) == t[..x.start] + f(x) + t[x.end..y.start] + f(y) + t[y.end..]
  {
    var a, b, c, d, e := t[..x.start], f(x), t[x.end..y.start], f(y), t[y.end..];
    assert [x, y][1..] == [y] && [y][1..] == [];
    assert SpliceFrom(t, [y], x.end, f) == c + d + e;
    assert t[0..x.start] == a;
    assert SpliceFrom(t, [x, y], 0, f) == a + b + (c + d + e);
    Associative(a + b, c + d, e);
    Associative(a + b, c, d);
  }

  lemma Associative(p: string, q: string, r: string)
    ensures p + (q + r) == p + q + r
  {
  }

  /** Where the five pieces of a text lie. */
  lemma Pieces(a: string, b: string, c: string, d: string, e: string)
    ensures var t := a + b + c + d + e;
      var i, j, k, l := |a|, |a| + |b|, |a| + |b| + |c|, |a| + |b| + |c| + |d|;
      && t[..i] == a && t[i..j] == b && t[j..k] == c && t[k..l] == d && t[l..] == e
  {
  }

  lemma SentencePieces()
    ensures Sentence[..14] == Lead && Sentence[14..32] == MailText && Sentence[32..41] == Middle
    ensures Sentence[41..53] == Number && Sentence[53..] == "."
  {
    Pieces(Lead, MailText, Middle, Number, ".");
  }

  /** The number dialled: its digits without the space. */
  lemma DialledNumber()
    ensures DropSpaces(Number) == Dialled
  {
    Associative(AreaCode, " ", Subscriber);
    DropSpacesJoin(AreaCode, " " + Subscriber);
    NoSpaceKept(AreaCode);
    NoSpaceKept(Subscriber);
    assert (" " + Subscriber)[0] == ' ' && (" " + Subscriber)[1..] == Subscriber;
    assert DropSpaces(" " + Subscriber) == DropSpaces(Subscriber);
  }

  lemma {:induction false} DropSpacesJoin(u: string, v: string)
    ensures DropSpaces(u + v) == DropSpaces(u) + DropSpaces(v)
    decreases |u|
  {
    if u != [] {
      var h := if u[0] == ' ' then [] else [u[0]];
      assert (u + v)[0] == u[0] && (u + v)[1..] == u[1..] + v;
      assert DropSpaces(u + v) == h + DropSpaces(u[1..] + v);
      DropSpacesJoin(u[1..], v);
      assert DropSpaces(u) == h + DropSpaces(u[1..]);
    } else {
      assert u + v == v;
    }
  }

  lemma {:induction false} NoSpaceKept(u: string)
    requires forall k :: 0 <= k < |u| ==> u[k] != ' '
    ensures DropSpaces(u) == u
    decreases |u|
  {
    if u != [] {
      NoSpaceKept(u[1..]);
      assert u == [u[0]] + u[1..];
    }
  }

  lemma MailMarkup()
    ensures MailMatch.value == MailText && Markup(MailMatch) == MailAnchor
  {
    SentencePieces();
    MarkupByCategory(MailMatch);
  }

  lemma NumberMarkup()
    ensures NumberMatch.value == Number && Markup(NumberMatch) == NumberAnchor
  {
    SentencePieces();
    MarkupByCategory(NumberMatch);
    DialledNumber();
  }

  /**
   * `auto_link("Contact us at help@dudley.gov.uk or call 01384 812345.")`
   * links the address with `mailto:` and the number with `tel:` and its
   * digits; the host inside the address is not linked a second time.
   */
  lemma AutoLinkExample()
    ensures AutoLinked(Sentence) == LinkedSentence
  {
    ChosenExample();
    SplicedExample();
  }

  lemma SplicedExample()
    ensures Chain([MailMatch, NumberMatch], 0, |Sentence|)
    ensures Linked(Sentence, [MailMatch, NumberMatch]) == LinkedSentence
  {
    SentenceLength();
    SpliceTwo(Sentence, MailMatch, NumberMatch, Markup);
    SentencePieces();
    MailMarkup();
    NumberMarkup();
  }
}

=== FILE: linkorder.dfy ===
/**
 * The candidates `auto_link` of improved_docliberator_5.py collects, and the
 * order `items.sort()` puts them in: Python compares the tuples
 * `(start, end, category, value)` field by field, the two strings by code
 * point.
 */
module LinkOrder {
  datatype Category = Email | Url | Www | Domain | Phone

  /** The category as the tuple holds it, a string. */
  function Name(c: Category): string {
    match c
    case Email => "email"
    case Url => "url"
    case Www => "www"
    case Domain => "domain"
    case Phone => "phone"
  }

  lemma NameInjective(a: Category, b: Category)
    requires Name(a) == Name(b)
    ensures a == b
  {
  }

  /** `(match.start(), match.end(), category, match.group(1))` */
  datatype Candidate = Candidate(start: nat, end: nat, cat: Category, value: string)

  // ------------------------------------------------------------ string order

  /** Python's `a < b` on `str`: lexicographic by code point, a proper prefix first. */
  predicate StrLess(a: string, b: string)
    decreases |a|
  {
    if a == [] then b != []
    else if b == [] then false
    else if a[0] != b[0] then a[0] < b[0]
    else StrLess(a[1..], b[1..])
  }

  lemma {:induction false} StrLessIrreflexive(a: string)
    ensures !StrLess(a, a)
    decreases |a|
  {
    if a != [] {
      StrLessIrreflexive(a[1..]);
    }
  }

  lemma {:induction false} StrLessTransitive(a: string, b: string, c: string)
    requires StrLess(a, b) && StrLess(b, c)
    ensures StrLess(a, c)
    decreases |a|
  {
    if a != [] && a[0] == b[0] && b[0] == c[0] {
      StrLessTransitive(a[1..], b[1..], c[1..]);
    }
  }

  lemma {:induction false} StrLessTotal(a: string, b: string)
    requires a != b
    ensures StrLess(a, b) || StrLess(b, a)
    decreases |a|
  {
    if a != [] && b != [] && a[0] == b[0] {
      assert a == [a[0]] + a[1..] && b == [b[0]] + b[1..];
      StrLessTotal(a[1..], b[1..]);
    }
  }

  lemma {:induction false} StrLessAsymmetric(a: string, b: string)
    requires StrLess(a, b)
    ensures !StrLess(b, a)
    decreases |a|
  {
    if a != [] && b != [] && a[0] == b[0] {
      StrLessAsymmetric(a[1..], b[1..]);
    }
  }

  // ------------------------------------------------------------- tuple order

  /** Tuple `<` on the candidates. */
  predicate Less(x: Candidate, y: Candidate) {
    || x.start < y.start
    || (x.start == y.start && x.end < y.end)
    || (x.start == y.start && x.end == y.end && StrLess(Name(x.cat), Name(y.cat)))
    || (x.start == y.start && x.end == y.end && x.cat == y.cat && StrLess(x.value, y.value))
  }

  predicate LessEq(x: Candidate, y: Candidate) {
    x == y || Less(x, y)
  }

  lemma LessIrreflexive(x: Candidate)
    ensures !Less(x, x)
  {
    StrLessIrreflexive(Name(x.cat));
    StrLessIrreflexive(x.value);
  }

  lemma LessTransitive(x: Candidate, y: Candidate, z: Candidate)
    requires Less(x, y) && Less(y, z)
    ensures Less(x, z)
  {
    if x.start == y.start == z.start && x.end == y.end == z.end {
      if StrLess(Name(x.cat), Name(y.cat)) && StrLess(Name(y.cat), Name(z.cat)) {
        StrLessTransitive(Name(x.cat), Name(y.cat), Name(z.cat));
      } else if x.cat == y.cat && y.cat == z.cat {
        StrLessTransitive(x.value, y.value, z.value);
      }
    }
  }

  /** Any two different candidates are ordered one way or the other, never both. */
  lemma LessTotal(x: Candidate, y: Candidate)
    requires x != y
    ensures Less(x, y) != Less(y, x)
  {
    if x.start == y.start && x.end == y.end {
      if x.cat != y.cat {
        if Name(x.cat) == Name(y.cat) {
          NameInjective(x.cat, y.cat);
        }
        StrLessTotal(Name(x.cat), Name(y.cat));
        if StrLess(Name(x.cat), Name(y.cat)) {
          StrLessAsymmetric(Name(x.cat), Name(y.cat));
        } else {
          StrLessAsymmetric(Name(y.cat), Name(x.cat));
        }
      } else {
        StrLessIrreflexive(Name(x.cat));
        StrLessTotal(x.value, y.value);
        if StrLess(x.value, y.value) {
          StrLessAsymmetric(x.value, y.value);
        } else {
          StrLessAsymmetric(y.value, x.value);
        }
      }
    }
  }

  lemma LessEqAntisymmetric(x: Candidate, y: Candidate)
    requires LessEq(x, y) && LessEq(y, x)
    ensures x == y
  {
    if x != y {
      LessTotal(x, y);
    }
  }

  lemma LessEqTransitive(x: Candidate, y: Candidate, z: Candidate)
    requires LessEq(x, y) && LessEq(y, z)
    ensures LessEq(x, z)
  {
    if x != y && y != z {
      LessTransitive(x, y, z);
    }
  }

  // ------------------------------------------------------------------ sorting

  predicate Sorted(s: seq<Candidate>) {
    forall i, j :: 0 <= i < j < |s| ==> LessEq(s[i], s[j])
  }

  function Insert(x: Candidate, s: seq<Candidate>): (r: seq<Candidate>)
    ensures |r| == |s| + 1
    ensures multiset(r) == multiset(s) + multiset{x}
  {
    if s == [] then [x]
    else if LessEq(x, s[0]) then [x] + s
    else
      assert s == [s[0]] + s[1..];
      [s[0]] + Insert(x, s[1..])
  }

  /** The insertion sort the model uses for `items.sort()`. */
  function SortCandidates(s: seq<Candidate>): (r: seq<Candidate>)
    ensures multiset(r) == multiset(s)
  {
    if s == [] then []
    else
      assert s == [s[0]] + s[1..];
      Insert(s[0], SortCandidates(s[1..]))
  }

  lemma {:induction false} InsertSorted(x: Candidate, s: seq<Candidate>)
    requires Sorted(s)
    ensures Sorted(Insert(x, s))
    decreases |s|
  {
    if s != [] {
      if LessEq(x, s[0]) {
        forall j | 0 < j < |[x] + s| ensures LessEq(([x] + s)[0], ([x] + s)[j]) {
          LessEqTransitive(x, s[0], s[j - 1]);
        }
      } else {
        LessTotal(x, s[0]);
        InsertSorted(x, s[1..]);
        InsertHead(x, s);
      }
    }
  }

  /** Inserting an element after the head keeps the head first. */
  lemma InsertHead(x: Candidate, s: seq<Candidate>)
    requires s != [] && Sorted(s) && Less(s[0], x) && Sorted(Insert(x, s[1..]))
    ensures Sorted([s[0]] + Insert(x, s[1..]))
  {
    var r := Insert(x, s[1..]);
    forall j | 0 <= j < |r| ensures LessEq(s[0], r[j]) {
      assert r[j] in multiset(r);
      assert r[j] == x || r[j] in multiset(s[1..]);
      if r[j] != x {
        var k :| 0 <= k < |s[1..]| && s[1..][k] == r[j];
        assert s[k + 1] == r[j];
      }
    }
  }

  lemma {:induction false} SortCandidatesSorted(s: seq<Candidate>)
    ensures Sorted(SortCandidates(s))
    decreases |s|
  {
    if s != [] {
      SortCandidatesSorted(s[1..]);
      InsertSorted(s[0], SortCandidates(s[1..]));
    }
  }

  /** Two sorted arrangements of the same candidates start alike. */
  lemma SameHead(a: seq<Candidate>, b: seq<Candidate>)
    requires a != [] && Sorted(a) && Sorted(b) && multiset(a) == multiset(b)
    ensures b != [] && a[0] == b[0]
    ensures multiset(a[1..]) == multiset(b[1..])
  {
    assert b != [] by {
      assert |multiset(a)| == |a| && |multiset(b)| == |b|;
    }
    HeadBelowAll(b, a[0]);
    HeadBelowAll(a, b[0]);
    LessEqAntisymmetric(a[0], b[0]);
    TailMultiset(a);
    TailMultiset(b);
  }

  /** The head of a sorted list is at most every member of it. */
  lemma HeadBelowAll(s: seq<Candidate>, x: Candidate)
    requires s != [] && Sorted(s) && x in multiset(s)
    ensures LessEq(s[0], x)
  {
    var i :| 0 <= i < |s| && s[i] == x;
    assert LessEq(s[0], s[i]);
  }

  lemma TailMultiset(s: seq<Candidate>)
    requires s != []
    ensures multiset(s[1..]) == multiset(s) - multiset{s[0]}
  {
    assert s == [s[0]] + s[1..];
  }

  lemma SortedTail(a: seq<Candidate>)
    requires a != [] && Sorted(a)
    ensures Sorted(a[1..])
  {
    forall i, j | 0 <= i < j < |a[1..]| ensures LessEq(a[1..][i], a[1..][j]) {
      assert a[1..][i] == a[i + 1] && a[1..][j] == a[j + 1];
    }
  }

  /**
   * There is only one sorted arrangement of a collection of candidates, so
   * any correct sort (Python's included) gives the same list as this one.
   */
  lemma {:induction false} SortedUnique(a: seq<Candidate>, b: seq<Candidate>)
    requires Sorted(a) && Sorted(b) && multiset(a) == multiset(b)
    ensures a == b
    decreases |a|
  {
    if a == [] {
      assert |b| == |multiset(b)|;
    } else {
      SameHead(a, b);
      SortedTail(a);
      SortedTail(b);
      SortedUnique(a[1..], b[1..]);
      assert a == [a[0]] + a[1..] && b == [b[0]] + b[1..];
    }
  }

  /** Hence the model's sort is Python's: the one sorted permutation of its input. */
  lemma SortIsTheSort(s: seq<Candidate>, r: seq<Candidate>)
    requires Sorted(r) && multiset(r) == multiset(s)
    ensures r == SortCandidates(s)
  {
    SortCandidatesSorted(s);
    SortedUnique(r, SortCandidates(s));
  }

  /**
   * Among candidates with the same start, the one with the smaller end comes
   * first, whatever their categories.
   */
  lemma SmallerEndFirst(s: seq<Candidate>, i: nat, j: nat)
    requires Sorted(s) && i < |s| && j < |s|
    requires s[i].start == s[j].start && s[i].end < s[j].end
    ensures i < j
  {
    if j <= i {
      assert LessEq(s[j], s[i]);
    }
  }
}

=== FILE: linkselect.dfy ===
/**
 * The two steps of `auto_link` (improved_docliberator_5.py) after the
 * candidates are sorted: the greedy overlap filter, and the right-to-left
 * splice of anchor markup into the text.
 */
module LinkSelect {
  import opened Text
  import opened LinkOrder

  // -------------------------------------------------------- greedy selection

  /** `not (end <= existing_start or start >= existing_end)` */
  predicate Overlaps(x: Candidate, y: Candidate) {
    !(x.end <= y.start || x.start >= y.end)
  }

  predicate OverlapsAny(x: Candidate, kept: seq<Candidate>) {
    exists k :: 0 <= k < |kept| && Overlaps(x, kept[k])
  }

  /** The filtered list after the first `n` items: an item is kept when it overlaps nothing kept before it. */
  function Kept(items: seq<Candidate>, n: nat): seq<Candidate>
    requires n <= |items|
  {
    if n == 0 then []
    else
      var k := Kept(items, n - 1);
      if OverlapsAny(items[n - 1], k) then k else k + [items[n - 1]]
  }

  /** Item `m` is kept. */
  predicate KeptAt(items: seq<Candidate>, m: nat)
    requires m < |items|
  {
    !OverlapsAny(items[m], Kept(items, m))
  }

  /** What is kept after `m` items stays kept, in the same places. */
  lemma {:induction false} KeptGrows(items: seq<Candidate>, m: nat, n: nat)
    requires m <= n <= |items|
    ensures |Kept(items, m)| <= |Kept(items, n)|
    ensures Kept(items, n)[..|Kept(items, m)|] == Kept(items, m)
    decreases n - m
  {
    if m < n {
      KeptGrows(items, m, n - 1);
      var k := Kept(items, n - 1);
      assert (k + [items[n - 1]])[..|k|] == k;
    }
  }

  /** Every kept candidate is an earlier item that was kept at its turn. */
  lemma {:induction false} KeptOrigin(items: seq<Candidate>, n: nat, k: nat)
    requires n <= |items| && k < |Kept(items, n)|
    ensures exists m :: 0 <= m < n && items[m] == Kept(items, n)[k] && KeptAt(items, m)
    decreases n
  {
    var prev := Kept(items, n - 1);
    if k < |prev| {
      KeptOrigin(items, n - 1, k);
      KeptGrows(items, n - 1, n);
      assert Kept(items, n)[k] == prev[k];
    } else {
      assert KeptAt(items, n - 1);
    }
  }

  /** The kept candidates are pairwise disjoint. */
  lemma {:induction false} KeptDisjoint(items: seq<Candidate>, n: nat)
    requires n <= |items|
    ensures forall i, j :: 0 <= i < j < |Kept(items, n)| ==> !Overlaps(Kept(items, n)[j], Kept(items, n)[i])
    decreases n
  {
    if n > 0 {
      KeptDisjoint(items, n - 1);
    }
  }

  /** Every dropped item overlaps a candidate kept before it. */
  lemma DroppedOverlapsEarlier(items: seq<Candidate>, n: nat)
    requires n < |items| && !KeptAt(items, n)
    ensures exists m :: 0 <= m < n && KeptAt(items, m) && Overlaps(items[n], items[m])
  {
    var k :| 0 <= k < |Kept(items, n)| && Overlaps(items[n], Kept(items, n)[k]);
    KeptOrigin(items, n, k);
  }

  /**
   * Of two items with the same start, the later one is dropped when the
   * earlier is not longer than it.
   */
  lemma LaterSameStartDropped(items: seq<Candidate>, i: nat, j: nat)
    requires i < j < |items|
    requires items[i].start == items[j].start && items[i].start < items[i].end <= items[j].end
    ensures !KeptAt(items, j)
  {
    var x, y := items[i], items[j];
    KeptGrows(items, i, j);
    if KeptAt(items, i) {
      KeptGrows(items, i + 1, j);
      assert Kept(items, i + 1)[|Kept(items, i)|] == x;
      assert Kept(items, j)[|Kept(items, i)|] == x;
      assert Overlaps(y, x);
    } else {
      var k :| 0 <= k < |Kept(items, i)| && Overlaps(x, Kept(items, i)[k]);
      assert Kept(items, j)[k] == Kept(items, i)[k];
      assert Overlaps(y, Kept(items, j)[k]);
    }
  }

  /**
   * After the sort, among candidates with the same start the shorter one
   * wins: the longer is never kept (despite the "longest" comment).
   */
  lemma ShorterWins(items: seq<Candidate>, i: nat, j: nat)
    requires Sorted(items) && i < |items| && j < |items|
    requires items[i].start == items[j].start && items[i].start < items[i].end < items[j].end
    ensures !KeptAt(items, j)
  {
    SmallerEndFirst(items, i, j);
    LaterSameStartDropped(items, i, j);
  }

  // ------------------------------------------------------------------ splice

  /** The spans lie in `[pos, n)`, each non-empty, in order, none overlapping the next. */
  predicate Chain(ks: seq<Candidate>, pos: nat, n: nat)
    decreases |ks|
  {
    if ks == [] then pos <= n
    else pos <= ks[0].start < ks[0].end <= n && Chain(ks[1..], ks[0].end, n)
  }

  /**
   * The text from `pos` with each span replaced by `f` of its candidate:
   * the gaps between the spans are copied unchanged.
   */
  function SpliceFrom(text: string, ks: seq<Candidate>, pos: nat, f: Candidate -> string): string
    requires Chain(ks, pos, |text|)
    decreases |ks|
  {
    if ks == [] then text[pos..]
    else text[pos..ks[0].start] + f(ks[0]) + SpliceFrom(text, ks[1..], ks[0].end, f)
  }

  /** Where the first span starts, or the end of the text. */
  function FirstStart(ks: seq<Candidate>, n: nat): nat {
    if ks == [] then n else ks[0].start
  }

  lemma {:induction false} ChainBounds(ks: seq<Candidate>, pos: nat, n: nat)
    requires Chain(ks, pos, n)
    ensures pos <= FirstStart(ks, n) <= n
    decreases |ks|
  {
    if ks != [] {
      ChainBounds(ks[1..], ks[0].end, n);
    }
  }

  /** Starting the splice earlier only copies more of the text first. */
  lemma SpliceShift(text: string, ks: seq<Candidate>, p: nat, q: nat, f: Candidate -> string)
    requires p <= q && Chain(ks, q, |text|)
    ensures Chain(ks, p, |text|)
    ensures SpliceFrom(text, ks, p, f) == text[p..q] + SpliceFrom(text, ks, q, f)
  {
    ChainBounds(ks, q, |text|);
    if ks == [] {
      assert text[p..] == text[p..q] + text[q..];
    } else {
      var s, r := ks[0].start, SpliceFrom(text, ks[1..], ks[0].end, f);
      assert text[p..s] == text[p..q] + text[q..s];
      AppendAssoc(text[p..q], text[q..s], f(ks[0]));
      AppendAssoc(text[p..q], text[q..s] + f(ks[0]), r);
    }
  }

  /** A suffix of a chain is a chain from its own first start. */
  lemma {:induction false} ChainSuffix(ks: seq<Candidate>, pos: nat, n: nat, j: nat)
    requires Chain(ks, pos, n) && j <= |ks|
    ensures Chain(ks[j..], FirstStart(ks[j..], n), n)
    decreases j
  {
    if j == 0 {
      assert ks[0..] == ks;
      if ks != [] {
        ChainBounds(ks[1..], ks[0].end, n);
      }
    } else {
      assert ks[j..] == ks[1..][j - 1..];
      ChainSuffix(ks[1..], ks[0].end, n, j - 1);
    }
  }

  /**
   * Replacing every span by its own text gives the text back: the splice
   * changes nothing outside the spans.
   */
  lemma {:induction false} SpliceOwnText(text: string, ks: seq<Candidate>, pos: nat, f: Candidate -> string)
    requires Chain(ks, pos, |text|)
    requires forall c :: c in ks ==> c.start <= c.end <= |text| && f(c) == text[c.start..c.end]
    ensures SpliceFrom(text, ks, pos, f) == text[pos..]
    decreases |ks|
  {
    if ks != [] {
      ChainBounds(ks[1..], ks[0].end, |text|);
      SpliceOwnText(text, ks[1..], ks[0].end, f);
      assert text[pos..] == text[pos..ks[0].start] + text[ks[0].start..ks[0].end] + text[ks[0].end..];
    }
  }

  /** Adding a later span to a chain. */
  lemma {:induction false} ChainAppend(ks: seq<Candidate>, pos: nat, n: nat, x: Candidate)
    requires Chain(ks, pos, n) && x.start < x.end <= n
    requires if ks == [] then pos <= x.start else ks[|ks| - 1].end <= x.start
    ensures Chain(ks + [x], pos, n)
    decreases |ks|
  {
    if ks == [] {
      assert ([x])[1..] == [];
    } else {
      assert (ks + [x])[1..] == ks[1..] + [x];
      ChainAppend(ks[1..], ks[0].end, n, x);
    }
  }

  /** Candidates lying in the text, each non-empty. */
  predicate InText(items: seq<Candidate>, n: nat) {
    forall c :: c in items ==> c.start < c.end <= n
  }

  /** The kept candidates of a sorted list form a chain through the text. */
  lemma {:induction false} KeptChain(items: seq<Candidate>, n: nat, len: nat)
    requires Sorted(items) && InText(items, len) && n <= |items|
    ensures Chain(Kept(items, n), 0, len)
    decreases n
  {
    if n > 0 {
      KeptChain(items, n - 1, len);
      var k := Kept(items, n - 1);
      var x := items[n - 1];
      if !OverlapsAny(x, k) && k != [] {
        var last := k[|k| - 1];
        KeptOrigin(items, n - 1, |k| - 1);
        var m :| 0 <= m < n - 1 && items[m] == last && KeptAt(items, m);
        assert LessEq(items[m], x);
        assert !Overlaps(x, last);
      }
      if !OverlapsAny(x, k) {
        ChainAppend(k, 0, len, x);
      }
    }
  }

  // ------------------------------------------------------------------ markup

  /** `value.replace(' ', '')` spelled out: every character but the plain space. */
  function DropSpaces(v: string): (r: string)
    ensures ' ' !in r && |r| <= |v|
  {
    if v == [] then [] else (if v[0] == ' ' then [] else [v[0]]) + DropSpaces(v[1..])
  }

  lemma {:induction false} ReplaceSpaceIsDropSpaces(v: string)
    ensures ReplaceAll(v, " ", "") == DropSpaces(v)
    decreases |v|
  {
    if v != [] {
      ReplaceSpaceIsDropSpaces(v[1..]);
      if v[0] == ' ' {
        assert v[..1] == " ";
      } else {
        assert v[..1] != " ";
      }
    }
  }

  /** The link target per category. */
  function Href(c: Candidate): string {
    match c.cat
    case Email => "mailto:" + c.value
    case Url => c.value
    case Www => "http://" + c.value
    case Domain => "http://" + c.value
    case Phone => "tel:" + ReplaceAll(c.value, " ", "")
  }

  /** The anchor for a kept candidate: its value stays the visible text. */
  function Markup(c: Candidate): string {
    "<a href=\"" + Href(c) + "\">" + c.value + "</a>"
  }

  /**
   * The anchor each category gets: an address mails, a URL links to itself,
   * a `www.` address or a bare domain gets `http://`, a phone number dials
   * its digits with the plain spaces dropped. The value is always the text
   * between the tags.
   */
  lemma MarkupByCategory(c: Candidate)
    ensures c.cat == Email ==> Markup(c) == "<a href=\"mailto:" + c.value + "\">" + c.value + "</a>"
    ensures c.cat == Url ==> Markup(c) == "<a href=\"" + c.value + "\">" + c.value + "</a>"
    ensures c.cat in {Www, Domain} ==> Markup(c) == "<a href=\"http://" + c.value + "\">" + c.value + "</a>"
    ensures c.cat == Phone ==> Markup(c) == "<a href=\"tel:" + DropSpaces(c.value) + "\">" + c.value + "</a>"
    ensures c.cat == Phone ==> ' ' !in Href(c)
  {
    if c.cat == Phone {
      PhoneHref(c);
    }
  }

  /** A phone link's target has no plain spaces, and keeps every other character. */
  lemma PhoneHref(c: Candidate)
    requires c.cat == Phone
    ensures Href(c) == "tel:" + DropSpaces(c.value)
    ensures ' ' !in Href(c)
  {
    ReplaceSpaceIsDropSpaces(c.value);
  }

  /** The text with the kept spans linked. */
  function Linked(text: string, kept: seq<Candidate>): string
    requires Chain(kept, 0, |text|)
  {
    SpliceFrom(text, kept, 0, Markup)
  }

  /** With nothing kept the text comes back unchanged. */
  lemma LinkedNothing(text: string)
    ensures Chain([], 0, |text|) && Linked(text, []) == text
  {
  }

  // ----------------------------------------------------------------- methods

  /** The overlap filter: the nested loop of `auto_link`. */
  method Select(items: seq<Candidate>) returns (filtered: seq<Candidate>)
    ensures filtered == Kept(items, |items|)
  {
    filtered := [];
    for i := 0 to |items|
      invariant filtered == Kept(items, i)
    {
      var item := items[i];
      var overlaps := false;
      var j := 0;
      while j < |filtered|
        invariant 0 <= j <= |filtered|
        invariant overlaps <==> OverlapsAny(item, filtered[..j])
        invariant overlaps ==> j < |filtered|
        decreases |filtered| - j - (if overlaps then 1 else 0)
      {
        var existing := filtered[j];
        if !(item.end <= existing.start || item.start >= existing.end) {
          overlaps := true;
          break;
        }
        j := j + 1;
      }
      if !overlaps {
        filtered := filtered + [item];
      }
    }
  }

  function Reverse(s: seq<Candidate>): (r: seq<Candidate>)
    ensures |r| == |s| && forall i :: 0 <= i < |s| ==> r[i] == s[|s| - 1 - i]
  {
    seq(|s|, i requires 0 <= i < |s| => s[|s| - 1 - i])
  }

  /** The splice after the spans from index `j` on are done, the text before them untouched. */
  function LinkedFrom(text: string, ks: seq<Candidate>, j: nat): string
    requires Chain(ks, 0, |text|) && j <= |ks|
  {
    ChainSuffix(ks, 0, |text|, j);
    var b := FirstStart(ks[j..], |text|);
    text[..b] + SpliceFrom(text, ks[j..], b, Markup)
  }

  /** Doing span `j` next extends what is done to `j`. */
  lemma LinkedFromStep(text: string, ks: seq<Candidate>, j: nat)
    requires Chain(ks, 0, |text|) && j < |ks|
    ensures ks[j].start < ks[j].end <= |LinkedFrom(text, ks, j + 1)|
    ensures var out := LinkedFrom(text, ks, j + 1);
      out[..ks[j].start] + Markup(ks[j]) + out[ks[j].end..] == LinkedFrom(text, ks, j)
  {
    ChainSuffix(ks, 0, |text|, j);
    ChainSuffix(ks, 0, |text|, j + 1);
    assert ks[j..][1..] == ks[j + 1..] && ks[j..][0] == ks[j];
    var b := FirstStart(ks[j + 1..], |text|);
    SpliceStep(text, ks[j..], b, SpliceFrom(text, ks[j + 1..], b, Markup), LinkedFrom(text, ks, j + 1), Markup);
  }

  /** With every span done the splice is the whole linked text. */
  lemma LinkedFromAll(text: string, ks: seq<Candidate>)
    requires Chain(ks, 0, |text|)
    ensures LinkedFrom(text, ks, 0) == Linked(text, ks)
  {
    assert ks[0..] == ks;
    ChainBounds(ks, 0, |text|);
    SpliceShift(text, ks, 0, FirstStart(ks, |text|), Markup);
  }

  /**
   * The splice loop: the kept list reversed, each span replaced in turn, so
   * that replacing one never moves the spans still to do.
   */
  method Splice(text: string, kept: seq<Candidate>) returns (out: string)
    requires Chain(kept, 0, |text|)
    ensures out == Linked(text, kept)
  {
    var rev := Reverse(kept);
    var n := |kept|;
    out := text;
    assert kept[n..] == [];
    for i := 0 to n
      invariant out == LinkedFrom(text, kept, n - i)
    {
      var c := rev[i];
      LinkedFromStep(text, kept, n - i - 1);
      out := out[..c.start] + Markup(c) + out[c.end..];
    }
    LinkedFromAll(text, kept);
  }

  /** One turn of the splice loop, on the spans from the current one on. */
  lemma SpliceStep(text: string, ks: seq<Candidate>, b: nat, rest: string, out: string, f: Candidate -> string)
    requires ks != [] && Chain(ks, ks[0].start, |text|)
    requires b == FirstStart(ks[1..], |text|) && Chain(ks[1..], b, |text|)
    requires rest == SpliceFrom(text, ks[1..], b, f) && out == text[..b] + rest
    ensures ks[0].end <= |out|
    ensures out[..ks[0].start] + f(ks[0]) + out[ks[0].end..]
      == text[..ks[0].start] + SpliceFrom(text, ks, ks[0].start, f)
  {
    var c := ks[0];
    ChainBounds(ks[1..], c.end, |text|);
    SpliceShift(text, ks[1..], c.end, b, f);
    assert out[..c.start] == text[..c.start];
    assert out[c.end..] == text[c.end..b] + rest;
    assert text[c.start..c.start] == [];
  }
}

=== FILE: markers.dfy ===
/**
 * Reading the marked text back: `re.split(r"\[\[SECTION:h2:(.*?)\]\]", text)`
 * in `build_html_from_markers` of improved_docliberator_5.py.  The result
 * alternates text between markers with the captured headings:
 * `[before, heading1, body1, heading2, body2, ...]`.
 */
module Markers {
  import opened Text
  import Segment

  const Open := "[[SECTION:h2:"

  /** `]]` starts at `k`. */
  predicate ClosesAt(s: string, k: nat) {
    k + 1 < |s| && s[k] == ']' && s[k + 1] == ']'
  }

  /**
   * Where the lazy `(.*?)\]\]` started at `i` stops: the first `]]` from
   * `i` on, provided no `\n` (which `.` does not match) comes before it.
   */
  function CloseFrom(s: string, i: nat): (r: Option<nat>)
    requires i <= |s|
    ensures r.Some? ==> (i <= r.value && ClosesAt(s, r.value)
      && forall k :: i <= k < r.value ==> s[k] != '\n' && !ClosesAt(s, k))
    ensures r.None? ==> forall k :: i <= k < |s| && ClosesAt(s, k) ==> exists m :: i <= m < k && s[m] == '\n'
    decreases |s| - i
  {
    if i + 1 >= |s| then None
    else if ClosesAt(s, i) then Some(i)
    else if s[i] == '\n' then
      assert forall k :: i <= k < |s| && ClosesAt(s, k) ==> i < k;
      None
    else CloseFrom(s, i + 1)
  }

  /** A marker at the front of `s`: the index of its closing `]]`. */
  function MarkerAtFront(s: string): (r: Option<nat>)
    ensures r.Some? ==> StartsWith(s, Open) && |Open| <= r.value && ClosesAt(s, r.value)
  {
    if StartsWith(s, Open) then CloseFrom(s, |Open|) else None
  }

  /**
   * `re.split` with the marker pattern: at each position, in order, a marker
   * either matches there (the piece so far ends, its heading is kept, and the
   * scan resumes after the `]]`) or the character joins the current piece.
   */
  function SplitMarkers(s: string): (r: seq<string>)
    ensures |r| % 2 == 1
    decreases |s|
  {
    if s == [] then [""]
    else match MarkerAtFront(s)
      case Some(j) => ["", s[|Open|..j]] + SplitMarkers(s[j + 2..])
      case None =>
        var r := SplitMarkers(s[1..]);
        [[s[0]] + r[0]] + r[1..]
  }

  // --------------------------------------------------------------- round trip

  /** A heading the lazy `(.*?)` gives back whole: no line break, no `]]`, no trailing `]`. */
  predicate PlainHeading(h: string) {
    (forall k :: 0 <= k < |h| ==> h[k] != '\n') && !Occurs(h + "]", "]]")
  }

  /** A body in which no marker begins. */
  predicate PlainBody(b: string) {
    !Occurs(b, Open)
  }

  predicate PlainBlocks(bs: seq<Segment.Block>) {
    forall k :: 0 <= k < |bs| ==> PlainHeading(bs[k].heading) && PlainBody(bs[k].body)
  }

  /**
   * What the split gives back for the marked text: each heading, then the
   * body after the marker's newline, with the blank line that separates it
   * from the next block.
   */
  function Pieces(bs: seq<Segment.Block>): (r: seq<string>)
    ensures |r| == 2 * |bs|
  {
    if bs == [] then []
    else if |bs| == 1 then [bs[0].heading, "\n" + bs[0].body]
    else [bs[0].heading, "\n" + bs[0].body + "\n\n"] + Pieces(bs[1..])
  }

  /** A plain heading closes exactly at its own `]]`. */
  lemma MarkerReadsHeading(h: string, x: string)
    requires PlainHeading(h)
    ensures MarkerAtFront(Open + h + "]]" + x) == Some(|Open| + |h|)
  {
    var s := Open + h + "]]" + x;
    assert s[..|Open|] == Open;
    var j := |Open| + |h|;
    assert ClosesAt(s, j);
    forall k | |Open| <= k < j
      ensures s[k] != '\n' && !ClosesAt(s, k)
    {
      assert s[k] == h[k - |Open|];
      if ClosesAt(s, k) {
        assert (h + "]")[k - |Open|..k - |Open| + 2] == "]]";
        assert OccursAt(h + "]", "]]", k - |Open|);
        assert false;
      }
    }
    CloseFromReaches(s, |Open|, j);
  }

  /** The lazy scan runs on to the first `]]` when nothing stops it earlier. */
  lemma {:induction false} CloseFromReaches(s: string, i: nat, j: nat)
    requires i <= j && ClosesAt(s, j)
    requires forall k :: i <= k < j ==> s[k] != '\n' && !ClosesAt(s, k)
    ensures CloseFrom(s, i) == Some(j)
    decreases j - i
  {
    if i < j {
      CloseFromReaches(s, i + 1, j);
    }
  }

  /** After a marker, the split continues on what follows it. */
  lemma SplitAfterMarker(h: string, x: string)
    requires PlainHeading(h)
    ensures SplitMarkers(Open + h + "]]" + x) == ["", h] + SplitMarkers(x)
  {
    var s := Open + h + "]]" + x;
    MarkerReadsHeading(h, x);
    assert s[|Open|..|Open| + |h|] == h;
    assert s[|Open| + |h| + 2..] == x;
  }

  /** No marker starts inside `x` (it may not run on into `t` either). */
  predicate NoOpenIn(x: string, t: string) {
    forall k :: 0 <= k < |x| ==> !StartsWith((x + t)[k..], Open)
  }

  /** Text in which no marker starts joins the first piece of what follows. */
  lemma {:induction false} SplitPlainPrefix(x: string, t: string)
    requires NoOpenIn(x, t)
    ensures SplitMarkers(x + t) == [x + SplitMarkers(t)[0]] + SplitMarkers(t)[1..]
    decreases |x|
  {
    if x == [] {
      var r := SplitMarkers(t);
      assert x + t == t;
      assert r == [r[0]] + r[1..];
      assert x + r[0] == r[0];
    } else {
      assert !StartsWith(x + t, Open) && NoOpenIn(x[1..], t) by {
        NoOpenInTail(x, t);
        assert (x + t)[0..] == x + t;
      }
      SplitPlainPrefix(x[1..], t);
      PrefixStep(x, t);
    }
  }

  /** One step of the above: the first character of `x` starts no marker. */
  lemma PrefixStep(x: string, t: string)
    requires x != [] && !StartsWith(x + t, Open)
    requires SplitMarkers(x[1..] + t) == [x[1..] + SplitMarkers(t)[0]] + SplitMarkers(t)[1..]
    ensures SplitMarkers(x + t) == [x + SplitMarkers(t)[0]] + SplitMarkers(t)[1..]
  {
    var s := x + t;
    PlainStep(s);
    assert s[1..] == x[1..] + t;
    Glue(x, SplitMarkers(t), SplitMarkers(x[1..] + t));
  }

  lemma Glue(x: string, r: seq<string>, q: seq<string>)
    requires x != [] && r != [] && q == [x[1..] + r[0]] + r[1..]
    ensures [[x[0]] + q[0]] + q[1..] == [x + r[0]] + r[1..]
  {
    assert [x[0]] + (x[1..] + r[0]) == x + r[0];
  }

  /** A character where no marker starts joins the first piece. */
  lemma PlainStep(s: string)
    requires s != [] && !StartsWith(s, Open)
    ensures SplitMarkers(s) == [[s[0]] + SplitMarkers(s[1..])[0]] + SplitMarkers(s[1..])[1..]
  {
  }

  lemma NoOpenInTail(x: string, t: string)
    requires x != [] && NoOpenIn(x, t)
    ensures NoOpenIn(x[1..], t)
  {
    forall k | 0 <= k < |x[1..]| ensures !StartsWith((x[1..] + t)[k..], Open) {
      assert (x[1..] + t)[k..] == (x + t)[k + 1..];
    }
  }

  /**
   * A body, wrapped between the marker's newline and a following blank line
   * (or the end), holds no marker start.
   */
  lemma BodyHoldsNoOpen(b: string, tail: string, t: string)
    requires PlainBody(b)
    requires tail == "\n\n" || (tail == [] && t == [])
    ensures NoOpenIn("\n" + b + tail, t)
  {
    var x := "\n" + b + tail;
    var s := x + t;
    forall k | 0 <= k < |x| ensures !StartsWith(s[k..], Open) {
      var w := s[k..];
      if |w| >= |Open| {
        if k == 0 || k > |b| {
          assert w[..|Open|][0] == '\n';
        } else if k - 1 + |Open| <= |b| {
          assert w[..|Open|] == b[k - 1..k - 1 + |Open|];
          assert !OccursAt(b, Open, k - 1);
        } else {
          // The marker would run into the blank line after the body.
          var m := 1 + |b| - k;
          assert w[..|Open|][m] == '\n';
        }
      }
    }
  }

  /** Rendering a block, then a blank line, then the rest. */
  lemma MarkedTextCons(bs: seq<Segment.Block>)
    requires |bs| >= 2
    ensures Segment.MarkedText(bs) == Segment.RenderBlock(bs[0]) + "\n\n" + Segment.MarkedText(bs[1..])
  {
    assert Segment.RenderBlocks(bs)[1..] == Segment.RenderBlocks(bs[1..]);
  }

  lemma LastBlockRoundTrip(b: Segment.Block)
    requires PlainBlocks([b])
    ensures SplitMarkers(Segment.MarkedText([b])) == [""] + Pieces([b])
  {
    assert PlainHeading([b][0].heading) && PlainBody([b][0].body);
    var x := "\n" + b.body;
    assert Segment.MarkedText([b]) == Open + b.heading + "]]" + x;
    SplitAfterMarker(b.heading, x);
    BodyHoldsNoOpen(b.body, [], []);
    assert x + [] == x && "\n" + b.body + [] == x;
    SplitPlainPrefix(x, []);
  }

  lemma BlockThenRest(bs: seq<Segment.Block>)
    requires |bs| >= 2 && PlainBlocks(bs)
    ensures SplitMarkers(Segment.MarkedText(bs)) == ["", bs[0].heading, "\n" + bs[0].body + "\n\n" + SplitMarkers(Segment.MarkedText(bs[1..]))[0]]
      + SplitMarkers(Segment.MarkedText(bs[1..]))[1..]
  {
    var h, b := bs[0].heading, bs[0].body;
    assert PlainHeading(h) && PlainBody(b);
    var rest := Segment.MarkedText(bs[1..]);
    MarkedTextCons(bs);
    var x := "\n" + b + "\n\n";
    assert Segment.MarkedText(bs) == Open + h + "]]" + (x + rest);
    SplitAfterMarker(h, x + rest);
    BodyHoldsNoOpen(b, "\n\n", rest);
    SplitPlainPrefix(x, rest);
  }

  lemma PlainBlocksTail(bs: seq<Segment.Block>)
    requires bs != [] && PlainBlocks(bs)
    ensures PlainBlocks(bs[1..])
  {
    forall k | 0 <= k < |bs[1..]| ensures PlainHeading(bs[1..][k].heading) && PlainBody(bs[1..][k].body) {
      assert bs[1..][k] == bs[k + 1];
    }
  }

  /**
   * The markers round-trip: splitting the marked text of plain blocks gives
   * an empty preamble, then each block's heading and its body, in order.
   */
  lemma {:induction false} MarkersRoundTrip(bs: seq<Segment.Block>)
    requires bs != [] && PlainBlocks(bs)
    ensures SplitMarkers(Segment.MarkedText(bs)) == [""] + Pieces(bs)
    decreases |bs|
  {
    if |bs| == 1 {
      LastBlockRoundTrip(bs[0]);
      assert bs == [bs[0]];
    } else {
      BlockThenRest(bs);
      PlainBlocksTail(bs);
      MarkersRoundTrip(bs[1..]);
      var x := "\n" + bs[0].body + "\n\n";
      ConsPieces("", bs[0].heading, x, SplitMarkers(Segment.MarkedText(bs[1..])), Pieces(bs[1..]));
      PiecesCons(bs);
    }
  }

  lemma PiecesCons(bs: seq<Segment.Block>)
    requires |bs| >= 2
    ensures Pieces(bs) == [bs[0].heading, "\n" + bs[0].body + "\n\n"] + Pieces(bs[1..])
  {
  }

  lemma ConsPieces(a: string, b: string, c: string, r: seq<string>, p: seq<string>)
    requires r == [""] + p
    ensures [a, b, c + r[0]] + r[1..] == [a] + ([b, c] + p)
  {
    assert c + r[0] == c;
    assert r[1..] == p;
  }

  /** Text before the first marker is the first piece, and only that piece. */
  lemma SplitPreamble(pre: string, bs: seq<Segment.Block>)
    requires bs != [] && PlainBlocks(bs) && NoOpenIn(pre, Segment.MarkedText(bs))
    ensures SplitMarkers(pre + Segment.MarkedText(bs)) == [pre] + Pieces(bs)
  {
    SplitPlainPrefix(pre, Segment.MarkedText(bs));
    MarkersRoundTrip(bs);
    assert pre + "" == pre;
  }
}

=== FILE: pairing.dfy ===
/**
 * The section pairing loop of niklabs_docliberator_ultra_plus.py:64-74.  The
 * pieces `re.split` cut the raw text into are walked with an index: a piece
 * that starts like a numbered heading becomes a title, the piece after it its
 * content, and the walk jumps past both; any other piece is skipped.
 */
module Pairing {
  import opened Text

  /** `(title, content)`, both stripped. */
  datatype Section = Section(title: string, content: string)

  /** The length of the run of digits at the front of `p`. */
  function LeadingDigits(p: string): (d: nat)
    ensures d <= |p|
    ensures forall k :: 0 <= k < d ==> IsDigit(p[k])
    ensures d == |p| || !IsDigit(p[d])
  {
    if p == [] || !IsDigit(p[0]) then 0 else 1 + LeadingDigits(p[1..])
  }

  /**
   * `re.match(r"\d+\.\s+", p)`: digits, a period and whitespace at the front.
   * `\d+` backtracks only into digits, and a digit is never a period, so the
   * greedy run is the only one that can succeed.
   */
  predicate NumberedStart(p: string) {
    var d := LeadingDigits(p);
    0 < d && d + 1 < |p| && p[d] == '.' && IsSpace(p[d + 1])
  }

  /** The pairs the loop appends once `i` has reached index `i`. */
  function PairFrom(pieces: seq<string>, i: nat): seq<Section>
    requires i <= |pieces|
    decreases |pieces| - i
  {
    if i + 1 >= |pieces| then []
    else if NumberedStart(pieces[i]) then
      [Section(Strip(pieces[i]), Strip(pieces[i + 1]))] + PairFrom(pieces, i + 2)
    else PairFrom(pieces, i + 1)
  }

  /** `structured_sections` */
  function Paired(pieces: seq<string>): seq<Section> {
    PairFrom(pieces, 0)
  }

  /**
   * The indices of the pieces taken as titles, from `i` on: each is a
   * numbered piece that is not the last one, and each lies at least two
   * places after the one before (its content sits in between).
   */
  function TitleIndices(pieces: seq<string>, i: nat): (ks: seq<nat>)
    requires i <= |pieces|
    ensures forall j :: 0 <= j < |ks| ==> i <= ks[j] && ks[j] + 1 < |pieces| && NumberedStart(pieces[ks[j]])
    ensures forall a, b :: 0 <= a < b < |ks| ==> ks[a] + 2 <= ks[b]
    decreases |pieces| - i
  {
    if i + 1 >= |pieces| then []
    else if NumberedStart(pieces[i]) then [i] + TitleIndices(pieces, i + 2)
    else TitleIndices(pieces, i + 1)
  }

  // -------------------------------------------------------------- the loop

  /** The `while i < len(sections) - 1` loop. */
  method PairSections(pieces: seq<string>) returns (sections: seq<Section>)
    ensures sections == Paired(pieces)
  {
    sections := [];
    var i := 0;
    while i < |pieces| - 1
      invariant i <= |pieces|
      invariant sections + PairFrom(pieces, i) == Paired(pieces)
      decreases |pieces| - i
    {
      if NumberedStart(pieces[i]) {
        var title := Strip(pieces[i]);
        var content := Strip(pieces[i + 1]);
        AppendAssoc(sections, [Section(title, content)], PairFrom(pieces, i + 2));
        sections := sections + [Section(title, content)];
        i := i + 2;
      } else {
        i := i + 1;
      }
    }
    assert sections + [] == sections;
  }

  // ---------------------------------------------------------- properties

  /** The pairs made of the pieces at the indices `ks` and the piece after each. */
  function PairsAt(pieces: seq<string>, ks: seq<nat>): (ps: seq<Section>)
    requires forall j :: 0 <= j < |ks| ==> ks[j] + 1 < |pieces|
    ensures |ps| == |ks|
  {
    if ks == [] then []
    else [Section(Strip(pieces[ks[0]]), Strip(pieces[ks[0] + 1]))] + PairsAt(pieces, ks[1..])
  }

  /**
   * The loop's pairs are exactly the pairs at the title indices: pair `j` is
   * the `j`-th numbered piece taken and the piece right after it, in the
   * order of the text.
   */
  lemma {:induction false} PairsAtTitleIndices(pieces: seq<string>, i: nat)
    requires i <= |pieces|
    ensures PairFrom(pieces, i) == PairsAt(pieces, TitleIndices(pieces, i))
    decreases |pieces| - i
  {
    if i + 1 < |pieces| {
      if NumberedStart(pieces[i]) {
        PairsAtTitleIndices(pieces, i + 2);
        var ks, rest := TitleIndices(pieces, i), TitleIndices(pieces, i + 2);
        var head := Section(Strip(pieces[i]), Strip(pieces[i + 1]));
        assert ks == [i] + rest;
        assert ks[0] == i && ks[1..] == rest;
        assert PairsAt(pieces, ks) == [head] + PairsAt(pieces, rest);
        assert PairFrom(pieces, i) == [head] + PairFrom(pieces, i + 2);
      } else {
        PairsAtTitleIndices(pieces, i + 1);
        assert TitleIndices(pieces, i) == TitleIndices(pieces, i + 1);
        assert PairFrom(pieces, i) == PairFrom(pieces, i + 1);
      }
    }
  }

  /**
   * A numbered piece before the last is skipped only when it was taken as
   * the content of the pair before it.
   */
  lemma {:induction false} NumberedPieceTaken(pieces: seq<string>, i: nat, k: nat)
    requires i <= k && k + 1 < |pieces| && NumberedStart(pieces[k])
    ensures k in TitleIndices(pieces, i) || (i < k && k - 1 in TitleIndices(pieces, i))
    decreases k - i
  {
    var ks := TitleIndices(pieces, i);
    if i < k {
      if NumberedStart(pieces[i]) {
        assert ks == [i] + TitleIndices(pieces, i + 2);
        if i + 1 < k {
          NumberedPieceTaken(pieces, i + 2, k);
          assert ks[1..] == TitleIndices(pieces, i + 2);
        } else {
          assert ks[0] == k - 1;
        }
      } else {
        assert ks == TitleIndices(pieces, i + 1);
        NumberedPieceTaken(pieces, i + 1, k);
      }
    } else {
      assert ks[0] == k;
    }
  }

  /** The shape every title has: digits, then a period, then whitespace unless the title ends there. */
  predicate NumberedTitle(t: string) {
    var d := LeadingDigits(t);
    0 < d < |t| && t[d] == '.' && (d + 1 == |t| || IsSpace(t[d + 1]))
  }

  /** Stripping a numbered piece keeps its digits and period at the front. */
  lemma StripNumbered(p: string)
    requires NumberedStart(p)
    ensures NumberedTitle(Strip(p))
  {
    var d := LeadingDigits(p);
    var t := Strip(p);
    assert StripStart(p) == 0 by {
      assert !IsSpace(p[0]);
    }
    assert StripEnd(p) > d by {
      StripEndCovers(p, d);
    }
    assert t[..d + 1] == p[..d + 1];
    LeadingDigitsPrefix(t, p, d);
  }

  /** A non-space character lies inside the strip. */
  lemma StripEndCovers(p: string, k: nat)
    requires k < |p| && !IsSpace(p[k]) && StripStart(p) <= k
    ensures k < StripEnd(p)
  {
  }

  /** Two strings that agree up to and including a non-digit after `d` digits have the same digit run. */
  lemma {:induction false} LeadingDigitsPrefix(t: string, p: string, d: nat)
    requires d < |t| && d < |p| && t[..d + 1] == p[..d + 1] && LeadingDigits(p) == d
    ensures LeadingDigits(t) == d
    decreases d
  {
    assert t[0] == t[..d + 1][0] && p[0] == p[..d + 1][0];
    if d > 0 {
      assert t[1..][..d] == t[..d + 1][1..] && p[1..][..d] == p[..d + 1][1..];
      LeadingDigitsPrefix(t[1..], p[1..], d - 1);
    }
  }

  /** Pairs taken at numbered pieces have numbered titles. */
  lemma {:induction false} PairsAtNumbered(pieces: seq<string>, ks: seq<nat>)
    requires forall j :: 0 <= j < |ks| ==> ks[j] + 1 < |pieces| && NumberedStart(pieces[ks[j]])
    ensures forall s :: s in PairsAt(pieces, ks) ==> NumberedTitle(s.title)
    decreases |ks|
  {
    if ks != [] {
      StripNumbered(pieces[ks[0]]);
      PairsAtNumbered(pieces, ks[1..]);
    }
  }

  /** Every title the loop emits is numbered. */
  lemma PairedTitlesNumbered(pieces: seq<string>)
    ensures forall s :: s in Paired(pieces) ==> NumberedTitle(s.title)
  {
    PairsAtTitleIndices(pieces, 0);
    PairsAtNumbered(pieces, TitleIndices(pieces, 0));
  }
}

=== FILE: paragraphs.dfy ===
/**
 * The paragraph split both scripts apply to a section body:
 * `re.split(r'\n\s*\n|(?<=[.?!])\s*\n', body)`, then the pieces that are not
 * blank once stripped (improved_docliberator_5.py:256-257,
 * niklabs_docliberator_ultra_plus.py:86-87).
 */
module Paragraphs {
  import opened Text

  /** The last line break in `s[lo..j]`, if any. */
  function LastNewline(s: string, lo: nat, j: nat): (r: Option<nat>)
    requires lo <= j <= |s|
    ensures r.Some? ==> (lo <= r.value < j && s[r.value] == '\n'
      && forall m :: r.value < m < j ==> s[m] != '\n')
    ensures r.None? ==> forall m :: lo <= m < j ==> s[m] != '\n'
    decreases j - lo
  {
    if j == lo then None
    else if s[j - 1] == '\n' then Some(j - 1)
    else LastNewline(s, lo, j - 1)
  }

  predicate IsSentenceEnd(c: char) {
    c == '.' || c == '?' || c == '!'
  }

  /**
   * The end of a paragraph break matched at `i`.  `\n\s*\n` is tried first:
   * a line break, then the greedy whitespace run gives back characters up to
   * its last line break.  Otherwise, after `.`, `?` or `!`, `\s*\n` does the
   * same from `i` itself.
   */
  function BreakEnd(s: string, i: nat): (r: Option<nat>)
    requires i <= |s|
    ensures r.Some? ==> (i < r.value <= |s| && s[r.value - 1] == '\n'
      && forall k :: i <= k < r.value ==> IsSpace(s[k]))
  {
    var alt1 :=
      if i < |s| && s[i] == '\n' then LastNewline(s, i + 1, SkipSpace(s, i + 1)) else None;
    if alt1.Some? then Some(alt1.value + 1)
    else if 0 < i && IsSentenceEnd(s[i - 1]) then
      match LastNewline(s, i, SkipSpace(s, i))
      case Some(m) => Some(m + 1)
      case None => None
    else None
  }

  /** `re.split` from position `i`, the current piece having started at `seg`. */
  function SplitFrom(s: string, seg: nat, i: nat): (r: seq<string>)
    requires seg <= i <= |s|
    ensures r != []
    decreases |s| - i
  {
    if i == |s| then [s[seg..]]
    else match BreakEnd(s, i)
      case Some(e) => [s[seg..i]] + SplitFrom(s, e, e)
      case None => SplitFrom(s, seg, i + 1)
  }

  function Split(s: string): seq<string> {
    SplitFrom(s, 0, 0)
  }

  /** The stripped pieces that are not blank: `[p.strip() for p in pieces if p.strip()]`. */
  function NonBlank(ps: seq<string>): (r: seq<string>)
    ensures |r| <= |ps|
    ensures forall k :: 0 <= k < |r| ==> r[k] != []
  {
    if ps == [] then []
    else if Strip(ps[0]) != [] then [Strip(ps[0])] + NonBlank(ps[1..])
    else NonBlank(ps[1..])
  }

  /** The paragraphs of a body, in order. */
  function Paragraphs(body: string): seq<string> {
    NonBlank(Split(body))
  }

  // -------------------------------------------------------------- properties

  /** Each step of the split loses only whitespace. */
  lemma {:induction false} SplitFromKeepsText(s: string, seg: nat, i: nat)
    requires seg <= i <= |s|
    ensures NonSpace(Concat(SplitFrom(s, seg, i))) == NonSpace(s[seg..])
    decreases |s| - i
  {
    if i == |s| {
      ConcatOne(s[seg..]);
    } else {
      match BreakEnd(s, i)
      case Some(e) =>
        SplitFromKeepsText(s, e, e);
        BreakStepKeepsText(s, seg, i, e, SplitFrom(s, e, e));
      case None =>
        SplitFromKeepsText(s, seg, i + 1);
    }
  }

  /** One break: the piece before it, then whitespace, then the rest. */
  lemma BreakStepKeepsText(s: string, seg: nat, i: nat, e: nat, rest: seq<string>)
    requires seg <= i <= e <= |s| && forall k :: i <= k < e ==> IsSpace(s[k])
    requires NonSpace(Concat(rest)) == NonSpace(s[e..])
    ensures NonSpace(Concat([s[seg..i]] + rest)) == NonSpace(s[seg..])
  {
    ConcatCons(s[seg..i], rest);
    NonSpaceAppend(s[seg..i], Concat(rest));
    NonSpaceSlices(s, seg, i, e);
    SpaceRunHoldsNoText(s, i, e);
  }

  lemma SpaceRunHoldsNoText(s: string, i: nat, e: nat)
    requires i <= e <= |s| && forall k :: i <= k < e ==> IsSpace(s[k])
    ensures NonSpace(s[i..e]) == []
  {
    assert AllSpace(s[i..e]) by {
      forall k | 0 <= k < |s[i..e]| ensures IsSpace(s[i..e][k]) {
        assert s[i..e][k] == s[i + k];
      }
    }
    NonSpaceOfSpace(s[i..e]);
  }

  lemma ConcatCons(a: string, rest: seq<string>)
    ensures Concat([a] + rest) == a + Concat(rest)
  {
    assert ([a] + rest)[1..] == rest;
  }

  lemma ConcatOne(a: string)
    ensures Concat([a]) == a
  {
    assert [a][1..] == [];
    assert a + [] == a;
  }

  /** Dropping blank pieces and stripping the rest loses only whitespace. */
  lemma {:induction false} NonBlankKeepsText(ps: seq<string>)
    ensures NonSpace(Concat(NonBlank(ps))) == NonSpace(Concat(ps))
  {
    if ps != [] {
      NonBlankKeepsText(ps[1..]);
      StripKeepsText(ps[0]);
      NonSpaceAppend(ps[0], Concat(ps[1..]));
      if Strip(ps[0]) != [] {
        ConcatCons(Strip(ps[0]), NonBlank(ps[1..]));
        NonSpaceAppend(Strip(ps[0]), Concat(NonBlank(ps[1..])));
      }
    }
  }

  /** The paragraphs hold every non-whitespace character of the body, in order. */
  lemma ParagraphsKeepText(body: string)
    ensures NonSpace(Concat(Paragraphs(body))) == NonSpace(body)
  {
    SplitFromKeepsText(body, 0, 0);
    NonBlankKeepsText(Split(body));
    assert body[0..] == body;
  }

  /** A blank line (two line breaks in a row) is always a break. */
  lemma BlankLineBreaks(s: string, k: nat)
    requires k + 1 < |s| && s[k] == '\n' && s[k + 1] == '\n'
    ensures BreakEnd(s, k).Some?
  {
    assert SkipSpace(s, k + 1) > k + 1;
  }

  /** Text the scan passed over without a break holds no blank line. */
  lemma PieceHasNoBlankLine(s: string, a: nat, b: nat)
    requires a <= b <= |s| && forall k :: a <= k < b ==> BreakEnd(s, k).None?
    ensures !Occurs(s[a..b], "\n\n")
  {
    forall k: nat | k <= |s[a..b]| ensures !OccursAt(s[a..b], "\n\n", k) {
      if OccursAt(s[a..b], "\n\n", k) {
        assert s[a + k] == s[a..b][k..k + 2][0];
        assert s[a + k + 1] == s[a..b][k..k + 2][1];
        BlankLineBreaks(s, a + k);
      }
    }
  }

  /** No piece of the split holds a blank line. */
  lemma {:induction false} SplitFromNoBlankLine(s: string, seg: nat, i: nat)
    requires seg <= i <= |s| && forall k :: seg <= k < i ==> BreakEnd(s, k).None?
    ensures forall p :: p in SplitFrom(s, seg, i) ==> !Occurs(p, "\n\n")
    decreases |s| - i
  {
    if i == |s| {
      PieceHasNoBlankLine(s, seg, i);
      assert s[seg..i] == s[seg..];
    } else {
      match BreakEnd(s, i)
      case Some(e) =>
        PieceHasNoBlankLine(s, seg, i);
        SplitFromNoBlankLine(s, e, e);
      case None =>
        SplitFromNoBlankLine(s, seg, i + 1);
    }
  }

  /** Stripping keeps a string free of a pattern it was free of. */
  lemma StripKeepsAbsent(p: string, w: string)
    requires !Occurs(p, w)
    ensures !Occurs(Strip(p), w)
  {
    var a, e := StripStart(p), StripEnd(p);
    forall k: nat | k <= |Strip(p)| ensures !OccursAt(Strip(p), w, k) {
      assert !OccursAt(p, w, a + k);
      OccursInSlice(p, a, e, w, k);
    }
  }

  lemma {:induction false} NonBlankNoBlankLine(ps: seq<string>)
    requires forall p :: p in ps ==> !Occurs(p, "\n\n")
    ensures forall q :: q in NonBlank(ps) ==> !Occurs(q, "\n\n")
  {
    if ps != [] {
      assert ps[0] in ps;
      StripKeepsAbsent(ps[0], "\n\n");
      assert forall p :: p in ps[1..] ==> p in ps;
      NonBlankNoBlankLine(ps[1..]);
    }
  }

  /** Every paragraph is non-empty and holds no blank line. */
  lemma ParagraphsHaveNoBlankLine(body: string)
    ensures forall q :: q in Paragraphs(body) ==> q != [] && !Occurs(q, "\n\n")
  {
    SplitFromNoBlankLine(body, 0, 0);
    NonBlankNoBlankLine(Split(body));
  }
}

=== FILE: quality.dfy ===
/**
 * The quality gates of improved_docliberator_5.py: `validate_extracted_text`
 * decides whether extracted text is worth converting, and
 * `get_readability_advice` turns two readability scores into advice lines.
 */
module Quality {
  import opened Text

  const TooShortMessage := "Document appears to be too short or mostly empty."
  const NonTextMessage := "Document appears to contain mostly non-text content or may be corrupted."

  /** The `(ok, message)` pair `validate_extracted_text` returns. */
  datatype Verdict = Verdict(ok: bool, message: string)

  /**
   * The length gate comes first: fewer than 100 characters once stripped is
   * "too short".  Then letters must make up at least half of the whole
   * (unstripped) text; the ratio test `letters / len < 0.5` is the integer
   * comparison `2 * letters < len`.
   */
  function ValidateExtractedText(text: string): (v: Verdict)
    ensures v.ok <==> v.message == []
    ensures |Strip(text)| < 100 ==> v == Verdict(false, TooShortMessage)
    ensures v.ok ==> |Strip(text)| >= 100 && 2 * CountLetters(text) >= |text|
    ensures !v.ok && |Strip(text)| >= 100 ==> v.message == NonTextMessage && 2 * CountLetters(text) < |text|
  {
    if |Strip(text)| < 100 then Verdict(false, TooShortMessage)
    else if 2 * CountLetters(text) < |text| then Verdict(false, NonTextMessage)
    else Verdict(true, [])
  }

  /** Accepted text holds at least 50 letters. */
  lemma AcceptedHasFiftyLetters(text: string)
    requires ValidateExtractedText(text).ok
    ensures CountLetters(text) >= 50
  {
    StripParts(text);
  }

  /** Text made only of letters is accepted exactly when it is at least 100 long. */
  lemma AllLettersAccepted(text: string)
    requires forall i :: 0 <= i < |text| ==> IsLetter(text[i])
    ensures ValidateExtractedText(text).ok <==> |text| >= 100
  {
    CountLettersAll(text);
    assert Strip(text) == text by {
      if text != [] {
        assert !IsSpace(text[0]) && !IsSpace(text[|text| - 1]);
      }
      StripTrimmed(text);
    }
  }

  /** The lines of advice `get_readability_advice` can give. */
  datatype Advice = ShorterSentences | Difficult | EasyToRead | Reasonable

  function AdviceText(a: Advice): string {
    match a
    case ShorterSentences => "\U{1F4DA} Consider using shorter sentences and simpler words"
    case Difficult => "\U{26A0}\U{FE0F} Document may be difficult for general public"
    case EasyToRead => "\U{2705} Document is easy to read"
    case Reasonable => "\U{1F44D} Document readability is reasonable"
  }

  predicate IsEaseAdvice(a: Advice) {
    a != ShorterSentences
  }

  /**
   * A reading age above 12 asks for shorter sentences; then exactly one
   * line judges the reading-ease score: below 60 difficult, above 80 easy,
   * otherwise reasonable.
   */
  function ReadabilityAdvice(readingAge: real, ease: real): (r: seq<Advice>)
    ensures 1 <= |r| <= 2
    ensures (ShorterSentences in r) <==> readingAge > 12.0
    ensures ShorterSentences in r ==> r[0] == ShorterSentences
    ensures IsEaseAdvice(r[|r| - 1])
    ensures forall k :: 0 <= k < |r| - 1 ==> !IsEaseAdvice(r[k])
    ensures r[|r| - 1] == Difficult <==> ease < 60.0
    ensures r[|r| - 1] == EasyToRead <==> ease > 80.0
    ensures r[|r| - 1] == Reasonable <==> 60.0 <= ease <= 80.0
  {
    var first := if readingAge > 12.0 then [ShorterSentences] else [];
    var band := if ease < 60.0 then Difficult else if ease > 80.0 then EasyToRead else Reasonable;
    first + [band]
  }

  /** A higher ease score never gives a harsher verdict. */
  lemma AdviceMonotoneInEase(age: real, e1: real, e2: real)
    requires e1 <= e2
    ensures var b1 := Last(ReadabilityAdvice(age, e1)); var b2 := Last(ReadabilityAdvice(age, e2));
      (b2 == Difficult ==> b1 == Difficult) && (b1 == EasyToRead ==> b2 == EasyToRead)
  {
  }

  function Last(r: seq<Advice>): Advice
    requires r != []
  {
    r[|r| - 1]
  }
}

=== FILE: rebuild.dfy ===
/**
 * The reconstruction of niklabs_docliberator_ultra_plus.py:134-170: text
 * edited outside the tool comes back line by line; `### ` and `## ` lines
 * become `<h3>` and `<h2>`, `- ` lines are gathered into a `<ul>`, blank
 * lines end a list and emit nothing, and every other line is a `<p>`.
 *
 * The loop keeps a string and a buffer of pending bullets.  The model proves
 * it equal to an independent definition: the lines grouped into blocks, each
 * maximal run of bullets one list, and the blocks written out in order.
 */
module Rebuild {
  import opened Text
  import opened Inline

  /** What a line is once stripped. */
  datatype Line = Blank | H3(text: string) | H2(text: string) | Bullet(text: string) | Para(text: string)

  /** The `if`/`elif` chain on `line.strip()`. */
  function Classify(line: string): Line {
    var t := Strip(line);
    if t == [] then Blank
    else if StartsWith(t, "### ") then H3(t[4..])
    else if StartsWith(t, "## ") then H2(t[3..])
    else if StartsWith(t, "- ") then Bullet(t[2..])
    else Para(t)
  }

  function ClassifyAll(lines: seq<string>): (ls: seq<Line>)
    ensures |ls| == |lines|
    ensures forall k :: 0 <= k < |lines| ==> ls[k] == Classify(lines[k])
  {
    if lines == [] then [] else [Classify(lines[0])] + ClassifyAll(lines[1..])
  }

  // ------------------------------------------------------------ bullet lists

  function ListItem(item: string): string {
    "  <li>" + FormatInline(item) + "</li>\n"
  }

  /** The `<li>` lines of the items, in order. */
  function ListItems(items: seq<string>): string {
    if items == [] then "" else ListItems(items[..|items| - 1]) + ListItem(items[|items| - 1])
  }

  /** What `flush_bullets(buffer)` returns: nothing for an empty buffer, else one `<ul>`. */
  function BulletList(items: seq<string>): string {
    if items == [] then "" else "<ul>\n" + ListItems(items) + "</ul>\n"
  }

  /** `flush_bullets(buffer)` */
  method FlushBullets(buffer: seq<string>) returns (ul: string)
    ensures ul == BulletList(buffer)
  {
    if buffer == [] {
      return "";
    }
    ul := "<ul>\n";
    for k := 0 to |buffer|
      invariant ul == "<ul>\n" + ListItems(buffer[..k])
    {
      ListItemsStep(buffer, k);
      var li := "  <li>" + FormatInline(buffer[k]) + "</li>\n";
      assert li == ListItem(buffer[k]);
      AppendAssoc("<ul>\n", ListItems(buffer[..k]), li);
      ul := ul + li;
    }
    assert buffer[..|buffer|] == buffer;
    ul := ul + "</ul>\n";
  }

  lemma ListItemsStep(items: seq<string>, k: nat)
    requires k < |items|
    ensures ListItems(items[..k + 1]) == ListItems(items[..k]) + ListItem(items[k])
  {
    assert items[..k + 1][..k] == items[..k];
  }

  /** Items flushed in two batches give the `<li>` lines of one batch. */
  lemma {:induction false} ListItemsAppend(a: seq<string>, b: seq<string>)
    ensures ListItems(a + b) == ListItems(a) + ListItems(b)
    decreases |b|
  {
    if b == [] {
      assert a + b == a;
    } else {
      var b', x := b[..|b| - 1], b[|b| - 1];
      assert (a + b)[..|a + b| - 1] == a + b' && (a + b)[|a + b| - 1] == x;
      assert ListItems(a + b) == ListItems(a + b') + ListItem(x);
      assert ListItems(b) == ListItems(b') + ListItem(x);
      ListItemsAppend(a, b');
      AppendAssoc(ListItems(a), ListItems(b'), ListItem(x));
    }
  }

  /** A list is emitted exactly when some bullet is pending. */
  lemma BulletListEmptyIff(items: seq<string>)
    ensures BulletList(items) == [] <==> items == []
  {
    if items != [] {
      assert BulletList(items)[0] == '<';
    }
  }

  // ------------------------------------------------------ the reference form

  /** A maximal run of bullets, or one other line. */
  datatype Block = List(items: seq<string>) | Single(line: Line)

  /** The texts of the bullets at the front of `ls`. */
  function Run(ls: seq<Line>): seq<string> {
    if ls != [] && ls[0].Bullet? then [ls[0].text] + Run(ls[1..]) else []
  }

  /** What follows them. */
  function AfterRun(ls: seq<Line>): (r: seq<Line>)
    ensures |r| <= |ls|
    ensures ls != [] && ls[0].Bullet? ==> |r| < |ls|
  {
    if ls != [] && ls[0].Bullet? then AfterRun(ls[1..]) else ls
  }

  /** The lines grouped into blocks. */
  function Group(ls: seq<Line>): seq<Block>
    decreases |ls|
  {
    if ls == [] then []
    else if ls[0].Bullet? then [List(Run(ls))] + Group(AfterRun(ls))
    else [Single(ls[0])] + Group(ls[1..])
  }

  /** The html of a line that is not a bullet. */
  function LineHtml(l: Line): string {
    match l
    case Blank => ""
    case H3(t) => "<h3>" + FormatInline(t) + "</h3>\n"
    case H2(t) => "<h2>" + FormatInline(t) + "</h2>\n"
    case Bullet(t) => ListItem(t)
    case Para(t) => "<p>" + FormatInline(t) + "</p>\n"
  }

  function BlockHtml(b: Block): string {
    if b.List? then BulletList(b.items) else LineHtml(b.line)
  }

  function RenderBlocks(bs: seq<Block>): string {
    if bs == [] then "" else BlockHtml(bs[0]) + RenderBlocks(bs[1..])
  }

  /** The html the reconstruction should produce for the edited text. */
  function Rebuilt(edited: string): string {
    RenderBlocks(Group(ClassifyAll(SplitLines(edited))))
  }

  // ------------------------------------------------- properties of grouping

  /** The lines a block stands for. */
  function BlockLines(b: Block): seq<Line> {
    if b.List? then Bullets(b.items) else [b.line]
  }

  function Bullets(items: seq<string>): (ls: seq<Line>)
    ensures |ls| == |items|
  {
    if items == [] then [] else [Bullet(items[0])] + Bullets(items[1..])
  }

  function Flatten(bs: seq<Block>): seq<Line> {
    if bs == [] then [] else BlockLines(bs[0]) + Flatten(bs[1..])
  }

  lemma {:induction false} RunSplits(ls: seq<Line>)
    ensures Bullets(Run(ls)) + AfterRun(ls) == ls
  {
    if ls != [] && ls[0].Bullet? {
      RunSplits(ls[1..]);
      assert ls == [ls[0]] + ls[1..];
      assert Bullets(Run(ls)) == [Bullet(ls[0].text)] + Bullets(Run(ls[1..]));
      AppendAssoc([Bullet(ls[0].text)], Bullets(Run(ls[1..])), AfterRun(ls[1..]));
    }
  }

  lemma FlattenCons(b: Block, bs: seq<Block>)
    ensures Flatten([b] + bs) == BlockLines(b) + Flatten(bs)
  {
    assert ([b] + bs)[0] == b && ([b] + bs)[1..] == bs;
  }

  /** Grouping loses no line and moves none. */
  lemma {:induction false} GroupKeepsLines(ls: seq<Line>)
    ensures Flatten(Group(ls)) == ls
    decreases |ls|
  {
    if ls != [] {
      if ls[0].Bullet? {
        var rest := AfterRun(ls);
        GroupKeepsLines(rest);
        RunSplits(ls);
        assert Group(ls) == [List(Run(ls))] + Group(rest);
        FlattenCons(List(Run(ls)), Group(rest));
      } else {
        GroupKeepsLines(ls[1..]);
        assert Group(ls) == [Single(ls[0])] + Group(ls[1..]);
        FlattenCons(Single(ls[0]), Group(ls[1..]));
        assert ls == [ls[0]] + ls[1..];
      }
    }
  }

  /** Lists are non-empty, never follow one another, and other blocks hold no bullet. */
  predicate Maximal(bs: seq<Block>) {
    && (forall i :: 0 <= i < |bs| ==> (bs[i].List? ==> bs[i].items != []) && (bs[i].Single? ==> !bs[i].line.Bullet?))
    && (forall i :: 0 <= i < |bs| - 1 ==> !(bs[i].List? && bs[i + 1].List?))
  }

  lemma {:induction false} AfterRunNotBullet(ls: seq<Line>)
    ensures AfterRun(ls) == [] || !AfterRun(ls)[0].Bullet?
  {
    if ls != [] && ls[0].Bullet? {
      AfterRunNotBullet(ls[1..]);
    }
  }

  lemma MaximalCons(b: Block, bs: seq<Block>)
    requires Maximal(bs)
    requires (b.List? ==> b.items != [] && (bs == [] || !bs[0].List?)) && (b.Single? ==> !b.line.Bullet?)
    ensures Maximal([b] + bs)
  {
    var r := [b] + bs;
    forall i | 0 < i < |r| ensures r[i] == bs[i - 1] {
    }
  }

  /** Each run of bullets is one list: grouping makes maximal runs. */
  lemma {:induction false} GroupMaximal(ls: seq<Line>)
    ensures Maximal(Group(ls))
    decreases |ls|
  {
    if ls != [] {
      if ls[0].Bullet? {
        var rest := AfterRun(ls);
        GroupMaximal(rest);
        AfterRunNotBullet(ls);
        assert Group(rest) == [] || !Group(rest)[0].List?;
        MaximalCons(List(Run(ls)), Group(rest));
      } else {
        GroupMaximal(ls[1..]);
        MaximalCons(Single(ls[0]), Group(ls[1..]));
      }
    }
  }

  // ---------------------------------------------------------------- the loop

  /** The output still owed for the pending bullets `buf` and the lines `rest`. */
  function Pending(buf: seq<string>, rest: seq<Line>): string {
    BulletList(buf + Run(rest)) + RenderBlocks(Group(AfterRun(rest)))
  }

  lemma PendingNone(rest: seq<Line>)
    ensures Pending([], rest) == RenderBlocks(Group(rest))
  {
    assert [] + Run(rest) == Run(rest);
    if rest != [] && !rest[0].Bullet? {
      assert Run(rest) == [] && AfterRun(rest) == rest;
    }
  }

  lemma PendingBullet(buf: seq<string>, rest: seq<Line>)
    requires rest != [] && rest[0].Bullet?
    ensures Pending(buf, rest) == Pending(buf + [rest[0].text], rest[1..])
  {
    AppendAssoc(buf, [rest[0].text], Run(rest[1..]));
  }

  lemma PendingOther(buf: seq<string>, rest: seq<Line>)
    requires rest != [] && !rest[0].Bullet?
    ensures Pending(buf, rest) == BulletList(buf) + LineHtml(rest[0]) + Pending([], rest[1..])
  {
    assert buf + Run(rest) == buf;
    PendingNone(rest[1..]);
    AppendAssoc(BulletList(buf), LineHtml(rest[0]), RenderBlocks(Group(rest[1..])));
  }

  /** A line that is not a bullet flushes the buffer, then adds its own html. */
  lemma OtherStep(r: string, rebuilt: string, buf: seq<string>, rest: seq<Line>, html: string)
    requires rest != [] && !rest[0].Bullet? && html == LineHtml(rest[0])
    requires rebuilt + Pending(buf, rest) == r
    ensures rebuilt + BulletList(buf) + html + Pending([], rest[1..]) == r
  {
    PendingOther(buf, rest);
    var ul, q := BulletList(buf), Pending([], rest[1..]);
    AppendAssoc(rebuilt, ul + html, q);
    AppendAssoc(rebuilt, ul, html);
  }

  /** A bullet joins the buffer. */
  lemma BulletStep(r: string, rebuilt: string, buf: seq<string>, rest: seq<Line>)
    requires rest != [] && rest[0].Bullet?
    requires rebuilt + Pending(buf, rest) == r
    ensures rebuilt + Pending(buf + [rest[0].text], rest[1..]) == r
  {
    PendingBullet(buf, rest);
  }

  /** Once every line is read, only the pending bullets are owed. */
  lemma EndStep(r: string, rebuilt: string, buf: seq<string>, rest: seq<Line>)
    requires rest == [] && rebuilt + Pending(buf, rest) == r
    ensures rebuilt + BulletList(buf) == r
  {
    assert buf + Run(rest) == buf;
    assert RenderBlocks(Group(AfterRun(rest))) == "";
  }

  lemma SuffixStep(ls: seq<Line>, k: nat)
    requires k < |ls|
    ensures ls[k..] != [] && ls[k..][0] == ls[k] && ls[k..][1..] == ls[k + 1..]
  {
  }

  /** `rebuilt_html += flush_bullets(bullet_buffer)` followed by the line's own html. */
  method FlushThen(rebuilt: string, buffer: seq<string>, html: string) returns (r: string)
    ensures r == rebuilt + BulletList(buffer) + html
  {
    var ul := FlushBullets(buffer);
    r := rebuilt + ul;
    r := r + html;
  }

  /** The reconstruction loop. */
  method Reconstruct(edited: string) returns (rebuilt: string)
    ensures rebuilt == Rebuilt(edited)
  {
    var lines := SplitLines(edited);
    ghost var ls := ClassifyAll(lines);
    ghost var target := Rebuilt(edited);
    assert target == RenderBlocks(Group(ls));
    rebuilt := "";
    var buffer: seq<string> := [];
    PendingNone(ls);
    assert ls[0..] == ls;
    for k := 0 to |lines|
      invariant rebuilt + Pending(buffer, ls[k..]) == target
    {
      SuffixStep(ls, k);
      var stripped := Strip(lines[k]);
      assert ls[k] == Classify(lines[k]);
      if stripped == [] {
        OtherStep(target, rebuilt, buffer, ls[k..], "");
        rebuilt := FlushThen(rebuilt, buffer, "");
        buffer := [];
      } else if StartsWith(stripped, "### ") {
        var html := "<h3>" + FormatInline(stripped[4..]) + "</h3>\n";
        OtherStep(target, rebuilt, buffer, ls[k..], html);
        rebuilt := FlushThen(rebuilt, buffer, html);
        buffer := [];
      } else if StartsWith(stripped, "## ") {
        var html := "<h2>" + FormatInline(stripped[3..]) + "</h2>\n";
        OtherStep(target, rebuilt, buffer, ls[k..], html);
        rebuilt := FlushThen(rebuilt, buffer, html);
        buffer := [];
      } else if StartsWith(stripped, "- ") {
        BulletStep(target, rebuilt, buffer, ls[k..]);
        buffer := buffer + [stripped[2..]];
      } else {
        var html := "<p>" + FormatInline(stripped) + "</p>\n";
        OtherStep(target, rebuilt, buffer, ls[k..], html);
        rebuilt := FlushThen(rebuilt, buffer, html);
        buffer := [];
      }
    }
    EndStep(target, rebuilt, buffer, ls[|lines|..]);
    var ul := FlushBullets(buffer);
    rebuilt := rebuilt + ul;
  }
}

=== FILE: sanitize.dfy ===
/**
 * The text sanitiser (`clean_text` in both scripts): an ordered table of
 * substitutions for PDF extraction artefacts, followed, in the improved
 * script, by whitespace normalisation and trimming.
 */
module Sanitize {
  import opened Text

  type Key = s: string | s != [] witness " "

  /** One `bad -> good` pair of the substitution table. */
  datatype Entry = Entry(key: Key, value: string)

  /**
   * The table of improved_docliberator_5.py exactly as Python reads it: the
   * quote entries lost their curly characters, so the first is `'"' -> '"'`
   * (twice, kept once by the dict) and the `'''` pair opens a triple-quoted
   * string whose text `: "'", ` becomes one odd key.
   */
  const WrittenTable: seq<Entry> := [
    Entry("\"", "\""), Entry(": \"'\", ", "'"),
    Entry("\U{2013}", "-"), Entry("\U{2014}", "-"), Entry("\U{2022}", "&#8226;"),
    Entry("\U{2122}", ""), Entry("\U{152}", ""), Entry("\U{C5}", ""),
    Entry("\U{E2}\U{20AC}\U{2122}", "'"), Entry("\U{C2}", ""), Entry("\U{E9}", "e"),
    Entry("\U{141}", ""), Entry("\U{160}", "")
  ]

  /** The table of niklabs_docliberator_ultra_plus.py, with its curly quotes intact. */
  const ArtifactTable: seq<Entry> := [
    Entry("\U{201C}", "\""), Entry("\U{201D}", "\""), Entry("\U{2018}", "'"), Entry("\U{2019}", "'"),
    Entry("\U{2013}", "-"), Entry("\U{2014}", "-"), Entry("\U{2022}", "&#8226;"),
    Entry("\U{2122}", ""), Entry("\U{152}", ""), Entry("\U{C5}", ""),
    Entry("\U{E2}\U{20AC}\U{2122}", "'"), Entry("\U{C2}", ""), Entry("\U{E9}", "e"),
    Entry("\U{141}", ""), Entry("\U{160}", "")
  ]

  /** The substitution loop: each entry's `str.replace`, in table order. */
  function ApplyTable(t: seq<Entry>, s: string): string {
    if t == [] then s else ApplyTable(t[1..], ReplaceAll(s, t[0].key, t[0].value))
  }

  lemma {:induction false} ApplyTableAppend(t1: seq<Entry>, t2: seq<Entry>, s: string)
    ensures ApplyTable(t1 + t2, s) == ApplyTable(t2, ApplyTable(t1, s))
  {
    if t1 == [] {
      assert t1 + t2 == t2;
    } else {
      assert (t1 + t2)[0] == t1[0];
      assert (t1 + t2)[1..] == t1[1..] + t2;
      ApplyTableAppend(t1[1..], t2, ReplaceAll(s, t1[0].key, t1[0].value));
    }
  }

  /** The loop runs the first `k` entries, then the rest. */
  lemma ApplyTableSplit(t: seq<Entry>, k: nat, s: string)
    requires k <= |t|
    ensures ApplyTable(t, s) == ApplyTable(t[k..], ApplyTable(t[..k], s))
  {
    assert t == t[..k] + t[k..];
    ApplyTableAppend(t[..k], t[k..], s);
  }

  /** `c` is the whole key of some entry. */
  predicate IsSingleKey(t: seq<Entry>, c: char) {
    exists k :: 0 <= k < |t| && t[k].key == [c]
  }

  /** No entry's replacement text brings back a one-character key. */
  predicate ValuesAvoidSingleKeys(t: seq<Entry>) {
    forall k, j :: 0 <= k < |t| && 0 <= j < |t| && |t[k].key| == 1 ==> t[k].key[0] !in t[j].value
  }

  /** A character absent from the text and from every replacement stays absent. */
  lemma {:induction false} ApplyTableKeepsAbsent(t: seq<Entry>, s: string, c: char)
    requires c !in s
    requires forall j :: 0 <= j < |t| ==> c !in t[j].value
    ensures c !in ApplyTable(t, s)
  {
    if t != [] {
      var s' := ReplaceAll(s, t[0].key, t[0].value);
      if c in s' {
        ReplaceChars(s, t[0].key, t[0].value, c);
      }
      ApplyTableKeepsAbsent(t[1..], s', c);
    }
  }

  /** A one-character key that no replacement value holds does not survive the loop. */
  lemma {:induction false} ApplyTableRemovesKey(t: seq<Entry>, s: string, c: char)
    requires IsSingleKey(t, c) && forall j :: 0 <= j < |t| ==> c !in t[j].value
    ensures c !in ApplyTable(t, s)
  {
    var k :| 0 <= k < |t| && t[k].key == [c];
    var s' := ReplaceAll(s, t[0].key, t[0].value);
    if k == 0 {
      ReplaceRemovesChar(s, t[0].key, t[0].value);
      ApplyTableKeepsAbsent(t[1..], s', c);
    } else {
      assert t[1..][k - 1].key == [c];
      ApplyTableRemovesKey(t[1..], s', c);
    }
  }

  /** With such a table, no one-character key survives the loop. */
  lemma ApplyTableRemovesSingleKeys(t: seq<Entry>, s: string, c: char)
    requires ValuesAvoidSingleKeys(t) && IsSingleKey(t, c)
    ensures c !in ApplyTable(t, s)
  {
    var k :| 0 <= k < |t| && t[k].key == [c];
    assert t[k].key[0] == c;
    ApplyTableRemovesKey(t, s, c);
  }

  /** Text in which no key occurs comes back unchanged. */
  lemma {:induction false} ApplyTableNoKeys(t: seq<Entry>, s: string)
    requires forall j :: 0 <= j < |t| ==> !Occurs(s, t[j].key)
    ensures ApplyTable(t, s) == s
  {
    if t != [] {
      ReplaceAbsent(s, t[0].key, t[0].value);
      ApplyTableNoKeys(t[1..], s);
    }
  }

  lemma ArtifactTableAvoidsSingleKeys()
    ensures ValuesAvoidSingleKeys(ArtifactTable)
  {
    var t := ArtifactTable;
    // Every replacement is ASCII; every one-character key is not.
    assert forall j, i :: 0 <= j < |t| && 0 <= i < |t[j].value| ==> t[j].value[i] < '\U{80}';
    assert forall k :: 0 <= k < |t| && |t[k].key| == 1 ==> t[k].key[0] >= '\U{80}';
  }

  /** No key contains whitespace. */
  predicate KeysHaveNoSpace(t: seq<Entry>) {
    forall k, i :: 0 <= k < |t| && 0 <= i < |t[k].key| ==> !IsSpace(t[k].key[i])
  }

  lemma ArtifactKeysHaveNoSpace()
    ensures KeysHaveNoSpace(ArtifactTable)
  {
  }

  /** The table without its `â€™` entry. */
  const ArtifactTableWithoutMojibake: seq<Entry> := ArtifactTable[..10] + ArtifactTable[11..]

  /**
   * The `â€™ -> '` entry never fires: `™` is deleted two entries earlier and
   * nothing in between brings it back, so the three-character key cannot occur.
   */
  lemma MojibakeEntryNeverFires(s: string)
    ensures ApplyTable(ArtifactTable, s) == ApplyTable(ArtifactTableWithoutMojibake, s)
  {
    var p := ArtifactTable[..8];
    var q := ArtifactTable[8..10];
    var m := ArtifactTable[10];
    var r := ArtifactTable[11..];
    assert ArtifactTable == p + (q + ([m] + r));
    assert ArtifactTableWithoutMojibake == p + (q + r);
    var x := ApplyTable(p, s);
    assert '\U{2122}' !in x by {
      assert p == p[..7] + [p[7]];
      ApplyTableAppend(p[..7], [p[7]], s);
      ReplaceRemovesChar(ApplyTable(p[..7], s), p[7].key, p[7].value);
    }
    var y := ApplyTable(q, x);
    assert ApplyTable([m] + r, y) == ApplyTable(r, y) by {
      ApplyTableKeepsAbsent(q, x, '\U{2122}');
      NotOccursWithoutChar(y, m.key, '\U{2122}');
      ReplaceAbsent(y, m.key, m.value);
    }
    ApplyTableAppend(p, q + ([m] + r), s);
    ApplyTableAppend(q, [m] + r, x);
    ApplyTableAppend(p, q + r, s);
    ApplyTableAppend(q, r, x);
  }

  /** A character of key `j` that is itself a whole key: `™` for the three-character key, else the key. */
  function ArtifactKeyMark(j: nat): (c: char)
    requires j < |ArtifactTable|
    ensures c in ArtifactTable[j].key && IsSingleKey(ArtifactTable, c)
  {
    if j == 10 then
      assert ArtifactTable[7].key == ['\U{2122}'];
      '\U{2122}'
    else
      assert ArtifactTable[j].key == [ArtifactTable[j].key[0]];
      ArtifactTable[j].key[0]
  }

  /**
   * The niklabs sanitiser is idempotent: its output holds no key at all, so
   * a second pass changes nothing.
   */
  lemma ArtifactCleanIdempotent(s: string)
    ensures forall j :: 0 <= j < |ArtifactTable| ==> !Occurs(ApplyTable(ArtifactTable, s), ArtifactTable[j].key)
    ensures ApplyTable(ArtifactTable, ApplyTable(ArtifactTable, s)) == ApplyTable(ArtifactTable, s)
  {
    var r := ApplyTable(ArtifactTable, s);
    ArtifactTableAvoidsSingleKeys();
    forall j | 0 <= j < |ArtifactTable| ensures !Occurs(r, ArtifactTable[j].key) {
      var c := ArtifactKeyMark(j);
      ApplyTableRemovesSingleKeys(ArtifactTable, s, c);
      NotOccursWithoutChar(r, ArtifactTable[j].key, c);
    }
    ApplyTableNoKeys(ArtifactTable, r);
  }

  // ---------------------------------------------------------------- whitespace

  function CountNewlines(s: string, i: nat, j: nat): nat
    requires i <= j <= |s|
    decreases j - i
  {
    if i == j then 0 else (if s[i] == '\n' then 1 else 0) + CountNewlines(s, i + 1, j)
  }

  /** One past the last `\n` in `s[i..j]`, which starts with one. */
  function LastNewlineEnd(s: string, i: nat, j: nat): (r: nat)
    requires i < j <= |s| && s[i] == '\n'
    ensures i < r <= j && s[r - 1] == '\n'
    ensures forall k :: r <= k < j ==> s[k] != '\n'
    decreases j - i
  {
    if s[j - 1] == '\n' then j else LastNewlineEnd(s, i, j - 1)
  }

  /**
   * `re.sub(r'\n\s*\n\s*\n', '\n\n', s[i..])`: a newline that opens a
   * whitespace stretch holding three or more newlines starts a match, and the
   * greedy `\s*` makes it end just after the stretch's last newline.
   */
  function CollapseBlankLinesFrom(s: string, i: nat): string
    requires i <= |s|
    decreases |s| - i
  {
    if i == |s| then []
    else
      var j := SkipSpace(s, i);
      if s[i] == '\n' && CountNewlines(s, i, j) >= 3 then
        "\n\n" + CollapseBlankLinesFrom(s, LastNewlineEnd(s, i, j))
      else [s[i]] + CollapseBlankLinesFrom(s, i + 1)
  }

  function CollapseBlankLines(s: string): string {
    CollapseBlankLinesFrom(s, 0)
  }

  /** Collapsing blank lines only rewrites whitespace. */
  lemma {:induction false} CollapseBlankLinesKeepsText(s: string, i: nat)
    requires i <= |s|
    ensures NonSpace(CollapseBlankLinesFrom(s, i)) == NonSpace(s[i..])
    decreases |s| - i
  {
    if i < |s| {
      var j := SkipSpace(s, i);
      if s[i] == '\n' && CountNewlines(s, i, j) >= 3 {
        var e := LastNewlineEnd(s, i, j);
        CollapseBlankLinesKeepsText(s, e);
        NonSpaceAppend("\n\n", CollapseBlankLinesFrom(s, e));
        assert NonSpace("\n\n") == [];
        NonSpaceSkip(s, i, e);
      } else {
        CollapseBlankLinesKeepsText(s, i + 1);
        NonSpaceAppend([s[i]], CollapseBlankLinesFrom(s, i + 1));
        assert s[i..] == [s[i]] + s[i + 1..];
        NonSpaceAppend([s[i]], s[i + 1..]);
      }
    }
  }

  /** First index at or after `i` that is not a space `' '`. */
  function SkipBlanks(s: string, i: nat): (j: nat)
    requires i <= |s|
    ensures i <= j <= |s|
    ensures forall k :: i <= k < j ==> s[k] == ' '
    ensures j == |s| || s[j] != ' '
    decreases |s| - i
  {
    if i == |s| || s[i] != ' ' then i else SkipBlanks(s, i + 1)
  }

  predicate NoDoubleSpace(s: string) {
    forall k :: 0 <= k < |s| - 1 ==> !(s[k] == ' ' && s[k + 1] == ' ')
  }

  /** `re.sub(r' +', ' ', s[i..])`: every run of spaces becomes one space. */
  function CollapseSpacesFrom(s: string, i: nat): (r: string)
    requires i <= |s|
    ensures i == |s| <==> r == []
    ensures i < |s| ==> r[0] == s[i]
    ensures NoDoubleSpace(r)
    decreases |s| - i
  {
    if i == |s| then []
    else if s[i] == ' ' then " " + CollapseSpacesFrom(s, SkipBlanks(s, i))
    else [s[i]] + CollapseSpacesFrom(s, i + 1)
  }

  function CollapseSpaces(s: string): string {
    CollapseSpacesFrom(s, 0)
  }

  /** Collapsing spaces only rewrites whitespace. */
  lemma {:induction false} CollapseSpacesKeepsText(s: string, i: nat)
    requires i <= |s|
    ensures NonSpace(CollapseSpacesFrom(s, i)) == NonSpace(s[i..])
    decreases |s| - i
  {
    if i < |s| {
      if s[i] == ' ' {
        var j := SkipBlanks(s, i);
        CollapseSpacesKeepsText(s, j);
        NonSpaceAppend(" ", CollapseSpacesFrom(s, j));
        NonSpaceSkip(s, i, j);
      } else {
        CollapseSpacesKeepsText(s, i + 1);
        NonSpaceAppend([s[i]], CollapseSpacesFrom(s, i + 1));
        assert s[i..] == [s[i]] + s[i + 1..];
        NonSpaceAppend([s[i]], s[i + 1..]);
      }
    }
  }

  /** `clean_text` of improved_docliberator_5.py with table `t`. */
  function CleanedText(t: seq<Entry>, s: string): string {
    Strip(CollapseSpaces(CollapseBlankLines(ApplyTable(t, s))))
  }

  /**
   * The cleaned text has no leading or trailing whitespace, never two spaces
   * in a row, and the same non-whitespace characters, in the same order, as
   * the text after substitution.
   */
  lemma CleanedTextShape(t: seq<Entry>, s: string)
    ensures var r := CleanedText(t, s);
      && (r == [] || (!IsSpace(r[0]) && !IsSpace(r[|r| - 1])))
      && NoDoubleSpace(r)
      && NonSpace(r) == NonSpace(ApplyTable(t, s))
  {
    var x := ApplyTable(t, s);
    var y := CollapseBlankLines(x);
    var z := CollapseSpaces(y);
    var r := Strip(z);
    assert r == CleanedText(t, s);
    assert NoDoubleSpace(r) by {
      var a := StripStart(z);
      forall k | 0 <= k < |r| - 1 ensures !(r[k] == ' ' && r[k + 1] == ' ') {
        assert r[k] == z[a + k] && r[k + 1] == z[a + k + 1];
      }
    }
    assert NonSpace(r) == NonSpace(x) by {
      StripKeepsText(z);
      CollapseSpacesKeepsText(y, 0);
      CollapseBlankLinesKeepsText(x, 0);
      assert y[0..] == y && x[0..] == x;
    }
  }

  /** A one-character key that is not whitespace and that no value holds does not survive cleaning. */
  lemma CleanedTextDropsKey(t: seq<Entry>, s: string, c: char)
    requires IsSingleKey(t, c) && !IsSpace(c)
    requires forall j :: 0 <= j < |t| ==> c !in t[j].value
    ensures c !in CleanedText(t, s)
  {
    ApplyTableRemovesKey(t, s, c);
    CleanedTextShape(t, s);
    NonSpaceMember(CleanedText(t, s), c);
    NonSpaceMember(ApplyTable(t, s), c);
  }

  /** With the artefact table, no one-character key survives cleaning. */
  lemma CleanedTextHasNoSingleKeys(s: string, c: char)
    requires IsSingleKey(ArtifactTable, c)
    ensures c !in CleanedText(ArtifactTable, s)
  {
    ArtifactTableAvoidsSingleKeys();
    var k :| 0 <= k < |ArtifactTable| && ArtifactTable[k].key == [c];
    ArtifactKeysHaveNoSpace();
    assert ArtifactTable[k].key[0] == c && !IsSpace(c);
    CleanedTextDropsKey(ArtifactTable, s, c);
  }

  /**
   * With the table as written, every one-character key but the straight
   * double quote (which maps to itself) is gone after cleaning.
   */
  lemma WrittenCleanedTextDropsKeys(s: string, c: char)
    requires IsSingleKey(WrittenTable, c) && c != '"'
    ensures c !in CleanedText(WrittenTable, s)
  {
    WrittenSingleKeyWide(c);
    WrittenValuesAscii(c);
    CleanedTextDropsKey(WrittenTable, s, c);
  }

  /** Every one-character key of the written table but `"` lies outside ASCII. */
  lemma WrittenSingleKeyWide(c: char)
    requires IsSingleKey(WrittenTable, c) && c != '"'
    ensures c >= '\U{80}'
  {
    var t := WrittenTable;
    var k :| 0 <= k < |t| && t[k].key == [c];
    assert c == t[k].key[0] && k != 0;
  }

  /** Every replacement of the written table is ASCII. */
  lemma WrittenValuesAscii(c: char)
    requires c >= '\U{80}'
    ensures forall j :: 0 <= j < |WrittenTable| ==> c !in WrittenTable[j].value
  {
    var t := WrittenTable;
    assert forall j, i :: 0 <= j < |t| && 0 <= i < |t[j].value| ==> t[j].value[i] < '\U{80}';
  }

  /** Letters, spaces and curly quotes: none of the written table's keys can occur in them. */
  predicate QuotedProse(s: string) {
    forall i :: 0 <= i < |s| ==>
      IsLetter(s[i]) || s[i] == ' ' || s[i] in "\U{201C}\U{201D}\U{2018}\U{2019}"
  }

  /**
   * As written, the sanitiser of improved_docliberator_5.py leaves curly
   * quotes alone: prose made of letters, spaces and curly quotes passes the
   * substitution loop unchanged.
   */
  lemma WrittenTableKeepsCurlyQuotes(s: string)
    requires QuotedProse(s)
    ensures ApplyTable(WrittenTable, s) == s
  {
    forall j | 0 <= j < |WrittenTable| ensures !Occurs(s, WrittenTable[j].key) {
      var key := WrittenTable[j].key;
      var c := WrittenKeyMark(j);
      forall i | 0 <= i < |s| ensures s[i] != c {
      }
      NotOccursWithoutChar(s, key, c);
    }
    ApplyTableNoKeys(WrittenTable, s);
  }

  /** A character of key `j` of the written table that such prose never holds. */
  function WrittenKeyMark(j: nat): (c: char)
    requires j < |WrittenTable|
    ensures c in WrittenTable[j].key
    ensures !IsLetter(c) && c != ' ' && c !in "\U{201C}\U{201D}\U{2018}\U{2019}"
  {
    if j == 1 then ':' else WrittenTable[j].key[0]
  }

  /** Hence a left double quote in such prose (say `“Hello”`) survives the as-written sanitiser. */
  lemma WrittenCleanTextKeepsLeftQuote(s: string)
    requires QuotedProse(s) && '\U{201C}' in s
    ensures '\U{201C}' in CleanedText(WrittenTable, s)
  {
    WrittenTableKeepsCurlyQuotes(s);
    CleanedTextShape(WrittenTable, s);
    NonSpaceMember(s, '\U{201C}');
    NonSpaceMember(CleanedText(WrittenTable, s), '\U{201C}');
  }

  /** The corrected table removes it from every text. */
  lemma ArtifactCleanTextRemovesLeftQuote(s: string)
    ensures '\U{201C}' !in CleanedText(ArtifactTable, s)
  {
    assert ArtifactTable[0].key == ['\U{201C}'];
    CleanedTextHasNoSingleKeys(s, '\U{201C}');
  }

  // ------------------------------------------------------ cleaning is idempotent

  /**
   * Read from the left with `n` line breaks already in the current stretch of
   * whitespace, no stretch of `x` reaches three line breaks: nothing left for
   * `\n\s*\n\s*\n` to match.
   */
  predicate FewBreaks(x: string, n: nat)
    decreases |x|
  {
    if x == [] then true
    else if x[0] == '\n' then n < 2 && FewBreaks(x[1..], n + 1)
    else if IsSpace(x[0]) then FewBreaks(x[1..], n)
    else FewBreaks(x[1..], 0)
  }

  /** Fewer line breaks already seen leaves more room. */
  lemma {:induction false} FewBreaksFewer(x: string, n: nat, m: nat)
    requires FewBreaks(x, n) && m <= n
    ensures FewBreaks(x, m)
    decreases |x|
  {
    if x != [] {
      if x[0] == '\n' {
        FewBreaksFewer(x[1..], n + 1, m + 1);
      } else if IsSpace(x[0]) {
        FewBreaksFewer(x[1..], n, m);
      }
    }
  }

  /** Every suffix of such a text is one too. */
  lemma {:induction false} FewBreaksDrop(x: string, n: nat, k: nat)
    requires FewBreaks(x, n) && k <= |x|
    ensures FewBreaks(x[k..], 0)
    decreases k
  {
    if k == 0 {
      FewBreaksFewer(x, n, 0);
    } else {
      var n' := if x[0] == '\n' then n + 1 else if IsSpace(x[0]) then n else 0;
      assert FewBreaks(x[1..], n');
      FewBreaksDrop(x[1..], n', k - 1);
      assert x[1..][k - 1..] == x[k..];
    }
  }

  /** Every prefix of such a text is one too. */
  lemma {:induction false} FewBreaksTake(x: string, n: nat, k: nat)
    requires FewBreaks(x, n) && k <= |x|
    ensures FewBreaks(x[..k], n)
    decreases k
  {
    if k > 0 {
      var n' := if x[0] == '\n' then n + 1 else if IsSpace(x[0]) then n else 0;
      FewBreaksTake(x[1..], n', k - 1);
      assert x[..k][0] == x[0] && x[..k][1..] == x[1..][..k - 1];
    }
  }

  /** The stretch starting at `i` adds at most `2 - n` line breaks. */
  lemma {:induction false} FewBreaksCount(x: string, i: nat, n: nat)
    requires i <= |x| && n <= 2 && FewBreaks(x[i..], n)
    ensures n + CountNewlines(x, i, SkipSpace(x, i)) <= 2
    decreases |x| - i
  {
    if i < |x| && IsSpace(x[i]) {
      assert x[i..][0] == x[i] && x[i..][1..] == x[i + 1..];
      FewBreaksCount(x, i + 1, if x[i] == '\n' then n + 1 else n);
    }
  }

  /** Such a text has no blank lines to collapse. */
  lemma {:induction false} FewBreaksKeeps(x: string, i: nat, n: nat)
    requires i <= |x| && n <= 2 && FewBreaks(x[i..], n)
    ensures CollapseBlankLinesFrom(x, i) == x[i..]
    decreases |x| - i
  {
    if i < |x| {
      FewBreaksCount(x, i, n);
      assert x[i..][0] == x[i] && x[i..][1..] == x[i + 1..];
      FewBreaksKeeps(x, i + 1, if x[i] == '\n' then n + 1 else if IsSpace(x[i]) then n else 0);
    }
  }

  /** Inside a whitespace stretch, the stretch ends where it ends. */
  lemma {:induction false} SkipSpaceInside(s: string, i: nat, e: nat)
    requires i <= |s| && i <= e <= SkipSpace(s, i)
    ensures SkipSpace(s, e) == SkipSpace(s, i)
    decreases e - i
  {
    if i < e {
      SkipSpaceInside(s, i + 1, e);
    }
  }

  lemma {:induction false} CountNoNewlines(s: string, i: nat, j: nat)
    requires i <= j <= |s| && forall k :: i <= k < j ==> s[k] != '\n'
    ensures CountNewlines(s, i, j) == 0
    decreases j - i
  {
    if i < j {
      CountNoNewlines(s, i + 1, j);
    }
  }

  /**
   * Collapsing blank lines leaves no stretch with three line breaks. `n` line
   * breaks already emitted in the current stretch are allowed when the input
   * stretch from `i` keeps the total at two (after a collapse, `n` is 2 and
   * the stretch has no line break left).
   */
  lemma {:induction false} CollapsedFewBreaks(s: string, i: nat, n: nat)
    requires i <= |s| && n <= 2
    requires n == 0 || n + CountNewlines(s, i, SkipSpace(s, i)) <= 2
    ensures FewBreaks(CollapseBlankLinesFrom(s, i), n)
    decreases |s| - i
  {
    if i < |s| {
      var j := SkipSpace(s, i);
      if s[i] == '\n' && CountNewlines(s, i, j) >= 3 {
        var e := LastNewlineEnd(s, i, j);
        SkipSpaceInside(s, i, e);
        CountNoNewlines(s, e, j);
        CollapsedFewBreaks(s, e, 2);
        var r := CollapseBlankLinesFrom(s, e);
        assert ("\n\n" + r)[1..] == "\n" + r && ("\n" + r)[1..] == r;
      } else {
        var r := CollapseBlankLinesFrom(s, i + 1);
        if IsSpace(s[i]) {
          SkipSpaceInside(s, i, i + 1);
        }
        CollapsedFewBreaks(s, i + 1, if s[i] == '\n' then n + 1 else if IsSpace(s[i]) then n else 0);
        assert ([s[i]] + r)[0] == s[i] && ([s[i]] + r)[1..] == r;
      }
    }
  }

  /** Skipping a run of spaces keeps the state. */
  lemma {:induction false} FewBreaksSkipBlanks(x: string, i: nat, n: nat)
    requires i <= |x| && FewBreaks(x[i..], n)
    ensures FewBreaks(x[SkipBlanks(x, i)..], n)
    decreases |x| - i
  {
    if i < |x| && x[i] == ' ' {
      assert x[i..][0] == x[i] && x[i..][1..] == x[i + 1..];
      FewBreaksSkipBlanks(x, i + 1, n);
    }
  }

  /** Collapsing spaces never joins line breaks into a longer stretch. */
  lemma {:induction false} CollapseSpacesFewBreaks(x: string, i: nat, n: nat)
    requires i <= |x| && FewBreaks(x[i..], n)
    ensures FewBreaks(CollapseSpacesFrom(x, i), n)
    decreases |x| - i
  {
    if i < |x| {
      if x[i] == ' ' {
        var j := SkipBlanks(x, i);
        FewBreaksSkipBlanks(x, i, n);
        CollapseSpacesFewBreaks(x, j, n);
        var r := CollapseSpacesFrom(x, j);
        assert (" " + r)[0] == ' ' && (" " + r)[1..] == r;
      } else {
        assert x[i..][0] == x[i] && x[i..][1..] == x[i + 1..];
        var n' := if x[i] == '\n' then n + 1 else if IsSpace(x[i]) then n else 0;
        CollapseSpacesFewBreaks(x, i + 1, n');
        var r := CollapseSpacesFrom(x, i + 1);
        assert ([x[i]] + r)[0] == x[i] && ([x[i]] + r)[1..] == r;
      }
    }
  }

  /** A text without two spaces in a row has no run of spaces to collapse. */
  lemma {:induction false} NoDoubleSpaceKeeps(x: string, i: nat)
    requires i <= |x| && NoDoubleSpace(x)
    ensures CollapseSpacesFrom(x, i) == x[i..]
    decreases |x| - i
  {
    if i < |x| {
      assert x[i..] == [x[i]] + x[i + 1..];
      if x[i] == ' ' {
        assert SkipBlanks(x, i) == i + 1 by {
          assert i + 1 == |x| || x[i + 1] != ' ';
        }
      }
      NoDoubleSpaceKeeps(x, i + 1);
    }
  }

  /** Whatever the table, the cleaned text has no stretch with three line breaks. */
  lemma CleanedTextFewBreaks(t: seq<Entry>, s: string)
    ensures FewBreaks(CleanedText(t, s), 0)
  {
    var x := ApplyTable(t, s);
    var y := CollapseBlankLines(x);
    var z := CollapseSpaces(y);
    CollapsedFewBreaks(x, 0, 0);
    assert y[0..] == y;
    CollapseSpacesFewBreaks(y, 0, 0);
    StripFewBreaks(z);
  }

  /** `strip` keeps a text free of three-break stretches. */
  lemma StripFewBreaks(z: string)
    requires FewBreaks(z, 0)
    ensures FewBreaks(Strip(z), 0)
  {
    var a, e := StripStart(z), StripEnd(z);
    FewBreaksDrop(z, 0, a);
    FewBreaksTake(z[a..], 0, e - a);
    assert Strip(z) == z[a..][..e - a];
  }

  /** A text in the shape cleaning produces passes the last three steps unchanged. */
  lemma CleanShapeKeeps(r: string)
    requires r == [] || (!IsSpace(r[0]) && !IsSpace(r[|r| - 1]))
    requires NoDoubleSpace(r) && FewBreaks(r, 0)
    ensures Strip(CollapseSpaces(CollapseBlankLines(r))) == r
  {
    FewBreaksKeeps(r, 0, 0);
    assert r[0..] == r;
    NoDoubleSpaceKeeps(r, 0);
    StripTrimmed(r);
  }

  /** With the artefact table, the cleaned text holds no key of the table. */
  lemma CleanedTextNoKeys(s: string)
    ensures ApplyTable(ArtifactTable, CleanedText(ArtifactTable, s)) == CleanedText(ArtifactTable, s)
  {
    var r := CleanedText(ArtifactTable, s);
    forall j | 0 <= j < |ArtifactTable| ensures !Occurs(r, ArtifactTable[j].key) {
      var c := ArtifactKeyMark(j);
      CleanedTextHasNoSingleKeys(s, c);
      NotOccursWithoutChar(r, ArtifactTable[j].key, c);
    }
    ApplyTableNoKeys(ArtifactTable, r);
  }

  /**
   * `clean_text` with the artefact table is idempotent: cleaning a cleaned
   * text changes nothing.
   */
  lemma CleanedTextIdempotent(s: string)
    ensures CleanedText(ArtifactTable, CleanedText(ArtifactTable, s)) == CleanedText(ArtifactTable, s)
  {
    var r := CleanedText(ArtifactTable, s);
    CleanedTextNoKeys(s);
    CleanedTextShape(ArtifactTable, s);
    CleanedTextFewBreaks(ArtifactTable, s);
    CleanShapeKeeps(r);
  }

  /** Without a line break there is no stretch of line breaks to count. */
  lemma {:induction false} FewBreaksNoNewline(x: string, n: nat)
    requires '\n' !in x
    ensures FewBreaks(x, n)
    decreases |x|
  {
    if x != [] {
      FewBreaksNoNewline(x[1..], if IsSpace(x[0]) then n else 0);
    }
  }

  /** The odd key of the written table: the text of its `'''` pair. */
  const OddKey: Key := ": \"'\", "

  /** A text that holds the odd key once the odd key has been replaced. */
  const OddKeyInput: string := ": \"" + OddKey + "\", x"

  /** Keys that start with a non-ASCII character never occur in ASCII text. */
  lemma WideKeysAbsent(t: seq<Entry>, s: string)
    requires forall j :: 0 <= j < |t| ==> t[j].key[0] >= '\U{80}'
    requires forall i :: 0 <= i < |s| ==> s[i] < '\U{80}'
    ensures ApplyTable(t, s) == s
  {
    forall j | 0 <= j < |t| ensures !Occurs(s, t[j].key) {
      NotOccursWithoutChar(s, t[j].key, t[j].key[0]);
    }
    ApplyTableNoKeys(t, s);
  }

  /** Every key from position `n` on starts with a character outside ASCII. */
  predicate WideFrom(t: seq<Entry>, n: nat) {
    forall j :: n <= j < |t| ==> t[j].key[0] >= '\U{80}'
  }

  /** Past the two quote entries, every key of the written table starts with a non-ASCII character. */
  lemma WrittenRestWide()
    ensures 2 <= |WrittenTable| && WideFrom(WrittenTable, 2)
  {
  }

  /** The two quote entries: the first maps `"` to itself, the second replaces the odd key. */
  lemma WrittenTableHead(s: string)
    ensures ApplyTable(WrittenTable[..2], s) == ReplaceAll(s, OddKey, "'")
  {
    var h := WrittenTable[..2];
    var odd := Entry(OddKey, "'");
    assert h[0] == Entry("\"", "\"") && h[1..] == [odd];
    ReplaceSelf(s, "\"");
    calc {
      ApplyTable(h, s);
      ApplyTable([odd], ReplaceAll(s, "\"", "\""));
      ApplyTable([odd], s);
      { assert [odd][1..] == []; }
      ReplaceAll(s, OddKey, "'");
    }
  }

  /** Replacing the odd key in ASCII text leaves ASCII text. */
  lemma ReplaceOddKeyAscii(s: string)
    requires forall i :: 0 <= i < |s| ==> s[i] < '\U{80}'
    ensures var r := ReplaceAll(s, OddKey, "'"); forall i :: 0 <= i < |r| ==> r[i] < '\U{80}'
  {
    var r := ReplaceAll(s, OddKey, "'");
    forall i | 0 <= i < |r| ensures r[i] < '\U{80}' {
      ReplaceChars(s, OddKey, "'", r[i]);
    }
  }

  /** Two leading entries that give ASCII text, then keys that cannot occur in it. */
  lemma WideAfterTwo(t: seq<Entry>, s: string, r: string)
    requires 2 <= |t| && ApplyTable(t[..2], s) == r
    requires forall i :: 0 <= i < |r| ==> r[i] < '\U{80}'
    requires WideFrom(t, 2)
    ensures ApplyTable(t, s) == r
  {
    ApplyTableSplit(t, 2, s);
    var rest := t[2..];
    assert forall j :: 0 <= j < |rest| ==> rest[j] == t[j + 2];
    WideKeysAbsent(rest, r);
  }

  /** The written table on ASCII text: only the odd key is replaced. */
  lemma WrittenTableOnAscii(s: string)
    requires forall i :: 0 <= i < |s| ==> s[i] < '\U{80}'
    ensures ApplyTable(WrittenTable, s) == ReplaceAll(s, OddKey, "'")
  {
    WrittenTableHead(s);
    ReplaceOddKeyAscii(s);
    WrittenRestWide();
    WideAfterTwo(WrittenTable, s, ReplaceAll(s, OddKey, "'"));
  }

  /** ASCII text whose substitution is already in the cleaned shape is cleaned to that substitution. */
  lemma WrittenCleanAscii(s: string, r: string)
    requires forall i :: 0 <= i < |s| ==> s[i] < '\U{80}'
    requires ReplaceAll(s, OddKey, "'") == r
    requires r == [] || (!IsSpace(r[0]) && !IsSpace(r[|r| - 1]))
    requires NoDoubleSpace(r) && '\n' !in r
    ensures CleanedText(WrittenTable, s) == r
  {
    WrittenTableOnAscii(s);
    FewBreaksNoNewline(r, 0);
    CleanShapeKeeps(r);
  }

  /** Only the first character of the odd key is a colon, so no proper prefix of it is also a suffix. */
  lemma OddKeyBorderless()
    ensures Borderless(OddKey)
  {
    var w := OddKey;
    forall m | 0 < m < |w| ensures w[m..] != w[..|w| - m] {
      assert w[m..][0] == w[m] != ':';
    }
  }

  lemma OddKeyFormedAgain()
    ensures ReplaceAll(OddKeyInput, OddKey, "'") == OddKey + "x"
  {
    OddKeyBorderless();
    assert !Occurs(": \"", OddKey);
    ReplaceAfterClearPrefix(": \"", OddKey, "\", x", "'");
    assert ReplaceAll("\", x", OddKey, "'") == "\", x";
  }

  lemma OddKeyReplacedAgain()
    ensures ReplaceAll(OddKey + "x", OddKey, "'") == "'x"
  {
    ReplaceAtFront(OddKey, "x", "'");
  }

  /**
   * As written, `clean_text` is not idempotent: replacing the odd key can
   * form it again, so a second pass changes the text once more.
   */
  lemma WrittenCleanNotIdempotent()
    ensures CleanedText(WrittenTable, OddKeyInput) == OddKey + "x"
    ensures CleanedText(WrittenTable, CleanedText(WrittenTable, OddKeyInput)) == "'x"
    ensures CleanedText(WrittenTable, CleanedText(WrittenTable, OddKeyInput)) != CleanedText(WrittenTable, OddKeyInput)
  {
    WrittenCleanOnce();
    WrittenCleanTwice();
  }

  lemma WrittenCleanOnce()
    ensures CleanedText(WrittenTable, OddKeyInput) == OddKey + "x"
  {
    OddKeyFormedAgain();
    WrittenCleanAscii(OddKeyInput, OddKey + "x");
  }

  lemma WrittenCleanTwice()
    ensures CleanedText(WrittenTable, OddKey + "x") == "'x"
  {
    OddKeyReplacedAgain();
    WrittenCleanAscii(OddKey + "x", "'x");
  }

  // ------------------------------------------------------------------ methods

  /** The substitution loop shared by both scripts' `clean_text`. */
  method Substitute(t: seq<Entry>, text: string) returns (r: string)
    ensures r == ApplyTable(t, text)
  {
    r := text;
    for i := 0 to |t|
      invariant r == ApplyTable(t[..i], text)
    {
      ApplyTableAppend(t[..i], [t[i]], text);
      assert t[..i + 1] == t[..i] + [t[i]];
      r := ReplaceAll(r, t[i].key, t[i].value);
    }
    assert t[..|t|] == t;
  }

  /**
   * `clean_text` of improved_docliberator_5.py, with its table as written:
   * substitution, blank-line collapsing, space collapsing, trimming.
   */
  method CleanText(text: string) returns (r: string)
    ensures r == CleanedText(WrittenTable, text)
    ensures r == [] || (!IsSpace(r[0]) && !IsSpace(r[|r| - 1]))
    ensures NoDoubleSpace(r) && FewBreaks(r, 0)
    ensures NonSpace(r) == NonSpace(ApplyTable(WrittenTable, text))
    ensures forall c :: IsSingleKey(WrittenTable, c) && c != '"' ==> c !in r
  {
    var t := Substitute(WrittenTable, text);
    t := CollapseBlankLines(t);
    t := CollapseSpaces(t);
    r := Strip(t);
    assert r == CleanedText(WrittenTable, text);
    CleanedTextShape(WrittenTable, text);
    CleanedTextFewBreaks(WrittenTable, text);
    forall c | IsSingleKey(WrittenTable, c) && c != '"' ensures c !in r {
      WrittenCleanedTextDropsKeys(text, c);
    }
  }
}

=== FILE: scanners.dfy ===
/**
 * The candidate scanners of `auto_link` (improved_docliberator_5.py:74-104),
 * one hand-written matcher per pattern.  Each tries, at one position, what
 * the pattern's greedy quantifiers try, longest first, and gives back a
 * character at a time just as a backtracking matcher does; `FindFrom` is
 * `re.finditer`, resuming after each match.  Character classes are the ASCII
 * ones (see `Text`).
 */
module Scanners {
  import opened Text
  import opened LinkOrder
  import opened LinkSelect

  // --------------------------------------------------------------- classes

  /** `[a-zA-Z0-9._%+-]`, the local part of an address */
  predicate IsLocalChar(c: char) {
    IsAlnum(c) || c == '.' || c == '_' || c == '%' || c == '+' || c == '-'
  }

  /** `[a-zA-Z0-9.-]`, a host name */
  predicate IsHostChar(c: char) {
    IsAlnum(c) || c == '.' || c == '-'
  }

  /** `[^\s<>"\']`, a path or URL character */
  predicate IsPathChar(c: char) {
    !IsSpace(c) && c != '<' && c != '>' && c != '"' && c != '\''
  }

  /** The end of the longest run of `p`-characters from `i`. */
  function RunEnd(s: string, i: nat, p: char -> bool): (j: nat)
    requires i <= |s|
    ensures i <= j <= |s|
    ensures forall k :: i <= k < j ==> p(s[k])
    ensures j == |s| || !p(s[j])
    decreases |s| - i
  {
    if i == |s| || !p(s[i]) then i else RunEnd(s, i + 1, p)
  }

  /** A run that stops at `j` ends at `j`. */
  lemma {:induction false} RunEndIs(s: string, i: nat, j: nat, p: char -> bool)
    requires i <= j <= |s| && forall k :: i <= k < j ==> p(s[k])
    requires j == |s| || !p(s[j])
    ensures RunEnd(s, i, p) == j
    decreases j - i
  {
    if i < j {
      RunEndIs(s, i + 1, j, p);
    }
  }

  // ----------------------------------------------------------------- email

  /** `\b([a-zA-Z0-9._%+-]+@[a-zA-Z0-9.-]+\.[a-zA-Z]{2,})\b` at `i`. */
  function EmailAt(s: string, i: nat): (r: Option<nat>)
    requires i <= |s|
    ensures r.Some? ==> i < r.value <= |s| && '@' in s[i..r.value] && WordBoundary(s, r.value)
    ensures r.Some? ==> WordBoundary(s, i) && var n := RunEnd(s, i, IsLocalChar); n < |s| && s[n] == '@'
  {
    if WordBoundary(s, i) then LocalPart(s, i, RunEnd(s, i, IsLocalChar)) else None
  }

  /**
   * The local part is `s[i..n]`; shorter ones are tried when what follows
   * fails, though a shorter one is followed by a local character, not `@`.
   */
  function LocalPart(s: string, i: nat, n: nat): (r: Option<nat>)
    requires i <= n <= |s| && forall k :: i <= k < n ==> IsLocalChar(s[k])
    ensures r.Some? ==> i < r.value <= |s| && '@' in s[i..r.value] && WordBoundary(s, r.value)
    ensures r.Some? ==> n < |s| && s[n] == '@'
    decreases n
  {
    if n == i then None
    else
      var at := if n < |s| && s[n] == '@' then HostPart(s, n + 1, RunEnd(s, n + 1, IsHostChar)) else None;
      if at.Some? then
        assert s[i..at.value][n - i] == '@';
        at
      else
        assert s[n - 1] != '@' by { assert IsLocalChar(s[n - 1]); }
        LocalPart(s, i, n - 1)
  }

  /** After the `@`: the host is `s[d..k]`, then `.` and the top-level letters. */
  function HostPart(s: string, d: nat, k: nat): (r: Option<nat>)
    requires d <= k <= |s|
    ensures r.Some? ==> d + 4 <= r.value <= |s| && WordBoundary(s, r.value)
    decreases k
  {
    if k == d then None
    else
      var tld := if k < |s| && s[k] == '.' then TopLevel(s, k + 1, RunEnd(s, k + 1, IsLetter)) else None;
      if tld.Some? then tld else HostPart(s, d, k - 1)
  }

  /** `[a-zA-Z]{2,}\b`: the letters `s[a..t]`, shortened until a word boundary follows. */
  function TopLevel(s: string, a: nat, t: nat): (r: Option<nat>)
    requires a <= t <= |s|
    ensures r.Some? ==> a + 2 <= r.value <= t && WordBoundary(s, r.value)
    decreases t
  {
    if t < a + 2 then None
    else if WordBoundary(s, t) then Some(t)
    else TopLevel(s, a, t - 1)
  }

  // ------------------------------------------------------------------- url

  /** `\b(https?://[^\s<>"\']+)` at `i`: the longest run of URL characters. */
  function UrlAt(s: string, i: nat): (r: Option<nat>)
    requires i <= |s|
    ensures r.Some? ==> i < r.value <= |s| && OccursAt(s, "http", i)
    ensures r.Some? ==> r.value == |s| || !IsPathChar(s[r.value])
  {
    if !WordBoundary(s, i) || !OccursAt(s, "http", i) then None
    else
      var p :=
        if OccursAt(s, "s://", i + 4) then i + 8
        else if OccursAt(s, "://", i + 4) then i + 7
        else i;
      if p == i then None
      else
        var e := RunEnd(s, p, IsPathChar);
        if e == p then None else Some(e)
  }

  // ------------------------------------------------------------------- www

  /** `(?:/[^\s<>"\']*)?` from `t`: a slash and the longest path after it, if there is a slash. */
  function OptPath(s: string, t: nat): (e: nat)
    requires t <= |s|
    ensures t <= e <= |s|
  {
    if t < |s| && s[t] == '/' then RunEnd(s, t + 1, IsPathChar) else t
  }

  /** `\b(www\.[a-zA-Z0-9][a-zA-Z0-9.-]*\.[a-zA-Z]{2,}(?:/[^\s<>"\']*)?)` at `i`. */
  function WwwAt(s: string, i: nat): (r: Option<nat>)
    requires i <= |s|
    ensures r.Some? ==> i + 8 <= r.value <= |s| && OccursAt(s, "www.", i)
  {
    if WordBoundary(s, i) && OccursAt(s, "www.", i) && i + 4 < |s| && IsAlnum(s[i + 4]) then
      WwwHost(s, i + 5, RunEnd(s, i + 5, IsHostChar))
    else None
  }

  /**
   * The rest of the host is `s[b..k]`, then `.` and at least two letters.
   * Nothing after the letters can fail, so the longest letter run is taken.
   */
  function WwwHost(s: string, b: nat, k: nat): (r: Option<nat>)
    requires b <= k <= |s|
    ensures r.Some? ==> b + 3 <= r.value <= |s|
    decreases k
  {
    var letters := if k < |s| && s[k] == '.' then RunEnd(s, k + 1, IsLetter) else k;
    if k < |s| && s[k] == '.' && k + 3 <= letters then Some(OptPath(s, letters))
    else if k == b then None
    else WwwHost(s, b, k - 1)
  }

  // ---------------------------------------------------------------- domain

  /** `(?:gov\.uk|org\.uk|co\.uk|ac\.uk)` at `a`; the alternatives start with different letters. */
  function UkSuffix(s: string, a: nat): (r: Option<nat>)
    requires a <= |s|
    ensures r.Some? ==> a + 5 <= r.value <= |s| && OccursAt(s, ".uk", r.value - 3)
    ensures r.Some? ==> forall k :: a <= k < r.value ==> IsHostChar(s[k])
  {
    if OccursAt(s, "gov.uk", a) then
      assert s[a + 3..a + 6] == s[a..a + 6][3..6];
      Some(a + 6)
    else if OccursAt(s, "org.uk", a) then
      assert s[a + 3..a + 6] == s[a..a + 6][3..6];
      Some(a + 6)
    else if OccursAt(s, "co.uk", a) then
      assert s[a + 2..a + 5] == s[a..a + 5][2..5];
      Some(a + 5)
    else if OccursAt(s, "ac.uk", a) then
      assert s[a + 2..a + 5] == s[a..a + 5][2..5];
      Some(a + 5)
    else None
  }

  /** `\b([a-zA-Z0-9][a-zA-Z0-9.-]*\.(?:gov\.uk|…)(?:/[^\s<>"\']*)?)\b` at `i`. */
  function DomainAt(s: string, i: nat): (r: Option<nat>)
    requires i <= |s|
    ensures r.Some? ==> i + 7 <= r.value <= |s| && WordBoundary(s, r.value)
    ensures r.Some? ==> '.' in s[i..r.value]
    ensures r.Some? ==> WordBoundary(s, i) && IsAlnum(s[i]) && UkHostAhead(s, i, r.value)
  {
    if WordBoundary(s, i) && i < |s| && IsAlnum(s[i]) then
      UkHost(s, i + 1, RunEnd(s, i + 1, IsHostChar))
    else None
  }

  /** The rest of the host is `s[b..k]`, then `.`, a UK suffix, an optional path and `\b`. */
  function UkHost(s: string, b: nat, k: nat): (r: Option<nat>)
    requires b <= k <= |s| && forall j :: b <= j < k ==> IsHostChar(s[j])
    ensures r.Some? ==> b + 6 <= r.value <= |s| && WordBoundary(s, r.value)
    ensures r.Some? ==> '.' in s[b..r.value]
    ensures r.Some? ==> UkHostAhead(s, b, r.value)
    decreases k
  {
    var u := if k < |s| && s[k] == '.' then UkSuffix(s, k + 1) else None;
    var e := if u.Some? then UkEnd(s, u.value) else None;
    if e.Some? then
      assert s[b..e.value][k - b] == '.';
      e
    else if k == b then None
    else UkHost(s, b, k - 1)
  }

  /** Host characters from `b` up to a `.uk` that ends by `e`. */
  predicate UkHostAhead(s: string, b: nat, e: nat)
    requires e <= |s|
  {
    exists m :: b <= m && m + 3 <= e && OccursAt(s, ".uk", m) && forall j :: b <= j < m + 3 ==> IsHostChar(s[j])
  }

  /** The optional path after the suffix at `u`, shortened until a word boundary follows; then none. */
  function UkEnd(s: string, u: nat): (r: Option<nat>)
    requires u <= |s|
    ensures r.Some? ==> u <= r.value <= |s| && WordBoundary(s, r.value)
  {
    var withPath := if u < |s| && s[u] == '/' then PathBack(s, u + 1, RunEnd(s, u + 1, IsPathChar)) else None;
    if withPath.Some? then withPath
    else if WordBoundary(s, u) then Some(u)
    else None
  }

  /** The path is `s[a..p]`, shortened until a word boundary follows it. */
  function PathBack(s: string, a: nat, p: nat): (r: Option<nat>)
    requires a <= p <= |s|
    ensures r.Some? ==> a <= r.value <= p && WordBoundary(s, r.value)
    decreases p
  {
    if WordBoundary(s, p) then Some(p)
    else if p == a then None
    else PathBack(s, a, p - 1)
  }

  // ----------------------------------------------------------------- phone

  /** Digits and whitespace only. */
  predicate PhoneChars(s: string, i: nat, e: nat)
    requires i <= e <= |s|
  {
    forall k :: i <= k < e ==> IsDigit(s[k]) || IsSpace(s[k])
  }

  /** `\d{lo,hi}\b` from `c`: at most `hi` digits, fewer while no word boundary follows. */
  function DigitsThenBoundary(s: string, c: nat, lo: nat, hi: nat): (r: Option<nat>)
    requires c <= |s|
    ensures r.Some? ==> c + lo <= r.value <= |s| && r.value <= c + hi
    ensures r.Some? ==> WordBoundary(s, r.value) && PhoneChars(s, c, r.value)
  {
    var run := RunEnd(s, c, IsDigit);
    TryDigits(s, c, lo, if run - c < hi then run - c else hi)
  }

  function TryDigits(s: string, c: nat, lo: nat, n: nat): (r: Option<nat>)
    requires c + n <= |s| && forall k :: c <= k < c + n ==> IsDigit(s[k])
    ensures r.Some? ==> c + lo <= r.value <= c + n && WordBoundary(s, r.value) && PhoneChars(s, c, r.value)
    decreases n
  {
    if n < lo then None
    else if WordBoundary(s, c + n) then Some(c + n)
    else if n == 0 then None
    else TryDigits(s, c, lo, n - 1)
  }

  /** `\s?` then `\d{3}` then `\s?\d{3,4}\b` from `a`: the space is taken when the rest then matches. */
  function SpaceThreeDigitsTail(s: string, a: nat): (r: Option<nat>)
    requires a <= |s|
    ensures r.Some? ==> a + 6 <= r.value <= |s| && WordBoundary(s, r.value) && PhoneChars(s, a, r.value)
  {
    var spaced := if a < |s| && IsSpace(s[a]) then ThreeDigitsTail(s, a + 1) else None;
    if spaced.Some? then spaced else ThreeDigitsTail(s, a)
  }

  /** `\d{3}\s?\d{3,4}\b` from `b`. */
  function ThreeDigitsTail(s: string, b: nat): (r: Option<nat>)
    requires b <= |s|
    ensures r.Some? ==> b + 6 <= r.value <= |s| && WordBoundary(s, r.value) && PhoneChars(s, b, r.value)
  {
    if RunEnd(s, b, IsDigit) < b + 3 then None
    else
      var c := b + 3;
      var spaced := if c < |s| && IsSpace(s[c]) then DigitsThenBoundary(s, c + 1, 3, 4) else None;
      if spaced.Some? then spaced else DigitsThenBoundary(s, c, 3, 4)
  }

  /** `\b(0\d{3}\s?\d{3}\s?\d{3,4})\b` at `i`. */
  function LandlineAt(s: string, i: nat): (r: Option<nat>)
    requires i <= |s|
    ensures r.Some? ==> i + 10 <= r.value <= |s| && s[i] == '0' && WordBoundary(s, r.value)
    ensures r.Some? ==> PhoneChars(s, i, r.value)
  {
    if WordBoundary(s, i) && i < |s| && s[i] == '0' && RunEnd(s, i + 1, IsDigit) >= i + 4 then
      SpaceThreeDigitsTail(s, i + 4)
    else None
  }

  /** `\b(0\d{4}\s?\d{5,6})\b` at `i`. */
  function AreaCodeAt(s: string, i: nat): (r: Option<nat>)
    requires i <= |s|
    ensures r.Some? ==> i + 10 <= r.value <= |s| && s[i] == '0' && WordBoundary(s, r.value)
    ensures r.Some? ==> PhoneChars(s, i, r.value)
  {
    if WordBoundary(s, i) && i < |s| && s[i] == '0' && RunEnd(s, i + 1, IsDigit) >= i + 5 then
      var a := i + 5;
      var spaced := if a < |s| && IsSpace(s[a]) then DigitsThenBoundary(s, a + 1, 5, 6) else None;
      if spaced.Some? then spaced else DigitsThenBoundary(s, a, 5, 6)
    else None
  }

  /**
   * `\b(\+44\s?\d{3}\s?\d{3}\s?\d{3,4})\b` at `i`, as written: `\b` before the
   * `+`, which is not a word character, asks for a word character before it.
   */
  function InternationalAtAsWritten(s: string, i: nat): (r: Option<nat>)
    requires i <= |s|
    ensures r.Some? ==> i > 0 && IsWord(s[i - 1])
    ensures r.Some? ==> i + 12 <= r.value <= |s| && OccursAt(s, "+44", i) && PhoneChars(s, i + 1, r.value)
  {
    if WordBoundary(s, i) && OccursAt(s, "+44", i) then
      assert i > 0 && IsWord(s[i - 1]) by {
        assert s[i] == s[i..i + 3][0];
      }
      AfterPlus(s, i)
    else None
  }

  /** The same number where no word character comes before the `+`. */
  function InternationalAt(s: string, i: nat): (r: Option<nat>)
    requires i <= |s|
    ensures r.Some? ==> i == 0 || !IsWord(s[i - 1])
    ensures r.Some? ==> i + 12 <= r.value <= |s| && OccursAt(s, "+44", i) && PhoneChars(s, i + 1, r.value)
  {
    if (i == 0 || !IsWord(s[i - 1])) && OccursAt(s, "+44", i) then AfterPlus(s, i) else None
  }

  /** The rest of the number once `+44` has matched at `i`; the `44` counts among its digits. */
  function AfterPlus(s: string, i: nat): (r: Option<nat>)
    requires i + 3 <= |s| && OccursAt(s, "+44", i)
    ensures r.Some? ==> i + 12 <= r.value <= |s| && PhoneChars(s, i + 1, r.value)
  {
    var r := InternationalTail(s, i + 3);
    if r.None? then r
    else
      FortyFourDigits(s, i, r.value);
      r
  }

  lemma FortyFourDigits(s: string, i: nat, e: nat)
    requires i + 3 <= e <= |s| && OccursAt(s, "+44", i) && PhoneChars(s, i + 3, e)
    ensures PhoneChars(s, i + 1, e)
  {
    assert s[i + 1] == s[i..i + 3][1] && s[i + 2] == s[i..i + 3][2];
  }

  /** `\s?\d{3}\s?\d{3}\s?\d{3,4}\b` after the `+44`. */
  function InternationalTail(s: string, a: nat): (r: Option<nat>)
    requires a <= |s|
    ensures r.Some? ==> a + 9 <= r.value <= |s| && WordBoundary(s, r.value) && PhoneChars(s, a, r.value)
  {
    var spaced := if a < |s| && IsSpace(s[a]) then ThreeThenRest(s, a + 1) else None;
    if spaced.Some? then spaced else ThreeThenRest(s, a)
  }

  /** `\d{3}` and then `\s?\d{3}\s?\d{3,4}\b`. */
  function ThreeThenRest(s: string, b: nat): (r: Option<nat>)
    requires b <= |s|
    ensures r.Some? ==> b + 9 <= r.value <= |s| && WordBoundary(s, r.value) && PhoneChars(s, b, r.value)
  {
    if RunEnd(s, b, IsDigit) < b + 3 then None else SpaceThreeDigitsTail(s, b + 3)
  }

  // -------------------------------------------------------------- finditer

  datatype Pattern = EmailPattern | UrlPattern | WwwPattern | DomainPattern
    | LandlinePattern | AreaCodePattern | InternationalPattern

  function CategoryOf(p: Pattern): Category {
    match p
    case EmailPattern => Email
    case UrlPattern => Url
    case WwwPattern => Www
    case DomainPattern => Domain
    case _ => Phone
  }

  /** The end of the match of `p` starting at `i`, if there is one. */
  function MatchAt(p: Pattern, s: string, i: nat): (r: Option<nat>)
    requires i <= |s|
    ensures r.Some? ==> i < r.value <= |s|
  {
    match p
    case EmailPattern => EmailAt(s, i)
    case UrlPattern => UrlAt(s, i)
    case WwwPattern => WwwAt(s, i)
    case DomainPattern => DomainAt(s, i)
    case LandlinePattern => LandlineAt(s, i)
    case AreaCodePattern => AreaCodeAt(s, i)
    case InternationalPattern => InternationalAtAsWritten(s, i)
  }

  /** Candidates whose value is the text they span. */
  predicate Faithful(cs: seq<Candidate>, s: string) {
    forall c :: c in cs ==> c.start <= c.end <= |s| && c.value == s[c.start..c.end]
  }

  /** `re.finditer(p, s[i..])`: a match at the first position where there is one, then on from its end. */
  function FindFrom(p: Pattern, s: string, i: nat): (r: seq<Candidate>)
    requires i <= |s|
    ensures Chain(r, i, |s|) && Faithful(r, s)
    ensures forall k :: 0 <= k < |r| ==> r[k].cat == CategoryOf(p) && MatchAt(p, s, r[k].start) == Some(r[k].end)
    decreases |s| - i
  {
    if i == |s| then []
    else match MatchAt(p, s, i)
      case Some(e) =>
        var rest := FindFrom(p, s, e);
        FoundFirst(p, s, i, e, rest);
        [Candidate(i, e, CategoryOf(p), s[i..e])] + rest
      case None => FindFrom(p, s, i + 1)
  }

  /** A match at `i` put in front of the matches from its end. */
  lemma FoundFirst(p: Pattern, s: string, i: nat, e: nat, rest: seq<Candidate>)
    requires i < e <= |s| && MatchAt(p, s, i) == Some(e)
    requires Chain(rest, e, |s|) && Faithful(rest, s)
    requires forall k :: 0 <= k < |rest| ==> rest[k].cat == CategoryOf(p) && MatchAt(p, s, rest[k].start) == Some(rest[k].end)
    ensures var r := [Candidate(i, e, CategoryOf(p), s[i..e])] + rest;
      && Chain(r, i, |s|) && Faithful(r, s)
      && forall k :: 0 <= k < |r| ==> r[k].cat == CategoryOf(p) && MatchAt(p, s, r[k].start) == Some(r[k].end)
  {
    var r := [Candidate(i, e, CategoryOf(p), s[i..e])] + rest;
    assert r[1..] == rest;
    forall k | 0 < k < |r| ensures r[k] == rest[k - 1] {
    }
  }

  function FindAll(p: Pattern, s: string): (r: seq<Candidate>)
    ensures Chain(r, 0, |s|) && Faithful(r, s)
    ensures forall c :: c in r ==> MatchedBy(p, s, c)
  {
    FindFrom(p, s, 0)
  }

  /**
   * `finditer` skips no match: every position where `p` matches starts one
   * of the reported matches or lies inside one.
   */
  lemma FindAllComplete(p: Pattern, s: string, q: nat)
    requires q < |s| && MatchAt(p, s, q).Some?
    ensures exists c :: c in FindAll(p, s) && c.start <= q < c.end
  {
    var c := FindFromCovers(p, s, 0, q);
  }

  /** The reported match that spans `q`, scanning from `i`. */
  lemma {:induction false} FindFromCovers(p: Pattern, s: string, i: nat, q: nat) returns (c: Candidate)
    requires i <= q < |s| && MatchAt(p, s, q).Some?
    ensures c in FindFrom(p, s, i) && c.start <= q < c.end
    decreases |s| - i, 1
  {
    if MatchAt(p, s, i).Some? {
      c := CoversFromMatch(p, s, i, q);
    } else {
      assert i != q;
      FindFromMissed(p, s, i);
      c := CoversFromMiss(p, s, i, q);
    }
  }

  /** Nothing is found at `i`, which is before `q`: the scan moves on by one. */
  lemma {:induction false} CoversFromMiss(p: Pattern, s: string, i: nat, q: nat) returns (c: Candidate)
    requires i < q < |s| && MatchAt(p, s, q).Some? && FindFrom(p, s, i) == FindFrom(p, s, i + 1)
    ensures c in FindFrom(p, s, i) && c.start <= q < c.end
    decreases |s| - i, 0
  {
    c := FindFromCovers(p, s, i + 1, q);
  }

  /** A match at `i` spans `q`, or the scan resumes at its end, not past `q`. */
  lemma {:induction false} CoversFromMatch(p: Pattern, s: string, i: nat, q: nat) returns (c: Candidate)
    requires i <= q < |s| && MatchAt(p, s, q).Some? && MatchAt(p, s, i).Some?
    ensures c in FindFrom(p, s, i) && c.start <= q < c.end
    decreases |s| - i, 0
  {
    var e := MatchAt(p, s, i).value;
    var first := Candidate(i, e, CategoryOf(p), s[i..e]);
    FindFromFound(p, s, i);
    if e <= q {
      c := FindFromCovers(p, s, e, q);
      assert c in [first] + FindFrom(p, s, e);
    } else {
      c := first;
    }
  }

  lemma FindFromMissed(p: Pattern, s: string, i: nat)
    requires i < |s| && MatchAt(p, s, i).None?
    ensures FindFrom(p, s, i) == FindFrom(p, s, i + 1)
  {
  }

  /** Positions where `p` does not match are skipped. */
  lemma FindFromNone(p: Pattern, s: string, i: nat, j: nat)
    requires i <= j <= |s| && forall k :: i <= k < j ==> MatchAt(p, s, k).None?
    ensures FindFrom(p, s, i) == FindFrom(p, s, j)
  {
    forall k | i <= k < j ensures FindFrom(p, s, k) == FindFrom(p, s, k + 1) {
      FindFromMissed(p, s, k);
    }
    SameAlong(p, s, i, j);
  }

  /** Equal from each position to the next, so equal from `i` to `j`. */
  lemma {:induction false} SameAlong(p: Pattern, s: string, i: nat, j: nat)
    requires i <= j <= |s| && forall k :: i <= k < j ==> FindFrom(p, s, k) == FindFrom(p, s, k + 1)
    ensures FindFrom(p, s, i) == FindFrom(p, s, j)
    decreases j - i
  {
    if i < j {
      SameAlong(p, s, i + 1, j);
    }
  }

  lemma FindFromFound(p: Pattern, s: string, i: nat)
    requires i <= |s| && MatchAt(p, s, i).Some?
    ensures var e := MatchAt(p, s, i).value;
      FindFrom(p, s, i) == [Candidate(i, e, CategoryOf(p), s[i..e])] + FindFrom(p, s, e)
  {
  }

  /** `c` is a match of `p` in `s`, of the category `p` reports. */
  predicate MatchedBy(p: Pattern, s: string, c: Candidate) {
    c.start <= |s| && c.cat == CategoryOf(p) && MatchAt(p, s, c.start) == Some(c.end)
  }

  // ------------------------------------------------------------ domain guard

  /**
   * A domain match at `start` is kept unless the last whitespace-separated
   * token of the 50 characters before it holds an `@`.
   */
  predicate DomainKept(s: string, start: nat)
    requires start <= |s|
  {
    var ctx := s[if start < 50 then 0 else start - 50..start];
    var tokens := Split(ctx);
    tokens == [] || '@' !in tokens[|tokens| - 1]
  }

  /** The same test read backwards from the match: skip whitespace, then look through the word before it. */
  lemma DomainKeptBackwards(s: string, start: nat)
    requires start <= |s|
    ensures var ctx := s[if start < 50 then 0 else start - 50..start];
      var e := SkipSpaceBack(ctx, 0, |ctx|);
      DomainKept(s, start) <==> '@' !in ctx[WordStartBack(ctx, 0, e)..e]
  {
    var ctx := s[if start < 50 then 0 else start - 50..start];
    SplitFromLast(ctx, 0);
  }

  /** A domain straight after an `@` (the host of an address) is dropped. */
  lemma DomainAfterAtDropped(s: string, start: nat)
    requires 0 < start <= |s| && s[start - 1] == '@'
    ensures !DomainKept(s, start)
  {
    var ctx := s[if start < 50 then 0 else start - 50..start];
    assert ctx[|ctx| - 1] == '@';
    SplitLastEndsWith(ctx, 0);
  }

  /** An `@` in the word before a single trailing space lies in the last token. */
  lemma AtInLastWord(t: string, at: nat)
    requires at + 1 < |t| && t[at] == '@' && IsSpace(t[|t| - 1])
    requires forall k :: at < k < |t| - 1 ==> !IsSpace(t[k])
    ensures var e := SkipSpaceBack(t, 0, |t|); '@' in t[WordStartBack(t, 0, e)..e]
  {
    LastWordBounds(t, at);
    var e := SkipSpaceBack(t, 0, |t|);
    AtInSlice(t, WordStartBack(t, 0, e), e, at);
  }

  /** Where the last word of such a `t` lies: it ends before the final space and starts at or before the `@`. */
  lemma LastWordBounds(t: string, at: nat)
    requires at + 1 < |t| && t[at] == '@' && IsSpace(t[|t| - 1])
    requires forall k :: at < k < |t| - 1 ==> !IsSpace(t[k])
    ensures SkipSpaceBack(t, 0, |t|) == |t| - 1 && WordStartBack(t, 0, |t| - 1) <= at
  {
    var e := |t| - 1;
    NonSpaceFrom(t, at, e);
    SkipSpaceBackIs(t, 0, |t|, e);
    WordStartBackBefore(t, 0, e, at);
  }

  lemma AtInSlice(t: string, w: nat, e: nat, at: nat)
    requires w <= at < e <= |t| && t[at] == '@'
    ensures '@' in t[w..e]
  {
    assert t[w..e][at - w] == '@';
  }

  /** An `@` followed by a run of non-whitespace is the start of a non-whitespace run. */
  lemma NonSpaceFrom(t: string, at: nat, e: nat)
    requires at < e <= |t| && t[at] == '@'
    requires forall k :: at < k < e ==> !IsSpace(t[k])
    ensures forall k :: at <= k < e ==> !IsSpace(t[k])
  {
  }

  /**
   * The whitespace is skipped too: a domain whose previous word holds an
   * `@` is dropped even when a space separates them.
   */
  lemma DomainAfterAddressWordDropped(s: string, start: nat, at: nat)
    requires at + 1 < start <= |s| && start <= at + 50 && s[at] == '@'
    requires forall k :: at < k < start - 1 ==> !IsSpace(s[k])
    requires IsSpace(s[start - 1])
    ensures !DomainKept(s, start)
  {
    var lo := if start < 50 then 0 else start - 50;
    var ctx := s[lo..start];
    forall k | at - lo < k < |ctx| - 1 ensures !IsSpace(ctx[k]) {
      assert ctx[k] == s[lo + k];
    }
    AtInLastWord(ctx, at - lo);
    DomainKeptBackwards(s, start);
  }

  /** At the very start of the text there is nothing before, so the domain is kept. */
  lemma DomainAtStartKept(s: string)
    ensures DomainKept(s, 0)
  {
  }

  /** `r` is `ds` with some elements left out, the rest in their order. */
  predicate IsSubsequence<T(==)>(r: seq<T>, ds: seq<T>)
    decreases |ds|
  {
    if r == [] then true
    else if ds == [] then false
    else
      || (r[|r| - 1] == ds[|ds| - 1] && IsSubsequence(r[..|r| - 1], ds[..|ds| - 1]))
      || IsSubsequence(r, ds[..|ds| - 1])
  }

  /**
   * The domain matches that survive the guard, in order: exactly those of
   * `ds` that pass it.
   */
  function GuardDomains(s: string, ds: seq<Candidate>): (r: seq<Candidate>)
    requires forall c :: c in ds ==> c.start <= |s|
    ensures |r| <= |ds| && forall c :: c in r ==> c in ds && DomainKept(s, c.start)
    ensures forall c :: c in ds && DomainKept(s, c.start) ==> c in r
    ensures IsSubsequence(r, ds)
  {
    if ds == [] then []
    else
      var init := GuardDomains(s, ds[..|ds| - 1]);
      var last := ds[|ds| - 1];
      assert forall c :: c in ds ==> c in ds[..|ds| - 1] || c == last;
      if DomainKept(s, last.start) then
        assert (init + [last])[..|init|] == init;
        init + [last]
      else init
  }

  // ------------------------------------------------------------- the finding

  /** As written, an international number after a space or at the start is never matched. */
  lemma InternationalAfterSpaceMissed(s: string, i: nat)
    requires i <= |s| && (i == 0 || IsSpace(s[i - 1]))
    ensures InternationalAtAsWritten(s, i).None?
  {
    if OccursAt(s, "+44", i) {
      assert !WordBoundary(s, i) by {
        assert s[i] == s[i..i + 3][0];
      }
    }
  }

  /** The number `+44 123 456 7890` on its own. */
  lemma InternationalExample()
    ensures InternationalAtAsWritten(Plus44Example, 0).None?
    ensures InternationalAt(Plus44Example, 0) == Some(16)
  {
    var s := Plus44Example;
    InternationalAfterSpaceMissed(s, 0);
    assert OccursAt(s, "+44", 0) by { assert s[0..3] == "+44"; }
    ExampleTail();
  }

  const Plus44Example := "+44 123 456 7890"

  lemma ExampleTail()
    ensures InternationalTail(Plus44Example, 3) == Some(16)
  {
    ExampleRest();
    assert IsSpace(Plus44Example[3]);
  }

  lemma ExampleRest()
    ensures ThreeThenRest(Plus44Example, 4) == Some(16)
  {
    var s := Plus44Example;
    ExampleLastGroups();
    assert RunEnd(s, 4, IsDigit) == 7;
    assert IsSpace(s[7]);
  }

  lemma ExampleLastGroups()
    ensures ThreeDigitsTail(Plus44Example, 8) == Some(16)
  {
    var s := Plus44Example;
    assert RunEnd(s, 8, IsDigit) == 11;
    assert IsSpace(s[11]);
    assert DigitsThenBoundary(s, 12, 3, 4) == Some(16) by {
      assert RunEnd(s, 12, IsDigit) == 16;
      assert TryDigits(s, 12, 3, 4) == Some(16);
    }
  }
}

=== FILE: segment.dfy ===
/**
 * `prepare_marked_text` of improved_docliberator_5.py: the title is removed,
 * then the text is cut into `[[SECTION:h2:heading]]` marker blocks at its
 * numbered headings.
 *
 * Two patterns decide where the cuts go.  The probe
 * `(\d{1,2}\.\s+.+?)(?=\n|$)` finds the first numbered item anywhere; the
 * heading pattern `(?m)^([1-9][0-9]?\.\s+.+)` then finds the headings, from
 * the probe's position on, that start a line (or start at that position).
 * Positions here are absolute indices into the text after title removal;
 * `lo`, the probe's position, counts as a line start.
 */
module Segment {
  import opened Text
  import Title

  // ------------------------------------------------------------ the patterns

  /** One past the end of the line holding position `i`: the next `\n`, or the end. */
  function LineEnd(s: string, i: nat): (e: nat)
    requires i <= |s|
    ensures i <= e <= |s|
    ensures forall k :: i <= k < e ==> s[k] != '\n'
    ensures e == |s| || s[e] == '\n'
    decreases |s| - i
  {
    if i == |s| || s[i] == '\n' then i else LineEnd(s, i + 1)
  }

  /** The last index strictly between `r` and `j` whose character is not `\n`. */
  function LastNonNewline(s: string, r: nat, j: nat): (q: Option<nat>)
    requires r <= j <= |s|
    ensures q.Some? ==> (r < q.value < j && s[q.value] != '\n'
      && forall m :: q.value < m < j ==> s[m] == '\n')
    ensures q.None? ==> forall m :: r < m < j ==> s[m] == '\n'
    decreases j - r
  {
    if j <= r + 1 then None
    else if s[j - 1] != '\n' then Some(j - 1)
    else LastNonNewline(s, r, j - 1)
  }

  /**
   * `\s+` followed by `.` can match from `r`: the greedy run of whitespace
   * is non-empty and either stops before a character (never `\n`, which is
   * whitespace) or, reaching the end, can give back one that is not `\n`.
   */
  predicate SpacedTextAt(s: string, r: nat)
    requires r <= |s|
  {
    var e := SkipSpace(s, r);
    e > r && (e < |s| || LastNonNewline(s, r, e).Some?)
  }

  /** `\.\s+.+` (and `\.\s+.+?(?=\n|$)`) can match from `d`. */
  predicate ItemTailAt(s: string, d: nat) {
    d < |s| && s[d] == '.' && SpacedTextAt(s, d + 1)
  }

  /** Where the digits of an item starting at `p` end: one digit, or two. */
  function DigitsEnd(s: string, p: nat): (d: nat)
    requires p < |s|
    ensures p < d <= |s| && d <= p + 2
  {
    if p + 1 < |s| && IsDigit(s[p + 1]) then p + 2 else p + 1
  }

  /**
   * The probe can match at `p`.  `\d{1,2}` gives up its second digit on
   * backtracking, but a second digit is never a `.`, so only the greedy
   * choice can succeed.
   */
  predicate ProbeAt(s: string, p: nat) {
    p < |s| && IsDigit(s[p]) && ItemTailAt(s, DigitsEnd(s, p))
  }

  /** `re.search` with the probe, from `i`: the leftmost position where it matches. */
  function ProbeFrom(s: string, i: nat): (r: Option<nat>)
    requires i <= |s|
    ensures r.Some? ==> (i <= r.value < |s| && ProbeAt(s, r.value)
      && forall j :: i <= j < r.value ==> !ProbeAt(s, j))
    ensures r.None? ==> forall j :: i <= j < |s| ==> !ProbeAt(s, j)
    decreases |s| - i
  {
    if i == |s| then None else if ProbeAt(s, i) then Some(i) else ProbeFrom(s, i + 1)
  }

  /** `^` under `re.MULTILINE`, in the text searched from `lo`. */
  predicate AtLineStart(s: string, lo: nat, p: nat) {
    p == lo || (0 < p <= |s| && s[p - 1] == '\n')
  }

  /** `s[a..e]` starts with `[1-9][0-9]?\.`. */
  predicate NumberedAt(s: string, a: nat, e: nat) {
    && a < e <= |s| && '1' <= s[a] <= '9'
    && DigitsEnd(s, a) < e && s[DigitsEnd(s, a)] == '.'
  }

  /**
   * The end of the heading `^([1-9][0-9]?\.\s+.+)` matches at `p`, if it
   * does.  After the greedy whitespace, `.+` runs to the end of the line; at
   * the very end of the text the whitespace gives back its last non-`\n`
   * character, which `.+` then takes.
   */
  function HeadingEnd(s: string, lo: nat, p: nat): (r: Option<nat>)
    requires lo <= p
    ensures r.Some? ==> NumberedAt(s, p, r.value) && ItemTailAt(s, DigitsEnd(s, p))
    ensures r.None? ==> !(p < |s| && AtLineStart(s, lo, p) && '1' <= s[p] <= '9' && ItemTailAt(s, DigitsEnd(s, p)))
  {
    if p < |s| && AtLineStart(s, lo, p) && '1' <= s[p] <= '9' && ItemTailAt(s, DigitsEnd(s, p)) then
      var d := DigitsEnd(s, p);
      var e := SkipSpace(s, d + 1);
      if e < |s| then Some(LineEnd(s, e)) else Some(LastNonNewline(s, d + 1, e).value + 1)
    else None
  }

  /** A half-open span `[start, end)` of the text. */
  datatype Span = Span(start: nat, end: nat)

  /** Non-empty spans inside `s`, in order, none overlapping the next. */
  predicate ValidSpans(s: string, ms: seq<Span>) {
    && (forall k :: 0 <= k < |ms| ==> ms[k].start < ms[k].end <= |s|)
    && (forall j, k :: 0 <= j < k < |ms| ==> ms[j].end <= ms[k].start)
  }

  /** `finditer` with the heading pattern from `i`: after a match, scanning resumes at its end. */
  function HeadingMatches(s: string, lo: nat, i: nat): (ms: seq<Span>)
    requires lo <= i <= |s|
    ensures ValidSpans(s, ms)
    ensures forall k :: 0 <= k < |ms| ==> i <= ms[k].start && NumberedAt(s, ms[k].start, ms[k].end)
    decreases |s| - i
  {
    if i == |s| then []
    else match HeadingEnd(s, lo, i)
      case Some(e) => [Span(i, e)] + HeadingMatches(s, lo, e)
      case None => HeadingMatches(s, lo, i + 1)
  }

  /** Position `p` lies in one of the spans. */
  predicate Covered(ms: seq<Span>, p: nat) {
    exists k :: 0 <= k < |ms| && ms[k].start <= p < ms[k].end
  }

  lemma CoveredCons(m: Span, ms: seq<Span>, p: nat)
    requires Covered(ms, p) || m.start <= p < m.end
    ensures Covered([m] + ms, p)
  {
    if m.start <= p < m.end {
      assert ([m] + ms)[0] == m;
    } else {
      var k :| 0 <= k < |ms| && ms[k].start <= p < ms[k].end;
      assert ([m] + ms)[k + 1] == ms[k];
    }
  }

  /**
   * The scan misses no heading: every position where the heading pattern
   * matches either starts a found match or lies inside one.
   */
  lemma {:induction false} HeadingMatchesComplete(s: string, lo: nat, i: nat, p: nat)
    requires lo <= i <= p < |s| && HeadingEnd(s, lo, p).Some?
    ensures Covered(HeadingMatches(s, lo, i), p)
    decreases |s| - i
  {
    match HeadingEnd(s, lo, i)
    case Some(e) =>
      if e <= p {
        HeadingMatchesComplete(s, lo, e, p);
      }
      CoveredCons(Span(i, e), HeadingMatches(s, lo, e), p);
    case None =>
      HeadingMatchesComplete(s, lo, i + 1, p);
  }

  /** Where the first span starts, or the end of the text when there is none. */
  function FirstSpanStart(s: string, ms: seq<Span>): nat {
    if ms == [] then |s| else ms[0].start
  }

  /** The first position at or after `i` where the heading pattern matches, or the end of the text. */
  function NextHeading(s: string, lo: nat, i: nat): (p: nat)
    requires lo <= i <= |s|
    ensures i <= p <= |s|
    ensures forall q :: i <= q < p ==> HeadingEnd(s, lo, q).None?
    ensures p < |s| ==> HeadingEnd(s, lo, p).Some?
    decreases |s| - i
  {
    if i == |s| || HeadingEnd(s, lo, i).Some? then i
    else
      var p := NextHeading(s, lo, i + 1);
      NoHeadingFrom(s, lo, i, p);
      p
  }

  lemma NoHeadingFrom(s: string, lo: nat, i: nat, p: nat)
    requires lo <= i < p && HeadingEnd(s, lo, i).None?
    requires forall q :: i + 1 <= q < p ==> HeadingEnd(s, lo, q).None?
    ensures forall q :: i <= q < p ==> HeadingEnd(s, lo, q).None?
  {
  }

  /** The first match `finditer` yields is at the first position where the heading pattern matches. */
  lemma {:induction false} HeadingMatchesFirst(s: string, lo: nat, i: nat)
    requires lo <= i <= |s|
    ensures FirstSpanStart(s, HeadingMatches(s, lo, i)) == NextHeading(s, lo, i)
    decreases |s| - i
  {
    if i == |s| {
      assert HeadingMatches(s, lo, i) == [];
    } else if HeadingEnd(s, lo, i).Some? {
      assert HeadingMatches(s, lo, i)[0].start == i;
    } else {
      assert HeadingMatches(s, lo, i) == HeadingMatches(s, lo, i + 1);
      HeadingMatchesFirst(s, lo, i + 1);
    }
  }

  // --------------------------------------------------------------- the blocks

  /** One marker block: the heading in the marker and the body after it. */
  datatype Block = Block(heading: string, body: string)

  const IntroductionHeading := "Introduction"
  const DocumentContentHeading := "Document Content"

  /** Where the body of match `k` stops: at the next match, or at the end. */
  function NextStart(s: string, ms: seq<Span>, k: nat): (n: nat)
    requires ValidSpans(s, ms) && k < |ms|
    ensures ms[k].end <= n <= |s|
  {
    if k + 1 < |ms| then ms[k + 1].start else |s|
  }

  /** The heading is the stripped match; the body the stripped text up to the next match. */
  function SectionBlock(s: string, ms: seq<Span>, k: nat): Block
    requires ValidSpans(s, ms) && k < |ms|
  {
    Block(Strip(s[ms[k].start..ms[k].end]), Strip(s[ms[k].end..NextStart(s, ms, k)]))
  }

  function SectionBlocks(s: string, ms: seq<Span>): (bs: seq<Block>)
    requires ValidSpans(s, ms)
    ensures |bs| == |ms|
  {
    seq(|ms|, k requires 0 <= k < |ms| => SectionBlock(s, ms, k))
  }

  /** The Introduction block, present only when the preamble is not blank. */
  function IntroBlocks(preamble: string): seq<Block> {
    if Strip(preamble) != [] then [Block(IntroductionHeading, Strip(preamble))] else []
  }

  /** `text.replace(title, "").strip()` when a (non-empty) title was found. */
  function AfterTitle(text: string, title: Option<string>): string {
    if title.Some? && title.value != [] then Strip(ReplaceAll(text, title.value, "")) else text
  }

  /**
   * The blocks as the code builds them: with no probe match, one Document
   * Content block; otherwise the preamble before the probe's position, then
   * one block per heading found from that position on.
   */
  function MarkedBlocksAsWritten(t: string): seq<Block> {
    match ProbeFrom(t, 0)
    case None => [Block(DocumentContentHeading, Strip(t))]
    case Some(p) =>
      IntroBlocks(t[..p]) + SectionBlocks(t, HeadingMatches(t, p, p))
  }

  /** Where the first heading found from `p` starts (the end when there is none). */
  function FirstHeadingStart(t: string, p: nat): (f: nat)
    requires p <= |t|
    ensures p <= f <= |t|
  {
    var ms := HeadingMatches(t, p, p);
    if ms == [] then |t| else ms[0].start
  }

  /**
   * The blocks with the preamble running up to the first heading found, so
   * that a probe match the heading pattern rejects keeps its text.
   */
  function MarkedBlocks(t: string): seq<Block> {
    match ProbeFrom(t, 0)
    case None => [Block(DocumentContentHeading, Strip(t))]
    case Some(p) =>
      IntroBlocks(t[..FirstHeadingStart(t, p)]) + SectionBlocks(t, HeadingMatches(t, p, p))
  }

  function RenderBlock(b: Block): string {
    "[[SECTION:h2:" + b.heading + "]]\n" + b.body
  }

  function RenderBlocks(bs: seq<Block>): (r: seq<string>)
    ensures |r| == |bs|
  {
    seq(|bs|, k requires 0 <= k < |bs| => RenderBlock(bs[k]))
  }

  lemma RenderBlocksAppend(bs: seq<Block>, b: Block)
    ensures RenderBlocks(bs + [b]) == RenderBlocks(bs) + [RenderBlock(b)]
  {
  }

  /** One more section rendered after the Introduction block and the sections before it. */
  lemma RenderPrefixStep(intro: seq<Block>, sections: seq<Block>, i: nat)
    requires i < |sections|
    ensures RenderBlocks(intro + sections[..i + 1]) == RenderBlocks(intro + sections[..i]) + [RenderBlock(sections[i])]
  {
    assert intro + sections[..i + 1] == (intro + sections[..i]) + [sections[i]];
    RenderBlocksAppend(intro + sections[..i], sections[i]);
  }

  lemma SectionBlockAt(s: string, ms: seq<Span>, k: nat)
    requires ValidSpans(s, ms) && k < |ms|
    ensures SectionBlocks(s, ms)[k] == Block(Strip(s[ms[k].start..ms[k].end]),
      Strip(s[ms[k].end..if k + 1 < |ms| then ms[k + 1].start else |s|]))
  {
  }

  /** The marked text: the rendered blocks joined with blank lines. */
  function MarkedText(bs: seq<Block>): string {
    Join(RenderBlocks(bs), "\n\n")
  }

  // -------------------------------------------------------------- properties

  /** `[1-9][0-9]?\.` at the front: a numbered heading, possibly nothing more than `7.`. */
  predicate IsNumberedHeading(h: string) {
    && |h| >= 2 && '1' <= h[0] <= '9'
    && (h[1] == '.' || (|h| >= 3 && IsDigit(h[1]) && h[2] == '.'))
  }

  /** Every section heading is numbered. */
  lemma SectionHeadingNumbered(s: string, ms: seq<Span>, k: nat)
    requires ValidSpans(s, ms) && k < |ms| && NumberedAt(s, ms[k].start, ms[k].end)
    ensures IsNumberedHeading(SectionBlock(s, ms, k).heading)
  {
    var a, e := ms[k].start, ms[k].end;
    var x := s[a..e];
    var d := DigitsEnd(s, a);
    assert x[0] == s[a] && x[d - a] == '.';
    assert StripStart(x) == 0;
    var h := Strip(x);
    assert StripEnd(x) > d - a by {
      assert !IsSpace(x[d - a]);
    }
    assert h[0] == s[a] && h[d - a] == '.';
    if d == a + 2 {
      assert h[1] == s[a + 1];
    }
  }

  /** A numbered heading is neither of the two fixed headings. */
  lemma NumberedHeadingNotFixed(h: string)
    requires IsNumberedHeading(h)
    ensures h != IntroductionHeading && h != DocumentContentHeading
  {
  }

  /** The text a block carries from the source: fixed headings are not part of it. */
  function BlockText(b: Block): string {
    if b.heading == IntroductionHeading || b.heading == DocumentContentHeading then b.body
    else b.heading + b.body
  }

  function BlocksText(bs: seq<Block>): string {
    if bs == [] then [] else BlockText(bs[0]) + BlocksText(bs[1..])
  }

  lemma {:induction false} BlocksTextAppend(a: seq<Block>, b: seq<Block>)
    ensures BlocksText(a + b) == BlocksText(a) + BlocksText(b)
  {
    if a == [] {
      assert a + b == b;
    } else {
      assert (a + b)[0] == a[0];
      assert (a + b)[1..] == a[1..] + b;
      BlocksTextAppend(a[1..], b);
    }
  }

  /** A section block carries the non-whitespace text from its match to the next. */
  lemma SectionBlockKeepsText(s: string, ms: seq<Span>, k: nat)
    requires ValidSpans(s, ms) && k < |ms| && NumberedAt(s, ms[k].start, ms[k].end)
    ensures NonSpace(BlockText(SectionBlock(s, ms, k))) == NonSpace(s[ms[k].start..NextStart(s, ms, k)])
  {
    var a, e, n := ms[k].start, ms[k].end, NextStart(s, ms, k);
    var b := SectionBlock(s, ms, k);
    var h, body := Strip(s[a..e]), Strip(s[e..n]);
    assert BlockText(b) == h + body by {
      SectionHeadingNumbered(s, ms, k);
      NumberedHeadingNotFixed(b.heading);
    }
    assert NonSpace(h + body) == NonSpace(s[a..e]) + NonSpace(s[e..n]) by {
      NonSpaceAppend(h, body);
      StripKeepsText(s[a..e]);
      StripKeepsText(s[e..n]);
    }
    NonSpaceSliceSplit(s, a, e, n);
  }

  /** The text of the blocks from `k` on: block `k`'s, then the rest's. */
  lemma BlocksTextFrom(bs: seq<Block>, k: nat)
    requires k < |bs|
    ensures BlocksText(bs[k..]) == BlockText(bs[k]) + BlocksText(bs[k + 1..])
  {
    assert bs[k..][0] == bs[k];
    assert bs[k..][1..] == bs[k + 1..];
  }

  /** The section blocks from match `k` on carry all non-whitespace text from that match on. */
  lemma {:induction false} SectionBlocksKeepText(s: string, ms: seq<Span>, k: nat)
    requires ValidSpans(s, ms) && k < |ms|
    requires forall j :: 0 <= j < |ms| ==> NumberedAt(s, ms[j].start, ms[j].end)
    ensures NonSpace(BlocksText(SectionBlocks(s, ms)[k..])) == NonSpace(s[ms[k].start..])
    decreases |ms| - k
  {
    var bs := SectionBlocks(s, ms);
    var a, n := ms[k].start, NextStart(s, ms, k);
    BlocksTextFrom(bs, k);
    NonSpaceAppend(BlockText(bs[k]), BlocksText(bs[k + 1..]));
    SectionBlockKeepsText(s, ms, k);
    NonSpaceSplit(s, a, n);
    if k + 1 < |ms| {
      SectionBlocksKeepText(s, ms, k + 1);
    } else {
      assert bs[k + 1..] == [];
      assert s[n..] == [];
    }
  }

  /** The Introduction block carries the whole preamble. */
  lemma IntroKeepsText(pre: string)
    ensures NonSpace(BlocksText(IntroBlocks(pre))) == NonSpace(pre)
  {
    StripKeepsText(pre);
    if Strip(pre) != [] {
      var b := Block(IntroductionHeading, Strip(pre));
      assert BlocksText([b]) == b.body by {
        assert [b][1..] == [];
      }
    }
  }

  /** The sections, when the first starts at `f`, carry all of `t[f..]`. */
  lemma SectionsKeepText(t: string, f: nat, ms: seq<Span>)
    requires f <= |t| && ValidSpans(t, ms)
    requires forall j :: 0 <= j < |ms| ==> NumberedAt(t, ms[j].start, ms[j].end)
    requires if ms == [] then f == |t| else ms[0].start == f
    ensures NonSpace(BlocksText(SectionBlocks(t, ms))) == NonSpace(t[f..])
  {
    if ms == [] {
      assert SectionBlocks(t, ms) == [];
      assert t[f..] == [];
    } else {
      SectionBlocksKeepText(t, ms, 0);
      assert SectionBlocks(t, ms)[0..] == SectionBlocks(t, ms);
    }
  }

  /** The preamble `t[..f]` and the sections from `f` on carry all of `t`. */
  lemma SectionedKeepsText(t: string, f: nat, ms: seq<Span>)
    requires f <= |t| && ValidSpans(t, ms)
    requires forall j :: 0 <= j < |ms| ==> NumberedAt(t, ms[j].start, ms[j].end)
    requires if ms == [] then f == |t| else ms[0].start == f
    ensures NonSpace(BlocksText(IntroBlocks(t[..f]) + SectionBlocks(t, ms))) == NonSpace(t)
  {
    var intro, secs := IntroBlocks(t[..f]), SectionBlocks(t, ms);
    BlocksTextAppend(intro, secs);
    NonSpaceAppend(BlocksText(intro), BlocksText(secs));
    IntroKeepsText(t[..f]);
    SectionsKeepText(t, f, ms);
    NonSpaceSplit(t, 0, f);
    assert t[0..] == t && t[0..f] == t[..f];
  }

  /** The first heading found from `p` starts where `FirstHeadingStart` says. */
  lemma FirstHeadingStartIs(t: string, p: nat)
    requires p <= |t|
    ensures var ms := HeadingMatches(t, p, p);
      if ms == [] then FirstHeadingStart(t, p) == |t| else ms[0].start == FirstHeadingStart(t, p)
  {
  }

  /**
   * The blocks lose no text: their headings (other than the two fixed ones)
   * and bodies hold every non-whitespace character of `t`, in order.
   */
  lemma MarkedBlocksKeepText(t: string)
    ensures NonSpace(BlocksText(MarkedBlocks(t))) == NonSpace(t)
  {
    match ProbeFrom(t, 0)
    case None =>
      var b := Block(DocumentContentHeading, Strip(t));
      assert BlocksText([b]) == b.body by {
        assert [b][1..] == [];
      }
      StripKeepsText(t);
    case Some(p) =>
      FirstHeadingStartIs(t, p);
      SectionedKeepsText(t, FirstHeadingStart(t, p), HeadingMatches(t, p, p));
  }

  /**
   * The probe and the heading pattern agree unless the probe lands on a `0`:
   * then the first heading is found at the probe's position, and the code's
   * blocks are the corrected ones.
   */
  lemma AsWrittenAgrees(t: string)
    requires ProbeFrom(t, 0).Some? ==> t[ProbeFrom(t, 0).value] != '0'
    ensures MarkedBlocksAsWritten(t) == MarkedBlocks(t)
  {
    if ProbeFrom(t, 0).Some? {
      var p := ProbeFrom(t, 0).value;
      assert HeadingEnd(t, p, p).Some?;
      assert FirstHeadingStart(t, p) == p;
    }
  }

  /** Text the as-written blocks leave out: `t[p..f]` holds a non-whitespace character. */
  lemma DroppedSpanLosesText(t: string, p: nat, f: nat, ms: seq<Span>)
    requires p < f <= |t| && !IsSpace(t[p]) && ValidSpans(t, ms)
    requires forall j :: 0 <= j < |ms| ==> NumberedAt(t, ms[j].start, ms[j].end)
    requires if ms == [] then f == |t| else ms[0].start == f
    ensures |NonSpace(BlocksText(IntroBlocks(t[..p]) + SectionBlocks(t, ms)))| < |NonSpace(t)|
  {
    var intro, secs := IntroBlocks(t[..p]), SectionBlocks(t, ms);
    assert |NonSpace(BlocksText(intro + secs))| == |NonSpace(t[..p])| + |NonSpace(t[f..])| by {
      BlocksTextAppend(intro, secs);
      NonSpaceAppend(BlocksText(intro), BlocksText(secs));
      IntroKeepsText(t[..p]);
      SectionsKeepText(t, f, ms);
    }
    assert |NonSpace(t)| == |NonSpace(t[..p])| + |NonSpace(t[p..f])| + |NonSpace(t[f..])| by {
      NonSpaceSlices(t, 0, p, f);
      assert t[0..] == t && t[0..p] == t[..p];
    }
    assert |NonSpace(t[p..f])| > 0 by {
      assert t[p..f][0] == t[p];
    }
  }

  /**
   * When the probe lands on a `0` (as in `100. ` or `0. `), the heading
   * pattern cannot match there, and the text from the probe's position to
   * the first heading is in no block.
   */
  lemma AsWrittenLosesText(t: string)
    requires ProbeFrom(t, 0).Some? && t[ProbeFrom(t, 0).value] == '0'
    ensures |NonSpace(BlocksText(MarkedBlocksAsWritten(t)))| < |NonSpace(t)|
  {
    var p := ProbeFrom(t, 0).value;
    var ms := HeadingMatches(t, p, p);
    assert HeadingEnd(t, p, p).None?;
    FirstHeadingStartIs(t, p);
    var f := FirstHeadingStart(t, p);
    assert p != f by {
      if ms != [] {
        assert ms[0].start != p;
      }
    }
    DroppedSpanLosesText(t, p, f, ms);
  }

  /** The code's blocks keep every non-whitespace character exactly when the probe does not land on a `0`. */
  lemma AsWrittenKeepsTextIff(t: string)
    ensures NonSpace(BlocksText(MarkedBlocksAsWritten(t))) == NonSpace(t)
      <==> !(ProbeFrom(t, 0).Some? && t[ProbeFrom(t, 0).value] == '0')
  {
    if ProbeFrom(t, 0).Some? && t[ProbeFrom(t, 0).value] == '0' {
      AsWrittenLosesText(t);
    } else {
      AsWrittenAgrees(t);
      MarkedBlocksKeepText(t);
    }
  }

  /** The smallest such text: a `100.` before any heading. */
  lemma ProbeLandsOnZero()
    ensures ProbeFrom("Cost 100. Plan\n1. Aims", 0) == Some(6)
    ensures "Cost 100. Plan\n1. Aims"[6] == '0'
  {
    var t := "Cost 100. Plan\n1. Aims";
    forall j | 0 <= j < 6 ensures !ProbeAt(t, j) {
      if j == 5 {
        assert DigitsEnd(t, 5) == 7 && t[7] != '.';
      } else {
        assert !IsDigit(t[j]);
      }
    }
    assert ProbeAt(t, 6) by {
      assert DigitsEnd(t, 6) == 8 && t[8] == '.';
      assert SkipSpace(t, 9) == 10;
    }
    ProbeFromIs(t, 0, 6);
  }

  /** The leftmost position where the probe matches is what `ProbeFrom` finds. */
  lemma {:induction false} ProbeFromIs(s: string, i: nat, p: nat)
    requires i <= p < |s| && ProbeAt(s, p)
    requires forall j :: i <= j < p ==> !ProbeAt(s, j)
    ensures ProbeFrom(s, i) == Some(p)
    decreases p - i
  {
    if i < p {
      ProbeFromIs(s, i + 1, p);
    }
  }

  /**
   * Title removal deletes every copy of the title: when the text is pieces
   * joined by a title that cannot overlap itself, and no piece holds the
   * title, what is left is the pieces run together.
   */
  lemma TitleRemovedEverywhere(pieces: seq<string>, title: string)
    requires title != [] && pieces != [] && Borderless(title)
    requires forall k :: 0 <= k < |pieces| ==> !Occurs(pieces[k], title)
    ensures AfterTitle(Join(pieces, title), Some(title)) == Strip(Concat(pieces))
  {
    ReplaceDeletesEveryCopy(pieces, title);
  }

  // ----------------------------------------------------------------- method

  /**
   * `prepare_marked_text`: returns the title and the marked text, with the
   * preamble cut where the probe matched, as the code does.
   */
  method PrepareMarkedText(text: string) returns (title: Option<string>, marked: string)
    ensures title == Title.ExtractTitle(text)
    ensures marked == MarkedText(MarkedBlocksAsWritten(AfterTitle(text, title)))
  {
    title := Title.FindTitle(text);
    var t := text;
    if title.Some? && title.value != [] {
      t := Strip(ReplaceAll(t, title.value, ""));
    }
    marked := MarkSections(t);
  }

  /** The loop over the heading matches: one rendered block per match, after `result`. */
  method AppendSections(t: string, ms: seq<Span>, result: seq<string>, ghost intro: seq<Block>) returns (result': seq<string>)
    requires ValidSpans(t, ms) && result == RenderBlocks(intro)
    ensures result' == RenderBlocks(intro + SectionBlocks(t, ms))
  {
    ghost var sections := SectionBlocks(t, ms);
    result' := result;
    for i := 0 to |ms|
      invariant result' == RenderBlocks(intro + sections[..i])
    {
      var heading := Strip(t[ms[i].start..ms[i].end]);
      var next := if i + 1 < |ms| then ms[i + 1].start else |t|;
      var content := Strip(t[ms[i].end..next]);
      SectionBlockAt(t, ms, i);
      RenderPrefixStep(intro, sections, i);
      result' := result' + [RenderBlock(Block(heading, content))];
    }
    assert sections[..|ms|] == sections;
  }

  /** The marking half of `prepare_marked_text`, on the text after title removal. */
  method MarkSections(t: string) returns (marked: string)
    ensures marked == MarkedText(MarkedBlocksAsWritten(t))
  {
    var probe := ProbeFrom(t, 0);
    if probe.None? {
      marked := RenderBlock(Block(DocumentContentHeading, Strip(t)));
      assert RenderBlocks([Block(DocumentContentHeading, Strip(t))]) == [marked];
      return;
    }
    var p := probe.value;
    var ms := HeadingMatches(t, p, p);
    var result: seq<string> := [];
    var preamble := Strip(t[..p]);
    if preamble != [] {
      result := result + [RenderBlock(Block(IntroductionHeading, preamble))];
    }
    ghost var intro := IntroBlocks(t[..p]);
    assert result == RenderBlocks(intro);
    result := AppendSections(t, ms, result, intro);
    marked := Join(result, "\n\n");
  }
}

=== FILE: text.dfy ===
/**
 * Character classes and the Python string primitives the pipeline is built
 * from: `strip`, `split`, `splitlines`, `replace`, `join`, `upper`, and the
 * decimal rendering of section numbers.
 *
 * Python's `re` and `str` methods work on Unicode classes; the letter, digit
 * and word classes here are their ASCII members.  Whitespace is the full set
 * that `str.isspace()` (and `\s` in a `re` pattern) accepts.
 */
module Text {

  /** A value that may be absent (`None` in Python). */
  datatype Option<T> = None | Some(value: T)

  /** Concatenation regroups freely. */
  lemma AppendAssoc<T>(a: seq<T>, b: seq<T>, c: seq<T>)
    ensures a + (b + c) == a + b + c
  {
  }

  /** `str.isspace()`, and what `\s` matches in a pattern over `str`. */
  predicate IsSpace(c: char) {
    || c == ' ' || c == '\t' || c == '\n' || c == '\r' || c == '\U{B}' || c == '\U{C}'
    || ('\U{1C}' <= c <= '\U{1F}') || c == '\U{85}' || c == '\U{A0}' || c == '\U{1680}'
    || ('\U{2000}' <= c <= '\U{200A}') || c == '\U{2028}' || c == '\U{2029}'
    || c == '\U{202F}' || c == '\U{205F}' || c == '\U{3000}'
  }

  /** The boundaries `str.splitlines()` breaks at (`\r\n` counts as one). */
  predicate IsLineBreak(c: char) {
    || c == '\n' || c == '\r' || c == '\U{B}' || c == '\U{C}'
    || ('\U{1C}' <= c <= '\U{1E}') || c == '\U{85}' || c == '\U{2028}' || c == '\U{2029}'
  }

  predicate IsDigit(c: char) { '0' <= c <= '9' }
  predicate IsLower(c: char) { 'a' <= c <= 'z' }
  predicate IsUpperLetter(c: char) { 'A' <= c <= 'Z' }
  predicate IsLetter(c: char) { IsLower(c) || IsUpperLetter(c) }
  predicate IsAlnum(c: char) { IsLetter(c) || IsDigit(c) }
  /** `\w` */
  predicate IsWord(c: char) { IsAlnum(c) || c == '_' }

  /** `\b` at position `i` of `s`: a word character on exactly one side. */
  predicate WordBoundary(s: string, i: nat)
    requires i <= |s|
  {
    (i > 0 && IsWord(s[i - 1])) != (i < |s| && IsWord(s[i]))
  }

  function ToUpper(c: char): (u: char)
    ensures !IsLower(u)
    ensures IsLower(c) ==> IsUpperLetter(u)
    ensures !IsLower(c) ==> u == c
  {
    if IsLower(c) then (c as int - 32) as char else c
  }

  /** `str.upper()` */
  function Upper(s: string): (r: string)
    ensures |r| == |s|
    ensures forall i :: 0 <= i < |s| ==> r[i] == ToUpper(s[i])
  {
    seq(|s|, i requires 0 <= i < |s| => ToUpper(s[i]))
  }

  /** A string equals its upper-cased form exactly when it holds no lower-case letter. */
  lemma UpperFixedIffNoLower(s: string)
    ensures Upper(s) == s <==> forall i :: 0 <= i < |s| ==> !IsLower(s[i])
  {
    if Upper(s) == s {
      forall i | 0 <= i < |s| ensures !IsLower(s[i]) {
        assert s[i] == Upper(s)[i] == ToUpper(s[i]);
      }
    }
  }

  function CountLetters(s: string): (n: nat)
    ensures n <= |s|
  {
    if s == [] then 0 else (if IsLetter(s[0]) then 1 else 0) + CountLetters(s[1..])
  }

  function CountDigits(s: string): (n: nat)
    ensures n <= |s|
  {
    if s == [] then 0 else (if IsDigit(s[0]) then 1 else 0) + CountDigits(s[1..])
  }

  lemma {:induction false} CountLettersAll(s: string)
    requires forall i :: 0 <= i < |s| ==> IsLetter(s[i])
    ensures CountLetters(s) == |s|
  {
    if s != [] {
      CountLettersAll(s[1..]);
    }
  }

  predicate AllSpace(s: string) {
    forall i :: 0 <= i < |s| ==> IsSpace(s[i])
  }

  /** Last index at or before `j`, and not below `lo`, that follows a non-whitespace character. */
  function SkipSpaceBack(s: string, lo: nat, j: nat): (k: nat)
    requires lo <= j <= |s|
    ensures lo <= k <= j
    ensures forall m :: k <= m < j ==> IsSpace(s[m])
    ensures k == lo || !IsSpace(s[k - 1])
    decreases j - lo
  {
    if j == lo || !IsSpace(s[j - 1]) then j else SkipSpaceBack(s, lo, j - 1)
  }

  /** Where `str.strip()` cuts `s`: the text kept is `s[StripStart(s)..StripEnd(s)]`. */
  function StripStart(s: string): nat {
    SkipSpace(s, 0)
  }

  function StripEnd(s: string): (e: nat)
    ensures StripStart(s) <= e <= |s|
  {
    SkipSpaceBack(s, StripStart(s), |s|)
  }

  /** `str.strip()`: the result is a slice of `s` cut only at whitespace. */
  function Strip(s: string): (r: string)
    ensures r == s[StripStart(s)..StripEnd(s)]
    ensures forall k :: 0 <= k < StripStart(s) ==> IsSpace(s[k])
    ensures forall k :: StripEnd(s) <= k < |s| ==> IsSpace(s[k])
    ensures r == [] || (!IsSpace(r[0]) && !IsSpace(r[|r| - 1]))
  {
    s[StripStart(s)..StripEnd(s)]
  }

  /** `s` is its strip with whitespace on either side. */
  lemma StripParts(s: string)
    ensures s == s[..StripStart(s)] + Strip(s) + s[StripEnd(s)..]
    ensures AllSpace(s[..StripStart(s)]) && AllSpace(s[StripEnd(s)..])
  {
    var a, b := StripStart(s), StripEnd(s);
    assert s == s[..a] + s[a..b] + s[b..];
    forall k | 0 <= k < a ensures IsSpace(s[..a][k]) {
      assert s[..a][k] == s[k];
    }
    forall k | 0 <= k < |s| - b ensures IsSpace(s[b..][k]) {
      assert s[b..][k] == s[b + k];
    }
  }

  /** A string with no whitespace at either end is its own strip. */
  lemma StripTrimmed(s: string)
    requires s == [] || (!IsSpace(s[0]) && !IsSpace(s[|s| - 1]))
    ensures Strip(s) == s
  {
  }

  /** Stripping is idempotent. */
  lemma StripIdempotent(s: string)
    ensures Strip(Strip(s)) == Strip(s)
  {
    StripTrimmed(Strip(s));
  }

  /** First index at or after `i` that does not hold whitespace (or `|s|`). */
  function SkipSpace(s: string, i: nat): (j: nat)
    requires i <= |s|
    ensures i <= j <= |s|
    ensures forall k :: i <= k < j ==> IsSpace(s[k])
    ensures j == |s| || !IsSpace(s[j])
    decreases |s| - i
  {
    if i == |s| || !IsSpace(s[i]) then i else SkipSpace(s, i + 1)
  }

  /** First index at or after `i` that holds whitespace (or `|s|`). */
  function SkipWord(s: string, i: nat): (j: nat)
    requires i <= |s|
    ensures i <= j <= |s|
    ensures forall k :: i <= k < j ==> !IsSpace(s[k])
    ensures j == |s| || IsSpace(s[j])
    decreases |s| - i
  {
    if i == |s| || IsSpace(s[i]) then i else SkipWord(s, i + 1)
  }

  /** The tokens of `s[i..]`, as `str.split()` finds them. */
  function SplitFrom(s: string, i: nat): (r: seq<string>)
    requires i <= |s|
    decreases |s| - i
  {
    var a := SkipSpace(s, i);
    if a == |s| then []
    else
      var b := SkipWord(s, a);
      [s[a..b]] + SplitFrom(s, b)
  }

  /** `str.split()` with no separator: the maximal whitespace-free runs, in order. */
  function Split(s: string): seq<string> {
    SplitFrom(s, 0)
  }

  /** Every character of every token comes from the string. */
  lemma {:induction false} SplitTokenChars(s: string, i: nat, k: nat, c: char)
    requires i <= |s| && k < |SplitFrom(s, i)| && c in SplitFrom(s, i)[k]
    ensures c in s[i..]
    decreases |s| - i
  {
    var a := SkipSpace(s, i);
    assert a < |s|;
    var b := SkipWord(s, a);
    assert SplitFrom(s, i) == [s[a..b]] + SplitFrom(s, b);
    if k > 0 {
      assert c in SplitFrom(s, b)[k - 1];
      SplitTokenChars(s, b, k - 1, c);
      InLaterSlice(s, i, b, |s|, c);
    } else {
      assert c in s[a..b];
      InLaterSlice(s, i, a, b, c);
    }
  }

  lemma InLaterSlice(s: string, i: nat, a: nat, b: nat, c: char)
    requires i <= a <= b <= |s| && c in s[a..b]
    ensures c in s[i..]
  {
    var m :| 0 <= m < |s[a..b]| && s[a..b][m] == c;
    assert s[i..][a - i + m] == c;
  }

  /** When `s` ends in a non-space character, the last token ends with that character. */
  lemma {:induction false} SplitLastEndsWith(s: string, i: nat)
    requires i < |s| && !IsSpace(s[|s| - 1])
    ensures SplitFrom(s, i) != []
    ensures var r := SplitFrom(s, i); var w := r[|r| - 1]; w != [] && w[|w| - 1] == s[|s| - 1]
    decreases |s| - i
  {
    var a := SkipSpace(s, i);
    var b := SkipWord(s, a);
    if b < |s| {
      SplitLastEndsWith(s, b);
    }
  }

  /** Index of the first line break in `s`, or `|s|`. */
  function LineLen(s: string): (n: nat)
    ensures n <= |s|
    ensures forall i :: 0 <= i < n ==> !IsLineBreak(s[i])
    ensures n == |s| || IsLineBreak(s[n])
  {
    if s == [] || IsLineBreak(s[0]) then 0 else 1 + LineLen(s[1..])
  }

  /** `str.splitlines()`: no line holds a break; a trailing break adds no empty line. */
  function SplitLines(s: string): (r: seq<string>)
    ensures forall k, i :: 0 <= k < |r| && 0 <= i < |r[k]| ==> !IsLineBreak(r[k][i])
    decreases |s|
  {
    if s == [] then []
    else
      var n := LineLen(s);
      if n == |s| then [s]
      else
        var next := if s[n] == '\r' && n + 1 < |s| && s[n + 1] == '\n' then n + 2 else n + 1;
        [s[..n]] + SplitLines(s[next..])
  }

  predicate StartsWith(s: string, p: string) {
    |p| <= |s| && s[..|p|] == p
  }

  /** `w` occurs in `s` starting at index `i`. */
  predicate OccursAt(s: string, w: string, i: nat) {
    i + |w| <= |s| && s[i..i + |w|] == w
  }

  /** `w in s` for strings. */
  predicate Occurs(s: string, w: string) {
    exists i: nat | i <= |s| :: OccursAt(s, w, i)
  }

  /** An occurrence inside a slice is an occurrence in the whole string. */
  lemma OccursInSlice(p: string, a: nat, e: nat, w: string, k: nat)
    requires a <= e <= |p|
    ensures OccursAt(p[a..e], w, k) ==> OccursAt(p, w, a + k)
  {
    if OccursAt(p[a..e], w, k) {
      forall m | 0 <= m < |w| ensures p[a + k + m] == w[m] {
        assert w[m] == p[a..e][k..k + |w|][m] == p[a..e][k + m];
      }
      assert p[a + k..a + k + |w|] == w;
    }
  }

  /** A pattern holding a character the text lacks does not occur in it. */
  lemma NotOccursWithoutChar(s: string, w: string, c: char)
    requires c in w && c !in s
    ensures !Occurs(s, w)
  {
    var j :| 0 <= j < |w| && w[j] == c;
    forall i: nat | i <= |s| ensures !OccursAt(s, w, i) {
      if i + |w| <= |s| {
        assert s[i + j] != c;
        assert s[i..i + |w|][j] != w[j];
      }
    }
  }

  /** `s.replace(pat, rep)`: every non-overlapping occurrence, scanning left to right. */
  function ReplaceAll(s: string, pat: string, rep: string): string
    requires pat != []
    decreases |s|
  {
    if |s| < |pat| then s
    else if s[..|pat|] == pat then rep + ReplaceAll(s[|pat|..], pat, rep)
    else [s[0]] + ReplaceAll(s[1..], pat, rep)
  }

  /** A string in which the pattern does not occur is left as it is. */
  lemma {:induction false} ReplaceAbsent(s: string, pat: string, rep: string)
    requires pat != [] && !Occurs(s, pat)
    ensures ReplaceAll(s, pat, rep) == s
    decreases |s|
  {
    if |s| >= |pat| {
      assert !OccursAt(s, pat, 0);
      forall i: nat | i <= |s[1..]| ensures !OccursAt(s[1..], pat, i) {
        assert !OccursAt(s, pat, i + 1);
      }
      ReplaceAbsent(s[1..], pat, rep);
    }
  }

  /** Every character of the result comes from the input or from the replacement. */
  lemma {:induction false} ReplaceChars(s: string, pat: string, rep: string, c: char)
    requires pat != [] && c in ReplaceAll(s, pat, rep)
    ensures c in s || c in rep
    decreases |s|
  {
    if |s| < |pat| {
    } else if s[..|pat|] == pat {
      if c !in rep {
        ReplaceChars(s[|pat|..], pat, rep, c);
      }
    } else {
      if c != s[0] {
        ReplaceChars(s[1..], pat, rep, c);
      }
    }
  }

  /** Replacing a one-character pattern by text without that character removes it entirely. */
  lemma {:induction false} ReplaceRemovesChar(s: string, pat: string, rep: string)
    requires |pat| == 1 && pat[0] !in rep
    ensures pat[0] !in ReplaceAll(s, pat, rep)
    decreases |s|
  {
    if |s| >= 1 {
      if s[..1] == pat {
        ReplaceRemovesChar(s[1..], pat, rep);
      } else {
        assert s[0] != pat[0] by { assert s[..1] == [s[0]]; }
        ReplaceRemovesChar(s[1..], pat, rep);
      }
    }
  }

  /** A prefix that cannot start an occurrence passes through unchanged. */
  lemma {:induction false} ReplaceSkipsPrefix(a: string, r: string, pat: string, rep: string)
    requires pat != [] && pat[0] !in a
    ensures ReplaceAll(a + r, pat, rep) == a + ReplaceAll(r, pat, rep)
    decreases |a|
  {
    var s := a + r;
    if a == [] {
      assert s == r;
    } else if |s| < |pat| {
      assert ReplaceAll(r, pat, rep) == r;
    } else {
      assert s[..|pat|] != pat by { assert s[0] == a[0]; }
      assert s[1..] == a[1..] + r;
      ReplaceSkipsPrefix(a[1..], r, pat, rep);
      calc {
        ReplaceAll(s, pat, rep);
        [s[0]] + ReplaceAll(a[1..] + r, pat, rep);
        [a[0]] + (a[1..] + ReplaceAll(r, pat, rep));
        { assert a == [a[0]] + a[1..]; }
        a + ReplaceAll(r, pat, rep);
      }
    }
  }

  /** Replacing a pattern by itself changes nothing. */
  lemma {:induction false} ReplaceSelf(s: string, pat: string)
    requires pat != []
    ensures ReplaceAll(s, pat, pat) == s
    decreases |s|
  {
    if |s| >= |pat| {
      if s[..|pat|] == pat {
        ReplaceSelf(s[|pat|..], pat);
        assert s == s[..|pat|] + s[|pat|..];
      } else {
        ReplaceSelf(s[1..], pat);
        assert s == [s[0]] + s[1..];
      }
    }
  }

  /** An occurrence at the front is replaced and the scan continues after it. */
  lemma ReplaceAtFront(pat: string, r: string, rep: string)
    requires pat != []
    ensures ReplaceAll(pat + r, pat, rep) == rep + ReplaceAll(r, pat, rep)
  {
    assert (pat + r)[..|pat|] == pat;
    assert (pat + r)[|pat|..] == r;
  }

  /** `sep.join(parts)` */
  function Join(parts: seq<string>, sep: string): string {
    if parts == [] then []
    else if |parts| == 1 then parts[0]
    else parts[0] + sep + Join(parts[1..], sep)
  }

  /** `''.join(parts)` */
  function Concat(parts: seq<string>): string {
    if parts == [] then [] else parts[0] + Concat(parts[1..])
  }

  lemma ConcatAppend(parts: seq<string>, last: string)
    ensures Concat(parts + [last]) == Concat(parts) + last
  {
    if parts != [] {
      assert (parts + [last])[1..] == parts[1..] + [last];
      ConcatAppend(parts[1..], last);
    }
  }

  lemma JoinAppend(parts: seq<string>, last: string, sep: string)
    requires parts != []
    ensures Join(parts + [last], sep) == Join(parts, sep) + sep + last
  {
    if |parts| > 1 {
      assert (parts + [last])[1..] == parts[1..] + [last];
      JoinAppend(parts[1..], last, sep);
    }
  }

  /** No proper prefix of `w` is also a suffix of it, so two copies of `w` cannot overlap. */
  predicate Borderless(w: string) {
    forall m :: 0 < m < |w| ==> w[m..] != w[..|w| - m]
  }

  /**
   * A borderless pattern right after a prefix in which it does not occur is
   * the first occurrence: the prefix passes through and the pattern is
   * replaced.
   */
  lemma {:induction false} ReplaceAfterClearPrefix(a: string, w: string, b: string, rep: string)
    requires w != [] && Borderless(w) && !Occurs(a, w)
    ensures ReplaceAll(a + w + b, w, rep) == a + rep + ReplaceAll(b, w, rep)
    decreases |a|
  {
    var s := a + w + b;
    if a == [] {
      assert s == w + b;
      ReplaceAtFront(w, b, rep);
    } else {
      NoOccurrenceAtFront(a, w, b);
      assert s[1..] == a[1..] + w + b;
      forall i: nat | i <= |a[1..]| ensures !OccursAt(a[1..], w, i) {
        OccursInSlice(a, 1, |a|, w, i);
        assert !OccursAt(a, w, i + 1);
      }
      ReplaceAfterClearPrefix(a[1..], w, b, rep);
      calc {
        ReplaceAll(s, w, rep);
        [s[0]] + ReplaceAll(a[1..] + w + b, w, rep);
        [a[0]] + (a[1..] + rep + ReplaceAll(b, w, rep));
        { assert a == [a[0]] + a[1..]; }
        a + rep + ReplaceAll(b, w, rep);
      }
    }
  }

  /** Nor does it start at the front of `a + w + b`, for a non-empty `a`. */
  lemma NoOccurrenceAtFront(a: string, w: string, b: string)
    requires a != [] && w != [] && Borderless(w) && !Occurs(a, w)
    ensures (a + w + b)[..|w|] != w
  {
    var s := a + w + b;
    if |w| <= |a| {
      assert !OccursAt(a, w, 0);
      assert s[..|a|] == a;
      assert s[..|w|] == s[..|a|][..|w|];
    } else {
      var m := |a|;
      assert s[m..|w|] == w[..|w| - m];
      assert w[m..] != w[..|w| - m];
      assert s[..|w|][m..] == s[m..|w|];
    }
  }

  /**
   * Removing a borderless string that occurs in none of the surrounding
   * pieces deletes every copy of it: `Join(pieces, w).replace(w, "") ==
   * "".join(pieces)`.
   */
  lemma {:induction false} ReplaceDeletesEveryCopy(pieces: seq<string>, w: string)
    requires w != [] && pieces != [] && Borderless(w)
    requires forall k :: 0 <= k < |pieces| ==> !Occurs(pieces[k], w)
    ensures ReplaceAll(Join(pieces, w), w, "") == Concat(pieces)
  {
    if |pieces| == 1 {
      ReplaceAbsent(pieces[0], w, "");
      assert pieces[0] + [] == pieces[0];
      assert Concat(pieces) == pieces[0] + Concat([]);
    } else {
      var rest := Join(pieces[1..], w);
      assert !Occurs(pieces[0], w);
      ReplaceAfterClearPrefix(pieces[0], w, rest, "");
      forall k | 0 <= k < |pieces[1..]| ensures !Occurs(pieces[1..][k], w) {
        assert pieces[1..][k] == pieces[k + 1];
      }
      ReplaceDeletesEveryCopy(pieces[1..], w);
      assert pieces[0] + [] == pieces[0];
    }
  }

  function DigitChar(d: nat): (c: char)
    requires d < 10
    ensures IsDigit(c)
  {
    ('0' as int + d) as char
  }

  /** `str(n)` for a natural number. */
  function NatToString(n: nat): (r: string)
    ensures r != [] && forall i :: 0 <= i < |r| ==> IsDigit(r[i])
    decreases n
  {
    if n < 10 then [DigitChar(n)] else NatToString(n / 10) + [DigitChar(n % 10)]
  }

  /** `int(s)` for a string of decimal digits. */
  function ParseNat(s: string): nat
    requires forall i :: 0 <= i < |s| ==> IsDigit(s[i])
  {
    if s == [] then 0
    else
      assert IsDigit(s[|s| - 1]);
      10 * ParseNat(s[..|s| - 1]) + (s[|s| - 1] as int - '0' as int)
  }

  /** Decimal rendering can be read back, so distinct numbers give distinct strings. */
  lemma {:induction false} NatToStringRoundTrip(n: nat)
    ensures ParseNat(NatToString(n)) == n
    decreases n
  {
    if n >= 10 {
      var r := NatToString(n);
      assert r[..|r| - 1] == NatToString(n / 10);
      NatToStringRoundTrip(n / 10);
    }
  }

  lemma NatToStringInjective(m: nat, n: nat)
    requires m != n
    ensures NatToString(m) != NatToString(n)
  {
    NatToStringRoundTrip(m);
    NatToStringRoundTrip(n);
  }

  // ------------------------------------------------ non-whitespace content

  /** The characters of `s` that are not whitespace, in order. */
  function NonSpace(s: string): string {
    if s == [] then [] else (if IsSpace(s[0]) then [] else [s[0]]) + NonSpace(s[1..])
  }

  lemma {:induction false} NonSpaceAppend(a: string, b: string)
    ensures NonSpace(a + b) == NonSpace(a) + NonSpace(b)
  {
    if a == [] {
      assert a + b == b;
    } else {
      var h := if IsSpace(a[0]) then [] else [a[0]];
      assert (a + b)[0] == a[0];
      assert (a + b)[1..] == a[1..] + b;
      NonSpaceAppend(a[1..], b);
      assert NonSpace(a + b) == h + NonSpace(a[1..] + b);
      AppendAssoc(h, NonSpace(a[1..]), NonSpace(b));
    }
  }

  lemma {:induction false} NonSpaceOfSpace(a: string)
    requires AllSpace(a)
    ensures NonSpace(a) == []
  {
    if a != [] {
      NonSpaceOfSpace(a[1..]);
    }
  }

  lemma {:induction false} NonSpaceMember(s: string, c: char)
    requires !IsSpace(c)
    ensures c in s <==> c in NonSpace(s)
  {
    if s != [] {
      NonSpaceMember(s[1..], c);
      assert s == [s[0]] + s[1..];
    }
  }

  /** Skipping an all-whitespace stretch does not change the non-whitespace content. */
  lemma NonSpaceSkip(s: string, i: nat, j: nat)
    requires i <= j <= |s| && forall k :: i <= k < j ==> IsSpace(s[k])
    ensures NonSpace(s[i..]) == NonSpace(s[j..])
  {
    assert s[i..] == s[i..j] + s[j..];
    NonSpaceAppend(s[i..j], s[j..]);
    NonSpaceOfSpace(s[i..j]);
  }

  /** Stripping only removes whitespace. */
  lemma StripKeepsText(s: string)
    ensures NonSpace(Strip(s)) == NonSpace(s)
  {
    StripParts(s);
    var head, tail := s[..StripStart(s)], s[StripEnd(s)..];
    NonSpaceAppend(head + Strip(s), tail);
    NonSpaceAppend(head, Strip(s));
    NonSpaceOfSpace(head);
    NonSpaceOfSpace(tail);
  }


  /** Cutting `s[a..n]` at `e` splits its non-whitespace content the same way. */
  lemma NonSpaceSliceSplit(s: string, a: nat, e: nat, n: nat)
    requires a <= e <= n <= |s|
    ensures NonSpace(s[a..n]) == NonSpace(s[a..e]) + NonSpace(s[e..n])
  {
    assert s[a..n] == s[a..e] + s[e..n];
    NonSpaceAppend(s[a..e], s[e..n]);
  }

  lemma NonSpaceSlices(s: string, a: nat, e: nat, n: nat)
    requires a <= e <= n <= |s|
    ensures NonSpace(s[a..]) == NonSpace(s[a..e]) + (NonSpace(s[e..n]) + NonSpace(s[n..]))
  {
    assert s[a..] == s[a..e] + (s[e..n] + s[n..]);
    NonSpaceAppend(s[a..e], s[e..n] + s[n..]);
    NonSpaceAppend(s[e..n], s[n..]);
  }

  /** Cutting `s[a..]` at `n` splits its non-whitespace content the same way. */
  lemma NonSpaceSplit(s: string, a: nat, n: nat)
    requires a <= n <= |s|
    ensures NonSpace(s[a..]) == NonSpace(s[a..n]) + NonSpace(s[n..])
  {
    assert s[a..] == s[a..n] + s[n..];
    NonSpaceAppend(s[a..n], s[n..]);
  }

  /** First index of the whitespace-free run that ends at `j`, not below `lo`. */
  function WordStartBack(s: string, lo: nat, j: nat): (k: nat)
    requires lo <= j <= |s|
    ensures lo <= k <= j
    ensures forall m :: k <= m < j ==> !IsSpace(s[m])
    ensures k == lo || IsSpace(s[k - 1])
    decreases j - lo
  {
    if j == lo || IsSpace(s[j - 1]) then j else WordStartBack(s, lo, j - 1)
  }

  /**
   * The last token of `str.split()` read backwards: skip the trailing
   * whitespace, then take the run of non-whitespace before it.
   */
  lemma {:induction false} SplitFromLast(s: string, i: nat)
    requires i <= |s|
    ensures var e := SkipSpaceBack(s, i, |s|);
      && (SplitFrom(s, i) == [] <==> e == i)
      && (e > i ==> SplitFrom(s, i)[|SplitFrom(s, i)| - 1] == s[WordStartBack(s, i, e)..e])
    decreases |s| - i
  {
    var a := SkipSpace(s, i);
    if a == |s| {
      SkipSpaceBackIs(s, i, |s|, i);
    } else {
      var b := SkipWord(s, a);
      assert SplitFrom(s, i) == [s[a..b]] + SplitFrom(s, b);
      SplitFromLast(s, b);
      var e' := SkipSpaceBack(s, b, |s|);
      if e' == b {
        LastOfOne(s, i, a, b);
      } else {
        LastOfMore(s, i, b, e');
      }
    }
  }

  /** A single token `s[a..b]`: it is the last one. */
  lemma LastOfOne(s: string, i: nat, a: nat, b: nat)
    requires i <= a < b <= |s|
    requires a == i || IsSpace(s[a - 1])
    requires forall m :: a <= m < b ==> !IsSpace(s[m])
    requires SkipSpaceBack(s, b, |s|) == b
    ensures SkipSpaceBack(s, i, |s|) == b && WordStartBack(s, i, b) == a
  {
    SkipSpaceBackIs(s, i, |s|, b);
    WordStartBackIs(s, i, b, a);
  }

  /** More tokens after position `b`: the last one is found from `b` as from `i`. */
  lemma LastOfMore(s: string, i: nat, b: nat, e: nat)
    requires i <= b < |s| && IsSpace(s[b])
    requires e == SkipSpaceBack(s, b, |s|) && e > b
    ensures SkipSpaceBack(s, i, |s|) == e && WordStartBack(s, i, e) == WordStartBack(s, b, e)
  {
    SkipSpaceBackIs(s, i, |s|, e);
    var k := WordStartBack(s, b, e);
    assert !IsSpace(s[k]);
    WordStartBackIs(s, i, e, k);
  }

  /** The word that ends at `j` starts no later than any position of a non-space run reaching `j`. */
  lemma {:induction false} WordStartBackBefore(s: string, lo: nat, j: nat, at: nat)
    requires lo <= at < j <= |s| && forall k :: at <= k < j ==> !IsSpace(s[k])
    ensures WordStartBack(s, lo, j) <= at
    decreases j
  {
    if at < j - 1 {
      WordStartBackBefore(s, lo, j - 1, at);
    }
  }

  /** `SkipSpaceBack` is the one index with only whitespace after it and none just before. */
  lemma {:induction false} SkipSpaceBackIs(s: string, lo: nat, j: nat, k: nat)
    requires lo <= k <= j <= |s| && forall m :: k <= m < j ==> IsSpace(s[m])
    requires k == lo || !IsSpace(s[k - 1])
    ensures SkipSpaceBack(s, lo, j) == k
    decreases j
  {
    if k < j {
      SkipSpaceBackIs(s, lo, j - 1, k);
    }
  }

  lemma {:induction false} WordStartBackIs(s: string, lo: nat, j: nat, k: nat)
    requires lo <= k <= j <= |s| && forall m :: k <= m < j ==> !IsSpace(s[m])
    requires k == lo || IsSpace(s[k - 1])
    ensures WordStartBack(s, lo, j) == k
    decreases j
  {
    if k < j {
      WordStartBackIs(s, lo, j - 1, k);
    }
  }
}

=== FILE: title.dfy ===
/**
 * `extract_title` of improved_docliberator_5.py: the first line of the text
 * that, once stripped, looks like a title.
 */
module Title {
  import opened Text

  /**
   * The five tests a stripped line must pass: at least 10 characters, no
   * lower-case letters (`upper()` leaves it alone), at least 10 letters,
   * digits under 40% of its length (`digits < len * 0.4`, i.e.
   * `5 * digits < 2 * len`), and more than two whitespace-separated words.
   */
  predicate IsTitleLine(t: string) {
    && |t| >= 10
    && Upper(t) == t
    && CountLetters(t) >= 10
    && 5 * CountDigits(t) < 2 * |t|
    && |Split(t)| > 2
  }

  /** Line `k`, at or after line `from`, is the first there whose strip passes the tests, and that strip is `t`. */
  predicate FirstTitleAt(lines: seq<string>, from: nat, k: nat, t: string) {
    && from <= k < |lines|
    && t == Strip(lines[k])
    && IsTitleLine(t)
    && forall j :: from <= j < k ==> !IsTitleLine(Strip(lines[j]))
  }

  /** The index of the first line, from line `from` on, whose strip passes the tests (`|lines|` if none does). */
  function TitleIndex(lines: seq<string>, from: nat): (k: nat)
    requires from <= |lines|
    ensures from <= k <= |lines|
    ensures k < |lines| ==> IsTitleLine(Strip(lines[k]))
    ensures forall j :: from <= j < k ==> !IsTitleLine(Strip(lines[j]))
    decreases |lines| - from
  {
    if from == |lines| || IsTitleLine(Strip(lines[from])) then from
    else
      var k := TitleIndex(lines, from + 1);
      NoTitleFrom(lines, from, k);
      k
  }

  lemma NoTitleFrom(lines: seq<string>, from: nat, k: nat)
    requires from < k <= |lines| && !IsTitleLine(Strip(lines[from]))
    requires forall j :: from + 1 <= j < k ==> !IsTitleLine(Strip(lines[j]))
    ensures forall j :: from <= j < k ==> !IsTitleLine(Strip(lines[j]))
  {
  }

  /** The stripped first title line of the text, if there is one. */
  function ExtractTitle(text: string): (r: Option<string>)
    ensures var lines := SplitLines(text);
      && (r.None? <==> forall k :: 0 <= k < |lines| ==> !IsTitleLine(Strip(lines[k])))
      && (r.Some? ==> FirstTitleAt(lines, 0, TitleIndex(lines, 0), r.value))
  {
    var lines := SplitLines(text);
    var k := TitleIndex(lines, 0);
    if k == |lines| then None else Some(Strip(lines[k]))
  }

  /** Only the first passing line can be the first passing line. */
  lemma {:induction false} TitleIndexIs(lines: seq<string>, from: nat, k: nat)
    requires from <= k <= |lines|
    requires k < |lines| ==> IsTitleLine(Strip(lines[k]))
    requires forall j :: from <= j < k ==> !IsTitleLine(Strip(lines[j]))
    ensures TitleIndex(lines, from) == k
    decreases k - from
  {
    if from < k {
      TitleIndexIs(lines, from + 1, k);
    }
  }

  /** `extract_title`: scan the lines in order and return the first stripped line that passes. */
  method FindTitle(text: string) returns (title: Option<string>)
    ensures title == ExtractTitle(text)
  {
    var lines := SplitLines(text);
    var i := 0;
    while i < |lines|
      invariant i <= |lines|
      invariant forall j :: 0 <= j < i ==> !IsTitleLine(Strip(lines[j]))
    {
      var stripped := Strip(lines[i]);
      if IsTitleLine(stripped) {
        TitleIndexIs(lines, 0, i);
        return Some(stripped);
      }
      NoTitleStep(lines, i);
      i := i + 1;
    }
    TitleIndexIs(lines, 0, |lines|);
    return None;
  }

  lemma NoTitleStep(lines: seq<string>, i: nat)
    requires i < |lines| && !IsTitleLine(Strip(lines[i]))
    requires forall j :: 0 <= j < i ==> !IsTitleLine(Strip(lines[j]))
    ensures forall j :: 0 <= j < i + 1 ==> !IsTitleLine(Strip(lines[j]))
  {
  }

  /**
   * A whole line, trimmed, at least 10 characters long, with no lower-case
   * letter and no line break in it.
   */
  predicate TitleShaped(t: string) {
    && |t| >= 10
    && !IsSpace(t[0]) && !IsSpace(t[|t| - 1])
    && forall i :: 0 <= i < |t| ==> !IsLower(t[i]) && !IsLineBreak(t[i])
  }

  lemma StrippedLineShape(line: string, t: string)
    requires forall i :: 0 <= i < |line| ==> !IsLineBreak(line[i])
    requires t == Strip(line) && |t| >= 10 && Upper(t) == t
    ensures TitleShaped(t)
  {
    UpperFixedIffNoLower(t);
    forall i | 0 <= i < |t| ensures !IsLineBreak(t[i]) {
      assert t[i] == line[StripStart(line) + i];
    }
  }

  /** Every title `extract_title` returns has that shape. */
  lemma TitleShape(text: string)
    requires ExtractTitle(text).Some?
    ensures TitleShaped(ExtractTitle(text).value)
  {
    var lines := SplitLines(text);
    var t := ExtractTitle(text).value;
    var k := TitleIndex(lines, 0);
    StrippedLineShape(lines[k], t);
  }
}
